=== FILE: README.md ===
# jlox core in Dafny

A functional model of the front end and tree-walking evaluator of jlox, a Java
interpreter for a subset of the Lox language: the character-cursor scanner,
the recursive-descent parser with panic-mode recovery, the chain of scope
frames, the interpreter for expressions, `print`, `var` and blocks, and the
postfix (reverse Polish) printer of expression trees.

The Java objects become immutable values threaded through pure functions:

- the scanner's fields are a `Lexer` record (cursor, line, tokens, diagnostics);
  every step returns a new one;
- the parser's cursor and the reported errors are a `PState`; a thrown
  `ParseError` is the `Raised` outcome, and a `synchronize` that never returns
  is the `Hangs` outcome (`Diverges` for a whole parse);
- a `charAt` past the end of the source, which ends the Java run with an
  exception, is the scanner's `Crash` outcome;
- the environment chain is a sequence of maps, global frame first;
- the interpreter's mutable environment and standard output are a `State`
  (environment chain plus the lines printed so far); a `RuntimeError` is the
  `Thrown` outcome carrying the state reached when it was thrown;
- Java's `Object` values are the union `Value`: null, a number, a string, a
  Boolean, a TokenType constant (the parser stores `true`, `false` and `nil`
  literals as the constants TRUE, FALSE and NIL) and an Integer (used only by
  the printer's demonstration tree);
- `Double.toString` is a parameter `show: real -> string` of every function
  that renders numbers; only the trimming of a trailing ".0" built on top of
  it is modelled;
- the null statements the parser adds after an error are `None` entries.

The source quirks are kept as the code has them: the off-by-one guard of
`peekNext` (the lookahead at the last character reads past the end), the
unchecked character consumed after a nested block comment, the line of a
multi-line string token being the line of its closing quote, the
`synchronize` loop that never advances, and the truthiness of the `nil`,
`true` and `false` literals (they are enum constants, not null or Boolean).

In Lox, `nil` is falsey, so `!nil` should be true. The code disagrees and the
model follows the code: the parser stores the literal `nil` as the constant
NIL, which `isTruthy` treats as true, so `!nil` is false
(`InterpreterFacts.NegatedLiterals`).

Files: `wrappers.dfy` (Option, Result), `tokens.dfy` (TokenType, Value, Token,
diagnostics, RuntimeError), `ast.dfy` (Expr, Stmt and the operator sets),
`scanner.dfy`, `parser.dfy`, `environment.dfy`, `interpreter.dfy`,
`rpn_printer.dfy`, and `scanner_facts.dfy`, `parser_facts.dfy`,
`parser_steps.dfy`, `precedence.dfy`, `interpreter_facts.dfy` with the
properties that relate several calls and worked inputs.

A scan is tied to the source through `Scanner.Step`: each step consumes
some text and either adds one token whose lexeme is exactly that text,
reports one error about that text, or skips a blank or a comment. `Steps`
chains them, and the whole scan is such a chain from the start to the end
of the source.

The parser's statement level is stated step by step in `parser_steps.dfy`
(what each statement function returns in terms of the functions it calls),
and its statement lists through `Parser.Declarations`: whether a list of
entries is what `declaration` returns when called again and again from a
state.

The parser's trees are tied to the tokens they came from through their
symbols: `Symbols` maps each token to a `Sym` (a parenthesis, the `=`, a
literal's stored value, or the token itself), and `Yield` lists a tree's
symbols in source order. `Shaped(e, level)` is the grammar: the trees each
precedence level can derive, from assignment (0) to primary (6).

## Model

| member | source | states |
|---|---|---|
| Scanner.ScanTokens | com/craftinginterpreters/lox/Scanner.java:41-48 | the result is a run of scan steps (`Steps`) from cursor 0 on line 1, with nothing scanned, to the end of the source: the tokens are that run's tokens followed by exactly one EOF token, whose lexeme is empty, whose literal is null and whose line is the run's final line; the diagnostics are the run's; no earlier token is EOF; a crash is the crash of scanning one lexeme at a state such a run reaches before the end |
| Scanner.ScanFrom | com/craftinginterpreters/lox/Scanner.java:41-44 | the loop runs until the cursor reaches the end of the source, and what it returns is reached from where it started by a chain of scan steps (`Steps`); tokens and diagnostics are only appended, none of the added tokens is EOF, and the line never decreases; a crash is the crash of `scanToken` at a state reached by scan steps before the end |
| Scanner.CrashAfterStep | com/craftinginterpreters/lox/Scanner.java:41-44 | a crash reached after one scan step is reached from the state before that step |
| ScannerFacts.ScanFromAtEnd | com/craftinginterpreters/lox/Scanner.java:41 | at the end of the source the loop stops and returns the lexer unchanged |
| ScannerFacts.ScanFromStep | com/craftinginterpreters/lox/Scanner.java:41-44 | before the end the loop scans one lexeme and continues from where it stopped, and a crash in that lexeme is the loop's crash |
| Scanner.ClassOf | com/craftinginterpreters/lox/Scanner.java:57-110 | the cases of the switch split the characters into eight disjoint classes: the ten one-character tokens, the four operator starters, `/`, the four blanks, `"`, digits, letters with `_`, and everything else |
| Scanner.ScanToken | com/craftinginterpreters/lox/Scanner.java:55-112 | one step consumes at least one character and adds at most one token, whose lexeme is exactly the consumed text; a one-character token is added for its character and nothing else changes; `!`, `=`, `<`, `>` go to the operator scan, `/` to the slash scan, `"` to the string scan, a digit to the number scan, a letter or `_` to the identifier scan; a blank adds nothing and a newline adds one to the line; any other character consumes one character, adds no token and reports "Unexpected Character" on the current line |
| Scanner.Skip | com/craftinginterpreters/lox/Scanner.java:81-98 | a step that adds no token and reports nothing consumes only what `Skippable` allows: one blank (a newline adds one to the line), a `//` comment up to its newline, or a whole block comment |
| Scanner.Fail | com/craftinginterpreters/lox/Scanner.java:102-109 | a step that reports an error consumes exactly the text the message is about (`Reportable`): one unrecognised character for "Unexpected Character" here, and for the unterminated string and comment the text up to the end of the source; it adds no token and exactly one diagnostic, on the current line |
| ScannerFacts.StepsKeep | com/craftinginterpreters/lox/Scanner.java:41-44 | over any run of scan steps the cursor and the line only move forward, the tokens and diagnostics only grow, and no EOF token is added |
| ScannerFacts.SilentRunStartsBlankOrSlash | com/craftinginterpreters/lox/Scanner.java:55-112 | a run of scan steps that adds no token and reports nothing starts at a blank or a `/`: the scan never passes over the start of a lexeme silently |
| ScannerFacts.LetterIsNotSkipped | com/craftinginterpreters/lox/Scanner.java:41-44 | jumping the cursor from a letter to the end of the source without adding a token is not a run of scan steps |
| Scanner.Punctuation | com/craftinginterpreters/lox/Scanner.java:57-67 | a single-character token consumes one character and carries that character as lexeme and the kind of that character |
| Scanner.OperatorToken | com/craftinginterpreters/lox/Scanner.java:68-79 | `!`, `=`, `<`, `>` consume two characters exactly when an `=` follows, and then scan to the two-character kind; otherwise they consume one and scan to the one-character kind |
| Scanner.SlashToken | com/craftinginterpreters/lox/Scanner.java:80-90 | `//` adds no token and stops before the next newline (or at the end); `/*` adds no token; any other `/` is a SLASH token |
| Scanner.Peek | com/craftinginterpreters/lox/Scanner.java:141-146 | the character under the cursor, or NUL at or past the end |
| Scanner.PeekNext | com/craftinginterpreters/lox/Scanner.java:148-153 | the lookahead crashes exactly when the cursor is on the last character; beyond that it is NUL, before it the next character |
| Scanner.Advance | com/craftinginterpreters/lox/Scanner.java:114-116 | consuming succeeds exactly when the cursor is inside the source, and then moves it by one and changes nothing else |
| Scanner.CharAt | com/craftinginterpreters/lox/Scanner.java:115 | `charAt` yields the character exactly for an index inside the source and otherwise crashes with that index |
| Scanner.StringBody | com/craftinginterpreters/lox/Scanner.java:156-161 | the loop stops at the first double quote or the end, passes no quote, and adds to the line the number of newlines it passed |
| Scanner.StringLiteral | com/craftinginterpreters/lox/Scanner.java:155-172 | a closed string adds a STRING token whose value is the text between the quotes and whose line is the line of the closing quote (the opening line plus the embedded newlines); an unclosed one reaches the end, adds no token and reports "Unterminated String" |
| Scanner.ClosedString | com/craftinginterpreters/lox/Scanner.java:167-171 | at the closing quote: one STRING token whose lexeme runs from the opening to the closing quote and whose value is the text between them, on the line of the closing quote |
| Scanner.UnclosedString | com/craftinginterpreters/lox/Scanner.java:163-166 | at the end of the source without a closing quote: no token, and "Unterminated String" reported on the current line |
| ScannerFacts.StringClosesIffQuoteFollows | com/craftinginterpreters/lox/Scanner.java:155-172 | a string adds a token exactly when a later double quote exists in the source |
| ScannerFacts.MultiLineString | com/craftinginterpreters/lox/Scanner.java:155-172 | a string spanning a newline is a token on line 2 whose value keeps the newline |
| ScannerFacts.UnterminatedString | com/craftinginterpreters/lox/Scanner.java:163-166 | an unclosed string ends at the end of the source with one "Unterminated String" error and no token |
| Scanner.DigitsEnd | com/craftinginterpreters/lox/Scanner.java:176-178 | the loop ends at the end of the maximal run of digits |
| Scanner.NumberLiteral | com/craftinginterpreters/lox/Scanner.java:174-188 | a number is the run of digits, plus a `.` and a second run only when a digit follows the `.`; its value is that decimal number; it crashes exactly when a `.` right after the digits is the last character |
| Scanner.WholeNumber | com/craftinginterpreters/lox/Scanner.java:176-187 | a number without a fraction ends at the end of its digits and its value is the value of those digits |
| Scanner.FractionalNumber | com/craftinginterpreters/lox/Scanner.java:180-187 | a `.` followed by a digit is part of the number, which then ends at the end of the second run of digits, with value whole digits plus fraction digits |
| ScannerFacts.DotWithoutDigitIsLeft | com/craftinginterpreters/lox/Scanner.java:180-187 | in `1.x` the number is `1` and the `.` is left for the next token |
| ScannerFacts.NumberWithFraction | com/craftinginterpreters/lox/Scanner.java:174-188 | `12.5;` scans the number 12.5 and stops before the `;` |
| ScannerFacts.TrailingDotCrashes | com/craftinginterpreters/lox/Scanner.java:148-153 | any source of digits followed by a final `.` crashes, reading one past the end |
| Scanner.AlphaNumericEnd | com/craftinginterpreters/lox/Scanner.java:191-193 | the loop ends at the end of the maximal run of letters, digits and underscores |
| Scanner.IdentifierToken | com/craftinginterpreters/lox/Scanner.java:190-201 | an identifier is the longest run of letters, digits and underscores; it scans to the keyword's kind when the text is a reserved word, else IDENTIFIER |
| ScannerFacts.WordSource | com/craftinginterpreters/lox/Scanner.java:17-35 | a source that is one word scans to one token of its keyword kind or IDENTIFIER, then EOF |
| ScannerFacts.KeywordPrefixIsIdentifier | com/craftinginterpreters/lox/Scanner.java:190-201 | `orchid` is an IDENTIFIER while `or` is the keyword OR |
| Scanner.SkipLine | com/craftinginterpreters/lox/Scanner.java:82-84 | a line comment stops at the first newline or the end and passes no newline |
| Scanner.CommentLoop | com/craftinginterpreters/lox/Scanner.java:204-216 | when it completes, the loop stopped at the end or before a `*` followed by `/`, adding no token and no diagnostic |
| Scanner.Comment | com/craftinginterpreters/lox/Scanner.java:203-224 | a block comment adds no token; either it reaches the end of the source and its one new diagnostic is "Unterminated Comment", or it reports nothing and has consumed through a closing `*` `/` |
| ScannerFacts.CommentIsDepthScan | com/craftinginterpreters/lox/Scanner.java:203-224 | a block comment is exactly the scan `CommentScan` with a nesting depth, started at 1: `/` `*` raises the depth and is entered at its `*`; `*` `/` closes a level; after an inner level closes, the next character is consumed without being looked at (a newline there is not counted, and at the end of the source that read crashes); a `*` or `/` as the last character crashes in the lookahead; the end of the source reports "Unterminated Comment" at depth 1 and crashes deeper |
| ScannerFacts.CommentLoopIsScan | com/craftinginterpreters/lox/Scanner.java:204-216 | the loop at any depth, followed by how that level ends (`FrameEnd`), is the depth scan from the same place |
| ScannerFacts.NestedCommentClosesAtMatch | com/craftinginterpreters/lox/Scanner.java:210-213 | `/* /* */ */` closes at the second `*/`, the one matching the outer opening |
| ScannerFacts.NewlineAfterNestedCommentUncounted | com/craftinginterpreters/lox/Scanner.java:205-215 | the character consumed right after a nested comment is not looked at, so a newline there does not raise the line |
| ScannerFacts.UnterminatedNestedCommentCrashes | com/craftinginterpreters/lox/Scanner.java:212-215 | after an unterminated nested comment the outer loop reads past the end |
| ScannerFacts.UnterminatedComment | com/craftinginterpreters/lox/Scanner.java:218-221 | an unclosed comment reports "Unterminated Comment" at the end and adds no token |
| ScannerFacts.CommentEndingInStarCrashes | com/craftinginterpreters/lox/Scanner.java:204 | a comment whose last character is `*` crashes in the lookahead |
| ScannerFacts.BlanksScanToNothing | com/craftinginterpreters/lox/Scanner.java:91-98 | a run of blanks and newlines adds no token and raises the line by the number of newlines |
| ScannerFacts.BlankSource | com/craftinginterpreters/lox/Scanner.java:41-48 | a source of blanks scans to the EOF token alone, on line 1 plus its newline count |
| Parser.Advance | com/craftinginterpreters/lox/Parser.java:226-231 | the cursor moves by one except at EOF, where it stays, and it never passes the first EOF |
| Parser.Consume | com/craftinginterpreters/lox/Parser.java:245-251 | the expected token is taken exactly when the token under the cursor has that kind (and is not EOF); otherwise the error is reported at that token and thrown |
| Parser.Expression | com/craftinginterpreters/lox/Parser.java:100-102 | an expression consumes at least one token, never passes EOF, only adds diagnostics, and reports an error before throwing; a successful one is a tree of the grammar, its only new reports are "Invalid assignment target", and without a new report its symbols are exactly those of the tokens consumed |
| Parser.Assignment | com/craftinginterpreters/lox/Parser.java:104-118 | a successful parse is an assignment-level tree (an Assign node only over a variable name, with the right side again at assignment level); the only reports it adds are "Invalid assignment target", and without one its symbols are exactly those of the tokens consumed |
| Parser.AssignmentTail | com/craftinginterpreters/lox/Parser.java:107-117 | without `=` nothing is consumed and the left side is the result; with `=` after a non-variable the result is the left side and the last report is "Invalid assignment target" at the `=`; without a new report the symbols are the left side's followed by those of the tokens consumed |
| Parser.AssignedValue | com/craftinginterpreters/lox/Parser.java:107-115 | after `=`, a variable on the left gives an Assign to that same name; anything else gives the left side with "Invalid assignment target" reported at the `=` |
| Parser.AssignNode | com/craftinginterpreters/lox/Parser.java:110-113 | a variable on the left of `=` gives the Assign node of that name and the right side, whose symbols are the left side's followed by those of the tokens consumed |
| Parser.InvalidTarget | com/craftinginterpreters/lox/Parser.java:114-117 | any other left side is returned unchanged after the right side is consumed, with "Invalid assignment target" reported at the `=` as the one new report |
| ParserFacts.InvalidAssignmentTarget | com/craftinginterpreters/lox/Parser.java:110-117 | `1 = 2` reports "Invalid assignment target" at the `=` without throwing and yields the left side after consuming the right |
| Parser.Binaries | com/craftinginterpreters/lox/Parser.java:121-165 | each binary level builds a tree of its own level (operators of that level only, with the right operand one level tighter); without a new report its symbols are exactly those of the tokens consumed |
| Parser.BinariesLoop | com/craftinginterpreters/lox/Parser.java:123-127 | the loop stops only at a token that is not an operator of its level; without a new report the result's symbols are those of the tree built so far followed by those of the tokens consumed |
| ParserSteps.BinariesStops | com/craftinginterpreters/lox/Parser.java:121-165 | a successful binary level stops only before a token that is no operator of its own or a tighter binary level |
| ParserSteps.BinariesLoopStops | com/craftinginterpreters/lox/Parser.java:123-127 | the loop of a binary level, entered where tighter levels stop, ends where tighter levels and its own level stop |
| ParserSteps.OperandStops | com/craftinginterpreters/lox/Parser.java:122 | an operand of a binary level stops only before a token that is no operator of a tighter binary level |
| ParserSteps.AssignmentStops | com/craftinginterpreters/lox/Parser.java:104-118 | a successful assignment stops before a token that is neither a binary operator nor `=` |
| ParserSteps.ExpressionStops | com/craftinginterpreters/lox/Parser.java:100-102 | a successful expression stops only before a token that is neither a binary operator nor `=`: every such token is taken by the expression |
| ParserFacts.SubtractionFoldsLeft | com/craftinginterpreters/lox/Parser.java:144-153 | `1 - 2 - 3` parses as `(1 - 2) - 3` |
| ParserFacts.FactorBindsTighter | com/craftinginterpreters/lox/Parser.java:144-165 | `1 + 2 * 3` parses as `1 + (2 * 3)` |
| ParserFacts.TermIsExpression | com/craftinginterpreters/lox/Parser.java:100-129 | a term followed by `;` or EOF passes unchanged through comparison, equality and assignment: it is the whole expression |
| Parser.ShapedIsWellFormed | com/craftinginterpreters/lox/Parser.java:121-174 | every tree the grammar derives uses only the operators the interpreter handles |
| Parser.UnaryExpr | com/craftinginterpreters/lox/Parser.java:168-174 | a unary-level tree that is a Unary node exactly when the token under the cursor is `!` or `-`; without a new report its symbols are exactly those of the tokens consumed |
| Parser.Prefixed | com/craftinginterpreters/lox/Parser.java:169-172 | after `!` or `-` the result is the Unary node of that operator token and the operand parsed next, and an error in the operand is thrown on; without a new report its symbols are those of the tokens consumed |
| Parser.Atom | com/craftinginterpreters/lox/Parser.java:177-197 | NUMBER and STRING carry the token's literal, `true`/`false`/`nil` carry their TokenType constant, an identifier is a Variable; exactly these kinds succeed, and anything else reports "Expect expression." |
| Parser.Primary | com/craftinginterpreters/lox/Parser.java:177-205 | without `(` the result is exactly the one-token form `Atom`; with `(` it is a Grouping whose last consumed token is `)`; without a new report its symbols are exactly those of the tokens consumed |
| Parser.CloseGrouping | com/craftinginterpreters/lox/Parser.java:198-202 | after the inner expression, the grouping succeeds exactly when `)` follows, and is then the Grouping of that expression with the `)` consumed; otherwise "Expect ')' after expression." is reported at the token found and thrown |
| Precedence.YieldDetermines | com/craftinginterpreters/lox/Parser.java:120-174 | two trees of the same grammar level with the same symbols are the same tree: the grammar the parser follows is unambiguous |
| Precedence.ParseIsTheDerivation | com/craftinginterpreters/lox/Parser.java:100-174 | when the expression parser succeeds without a new report, its tree is the only tree of the grammar whose symbols are the tokens consumed |
| Precedence.MismatchIsReported | com/craftinginterpreters/lox/Parser.java:104-118 | when a parsed tree's symbols differ from the tokens consumed, at least one "Invalid assignment target" was reported and nothing else was (a consequence of `Parser.Expression`'s contract) |
| ParserFacts.NumberFactor | com/craftinginterpreters/lox/Parser.java:156-180 | a NUMBER token not followed by `*` or `/` is a whole factor: the literal the token carries, with one token consumed |
| Parser.Synchronize | com/craftinginterpreters/lox/Parser.java:259-274 | after one advance, it returns exactly when it is at EOF, the token passed is `;`, or the next token starts a statement; in every other case it never returns |
| Parser.Declaration | com/craftinginterpreters/lox/Parser.java:32-44 | a declaration never throws to its caller; a null entry implies a new error was reported, and when no error was reported the entry is a runnable statement |
| ParserSteps.DeclarationCatches | com/craftinginterpreters/lox/Parser.java:32-44 | after `var` the entry is the variable declaration from the next token, otherwise the statement; one that returns is the entry, one that throws is caught: when `synchronize` returns the entry is null at the state it reached, otherwise the parse hangs |
| ParserSteps.VarDeclarationParses | com/craftinginterpreters/lox/Parser.java:46-47 | with an identifier under the cursor the rest of the declaration is parsed after it and named by it; otherwise "Expect variable name" is reported at the token found and thrown |
| ParserSteps.VarBodyParses | com/craftinginterpreters/lox/Parser.java:48-53 | the statement declares the name with the initializer parsed next; an error in the initializer is thrown on; without a following `;` "Expect ';' after value." is reported at the token found and thrown |
| ParserSteps.InitializerParses | com/craftinginterpreters/lox/Parser.java:49-51 | after `=` the initializer is the expression parsed next, and an error in it is thrown on |
| Parser.VarDeclaration | com/craftinginterpreters/lox/Parser.java:46-54 | a declaration names an identifier and ends with `;`; without an initializer it is exactly the name and the `;` |
| Parser.VarBody | com/craftinginterpreters/lox/Parser.java:48-53 | after the name: a VarStmt of that name whose last consumed token is `;`, and without an initializer the `;` is the only token consumed |
| Parser.Initializer | com/craftinginterpreters/lox/Parser.java:48-51 | without `=` nothing is consumed and there is no initializer; with `=` a successful parse gives an assignment-level initializer the interpreter can run |
| Parser.Statement | com/craftinginterpreters/lox/Parser.java:57-66 | a statement consumes at least one token, and with no new error it is runnable |
| ParserSteps.StatementDispatch | com/craftinginterpreters/lox/Parser.java:57-66 | after `print` the statement is the print statement from the next token; after `{` it is a block statement of the block's entries, and the block's error or hang is the statement's; anything else is an expression statement from the same token |
| Parser.PrintStatement | com/craftinginterpreters/lox/Parser.java:69-73 | a print statement ends with a required `;` |
| ParserSteps.PrintStatementParses | com/craftinginterpreters/lox/Parser.java:69-73 | the statement prints the expression parsed next and ends after the `;`; an error in the expression is thrown on, and a missing `;` is reported at the token found and thrown |
| Parser.ExpressionStatement | com/craftinginterpreters/lox/Parser.java:88-97 | outside the REPL the statement succeeds exactly when the expression does and a `;` follows; in the REPL the `;` is optional |
| ParserSteps.ExpressionStatementParses | com/craftinginterpreters/lox/Parser.java:88-97 | the statement holds the expression parsed next; an error in it is thrown on; a following `;` is consumed; without one the REPL accepts the statement as it is and a file run reports "Expect ';' after value." and throws |
| Parser.StatementEnd | com/craftinginterpreters/lox/Parser.java:91-95 | outside the REPL a `;` is required and consumed, and its absence is reported as "Expect ';' after value." at the token found and thrown; in the REPL a `;` is consumed when present and its absence is accepted silently |
| ParserFacts.SemicolonOptionalInRepl | com/craftinginterpreters/lox/Parser.java:93-95 | in the REPL `1` with no `;` is an expression statement |
| Parser.Block | com/craftinginterpreters/lox/Parser.java:76-85 | a block ends with a required `}`; without it the block throws at EOF with "Expect '}' after block." as the last report; with no new error every entry is runnable |
| Parser.BlockLoop | com/craftinginterpreters/lox/Parser.java:79-81 | the loop stops at `}` or EOF, keeps what was collected before, and never throws |
| Parser.ParseLoop | com/craftinginterpreters/lox/Parser.java:25-27 | the loop keeps what was collected before and only adds diagnostics |
| Parser.Parse | com/craftinginterpreters/lox/Parser.java:23-29 | the entries are the run of declarations (`Declarations`) that, parsed one after another from the first token, ends at EOF, and the reports are that run's; when no syntax error was reported, every entry is present and runnable |
| Parser.ParseLoopRuns | com/craftinginterpreters/lox/Parser.java:25-27 | what the loop collects after the entries it was given is the run of declarations from where it started to EOF, with that run's reports |
| Parser.BlockLoopRuns | com/craftinginterpreters/lox/Parser.java:79-81 | what the block loop collects after the entries it was given is the run of declarations from where it started up to `}` or EOF |
| Parser.BlockRuns | com/craftinginterpreters/lox/Parser.java:76-85 | a block's entries are the run of declarations after the `{`, which stops at the `}` that the block then consumes |
| Parser.DeclarationsStep | com/craftinginterpreters/lox/Parser.java:25-27 | one declaration parsed before the run's end, followed by the run from where it stopped, is the run from the start |
| Parser.DeclarationsDetermined | com/craftinginterpreters/lox/Parser.java:25-27 | two lists of entries whose runs from the same state both reach the run's end are the same list |
| ParserSteps.ParseIsTheOnlyRun | com/craftinginterpreters/lox/Parser.java:23-29 | any list of declarations whose run from the first token reaches EOF is exactly the list `parse` returns: nothing is dropped, added or reordered |
| ParserSteps.BlockIsTheOnlyRun | com/craftinginterpreters/lox/Parser.java:76-85 | any list of declarations whose run after the `{` stops at `}` is exactly the list the block returns |
| ParserFacts.LoopAtEof | com/craftinginterpreters/lox/Parser.java:25-28 | at EOF the loop of `parse` returns what it has collected, with the reports so far |
| ParserFacts.LoopStep | com/craftinginterpreters/lox/Parser.java:25-26 | before EOF the loop collects the next declaration and goes on from where it stopped |
| ParserFacts.ParseIsLoop | com/craftinginterpreters/lox/Parser.java:23-29 | `parse` is its loop started at the first token with nothing collected and nothing reported |
| ParserFacts.MissingVariableNameHangs | com/craftinginterpreters/lox/Parser.java:259-271 | `var = 1;` reports "Expect variable name" and then `synchronize` never returns |
| ParserFacts.RecoveryAfterSemicolon | com/craftinginterpreters/lox/Parser.java:32-44 | `print ; print 1;` gives a null entry for the failed declaration, one reported error, and then the second statement |
| Environment.Push | com/craftinginterpreters/lox/Environment.java:14-16 | a new empty innermost frame over the unchanged chain |
| Environment.Define | com/craftinginterpreters/lox/Environment.java:18-20 | binds the name in the innermost frame only, replacing an earlier binding there; outer frames and other names are unchanged |
| Environment.Get | com/craftinginterpreters/lox/Environment.java:22-33 | succeeds exactly when some frame binds the name, with the binding of the innermost such frame; otherwise "Undefined variable'<name>'." |
| Environment.Assign | com/craftinginterpreters/lox/Environment.java:35-48 | succeeds exactly when some frame binds the name; rebinds it in the innermost such frame only, adds no binding anywhere and changes nothing else; otherwise "Undefined variable'<name>'." |
| Environment.DefineThenGet | com/craftinginterpreters/lox/Environment.java:18-24 | after `define`, `get` yields the defined value, whatever was bound before |
| Environment.NullBindingIsDefined | com/craftinginterpreters/lox/Environment.java:23-24 | a name bound to null is defined: `get` yields null and `assign` succeeds |
| Environment.ShadowThenPop | com/craftinginterpreters/lox/Environment.java:22-30 | an inner declaration shadows an outer one, and leaving the frame uncovers the outer binding |
| Environment.PopKeepsLookup | com/craftinginterpreters/lox/Environment.java:28-30 | when the innermost frame lacks a name, lookup of it is lookup in the enclosing chain |
| InterpreterFacts.StoredValueIsRead | com/craftinginterpreters/lox/Environment.java:35-38 | after a successful `assign`, `get` yields the assigned value |
| Interpreter.IsTruthy | com/craftinginterpreters/lox/Interpreter.java:187-195 | only null and Boolean false are falsey |
| Interpreter.IsEqual | com/craftinginterpreters/lox/Interpreter.java:197-205 | null equals only null; other values are equal exactly when they are the same value |
| Interpreter.Stringify | com/craftinginterpreters/lox/Interpreter.java:221-233 | null renders as "nil"; a number's text loses a trailing ".0" and keeps anything else; other values render as their text |
| Interpreter.ApplyUnary | com/craftinginterpreters/lox/Interpreter.java:153-165 | `!` negates truthiness and never fails; `-` negates a number and fails with "Operand must be a number." on anything else |
| Interpreter.ApplyBinary | com/craftinginterpreters/lox/Interpreter.java:86-139 | comparisons, `-`, `*` and `/` succeed exactly on two numbers (and `/` on a non-zero divisor) with the expected result; `==`/`!=` never fail and are negations of each other; `+` adds numbers, concatenates strings, renders a number next to a string, and fails otherwise |
| InterpreterFacts.DivideByZero | com/craftinginterpreters/lox/Interpreter.java:124-129 | `1 / 0` is the runtime error "Cannot divide by 0" |
| InterpreterFacts.ConcatenateNumber | com/craftinginterpreters/lox/Interpreter.java:117-122 | `"age: " + 10` is "age: 10" and `10 + "x"` is "10x" |
| InterpreterFacts.NegatedLiterals | com/craftinginterpreters/lox/Interpreter.java:153-157 | `!nil`, `!false`, `!0` and `!""` are false, and only the negation of null is true |
| Interpreter.Evaluate | com/craftinginterpreters/lox/Interpreter.java:141-181 | a literal is its stored value and a grouping is its inner expression's value, with the state unchanged; a variable is the binding `get` finds, or its "Undefined variable" error; no evaluation changes which names the frames bind, nor the output |
| InterpreterFacts.BinaryOperandsFirst | com/craftinginterpreters/lox/Interpreter.java:86-90 | a binary node evaluates its left operand, then its right, and only then applies the operator; an error in an operand is the node's error |
| InterpreterFacts.UnaryOperandFirst | com/craftinginterpreters/lox/Interpreter.java:153-160 | a unary node evaluates its operand first and then applies the operator to the value; an error in the operand or from the operator is the node's error |
| InterpreterFacts.AssignYieldsValue | com/craftinginterpreters/lox/Interpreter.java:172-177 | an assignment to a defined name is the right side's value, and the chain afterwards is exactly what `assign` returns on the chain the right side left, so `get` then reads that value |
| InterpreterFacts.AssignUndeclared | com/craftinginterpreters/lox/Interpreter.java:172-177 | `b = 5;` with no declaration reports "Undefined variable'b'." and prints nothing |
| InterpreterFacts.AssignUndefinedThrows | com/craftinginterpreters/lox/Interpreter.java:172-177 | for any name no frame binds, an assignment evaluates its right side and then throws "Undefined variable'<name>'." from the state the right side left |
| InterpreterFacts.AssignUnderChild | com/craftinginterpreters/lox/Environment.java:35-44 | assigning a name bound in an outer frame from a new inner frame succeeds, and after the inner frame is left `get` yields the assigned value |
| InterpreterFacts.BlockAssignsOuter | com/craftinginterpreters/lox/Interpreter.java:52-82 | `{ a = v; }` over a chain where `a` is bound completes, prints nothing, and leaves `a` bound to `v` |
| Interpreter.ExecExpression | com/craftinginterpreters/lox/Interpreter.java:36-43 | the statement prints the value's rendering in the REPL only, and passes an error on unchanged; after a normal evaluation the chain is the one the evaluation left, so assignments inside the expression persist |
| Interpreter.ExecPrint | com/craftinginterpreters/lox/Interpreter.java:45-50 | the statement appends exactly one line, the value's rendering, to the output; the chain afterwards is the one the evaluation left, so `print a = 3;` keeps the assignment; an error is the evaluation's, with its state |
| InterpreterFacts.PrintTrueLiteral | com/craftinginterpreters/lox/Interpreter.java:45-50 | `print true;` prints "TRUE", the name of the TokenType constant |
| Interpreter.ExecVar | com/craftinginterpreters/lox/Interpreter.java:58-66 | after the declaration `get` of the name yields the initializer's value, or null when there is none; an error in the initializer is the statement's error, thrown before anything is bound; the name is bound in the innermost frame and the chain keeps its shape; with an initializer the chain afterwards is `define` applied to the chain the initializer left |
| InterpreterFacts.ExecVarLiteral | com/craftinginterpreters/lox/Interpreter.java:58-66 | `var x = <literal>;` binds the literal in the innermost frame |
| Interpreter.Exec | com/craftinginterpreters/lox/Interpreter.java:68-70 | a statement adds names to the innermost frame only, keeps the chain's depth, and only appends to the output |
| Interpreter.ExecBlock | com/craftinginterpreters/lox/Interpreter.java:52-82 | the block runs its statements in order in a new innermost frame over the chain: the output and the error are those of that run, and the outer frames hold what the run left in them; afterwards, completed or thrown, the chain has its old depth and its frames bind the same names |
| InterpreterFacts.ShadowingBlock | com/craftinginterpreters/lox/Interpreter.java:52-56 | `{ var a = 2; print a; }` over `a = 1` prints 2 and leaves the outer binding as it was |
| InterpreterFacts.ShadowingProgram | com/craftinginterpreters/lox/Interpreter.java:24-33 | `var a = 1; { var a = 2; print a; } print a;` prints 2, then 1 |
| Interpreter.ExecList | com/craftinginterpreters/lox/Interpreter.java:76-78 | running statements in order keeps the chain's depth and outer frames' names and only appends to the output |
| Interpreter.Interpret | com/craftinginterpreters/lox/Interpreter.java:24-33 | the final state is the state the run of the statements reached; an error is reported exactly when the run threw, and it is that run's error; a run keeps the chain's depth and only appends to the output |
| InterpreterFacts.ExecListOne | com/craftinginterpreters/lox/Interpreter.java:26-28 | running a list of one statement executes exactly that statement |
| InterpreterFacts.ExecListCons | com/craftinginterpreters/lox/Interpreter.java:26-28 | a list runs its first statement and then, unless it threw, the rest from the state it left |
| InterpreterFacts.ExecListConcat | com/craftinginterpreters/lox/Interpreter.java:26-28 | running `p + q` is running `p` and then, unless it threw, running `q` from the state `p` reached |
| InterpreterFacts.InterpretSequence | com/craftinginterpreters/lox/Interpreter.java:24-33 | after a runtime error the remaining statements are skipped and earlier effects persist; otherwise the rest runs from the reached state |
| RPNPrinter.Print | com/craftinginterpreters/lox/RPNPrinter.java:10-35 | null prints "nil" and other literals their text; a unary node ends with its operator's lexeme; a binary node holds a space and ends with its operator's lexeme |
| RPNPrinter.PrintIsPostfixWords | com/craftinginterpreters/lox/RPNPrinter.java:14-35 | the printed text is the tree's postfix sequence (left operand, right operand, then operator; groupings dropped) written out with a space before every literal but the first and each operator's lexeme glued to what precedes it |
| RPNPrinter.RebuildPostfix | com/craftinginterpreters/lox/RPNPrinter.java:14-35 | reading a tree's postfix sequence with a stack pushes exactly that tree, without its groupings, whatever follows |
| RPNPrinter.PostfixRoundTrip | com/craftinginterpreters/lox/RPNPrinter.java:14-35 | the postfix sequence of a tree reads back as that tree, up to groupings |
| RPNPrinter.SamePostfixSameTree | com/craftinginterpreters/lox/RPNPrinter.java:15-17 | two trees with the same postfix sequence are the same up to groupings: the printer keeps operands in order and never swaps them |
| RPNPrinter.PrintDropsArity | com/craftinginterpreters/lox/RPNPrinter.java:15-35 | the text alone does not determine the tree: `1 - (-2)` and `-(1 - 2)` both print as "1 2--" |
| RPNPrinter.StripGroupings | com/craftinginterpreters/lox/RPNPrinter.java:19-22 | removing every grouping leaves a printable tree with no grouping at its root |
| RPNPrinter.GroupingsAreTransparent | com/craftinginterpreters/lox/RPNPrinter.java:19-22 | removing every grouping from a tree leaves its rendering unchanged |
| RPNPrinter.DemoOutput | com/craftinginterpreters/lox/RPNPrinter.java:38-45 | the demonstration tree `(-123) * (8 - 123)` renders as "123- 8 123-*" |

## Left out

- The driver in `Lox.java`: reading files and standard input, the prompt loop, exit codes, and the static `hadError`/`hadRuntimeError` flags. Diagnostics are returned as (line, location, message) records instead. The check at `Lox.java:56-58` that skips interpretation after a syntax error is `Interpret`'s precondition that every entry is present, which `Parser.Parse` guarantees when it reported no error.
- Console output: `System.out.println` in the interpreter becomes appending a line to the state's output. The demo's `main` in the printer is the constant `Demo` and the lemma about its rendering.
- Runtime-error reporting on standard error (the message and `[line N]`): `Interpret` returns the error instead.
- IEEE-754 doubles. Numbers are exact reals, `Double.parseDouble` is the exact decimal value (no rounding), and `Double.toString` is the parameter `show`. Rounding, overflow to infinity, NaN and negative zero are not modelled.
- Interpreter.IsEqual: numbers are compared as reals, so in the model `-0 == 0` is true. In Java, negating `0` gives -0.0 (`Interpreter.java:160`), and `Double.equals` in `isEqual` (`Interpreter.java:204`) tells -0.0 from 0.0, so `-0 == 0` is false there.
- Characters are Unicode scalar values, while Java's `charAt` reads UTF-16 code units. A character outside the Basic Multilingual Plane is one character here but two code units in Java. Outside a string or comment, Java reports "Unexpected Character" twice for it and the model once, and cursor positions after it differ by one.
- Parser.Binaries, Parser.Operand, Parser.Assignment, Parser.Expression: where each level stops (before no operator of its own or a tighter level, and after an assignment before no `=`) is not in these functions' contracts. It is proved for all inputs by `ParserSteps.BinariesStops`, `OperandStops`, `BinariesLoopStops`, `AssignmentStops` and `ExpressionStops`, which keeps each function's own proof small.
- Parser.Declaration: the contract does not say what the entry is. `ParserSteps.DeclarationCatches` states it for all inputs: the attempt's statement, or after a throw a null entry once `synchronize` returns, or a hang.
- Parser.VarDeclaration: the contract does not tie the name and initializer to the tokens. `ParserSteps.VarDeclarationParses`, `VarBodyParses` and `InitializerParses` do, for all inputs.
- Parser.VarBody: the contract does not say the initializer is the tree `Expression` parsed. `ParserSteps.VarBodyParses` and `InitializerParses` do.
- Parser.Initializer: the contract does not say the initializer is the tree `Expression` parsed. `ParserSteps.InitializerParses` does.
- Parser.Statement: the contract does not state the dispatch on the first token. `ParserSteps.StatementDispatch` does.
- Parser.PrintStatement: the contract does not say the printed expression is the tree `Expression` parsed. `ParserSteps.PrintStatementParses` does.
- Parser.ExpressionStatement: the contract does not say the statement's expression is the tree `Expression` parsed. `ParserSteps.ExpressionStatementParses` does.
- Parser.BlockLoop: the contract does not tie the entries to the declarations parsed. `Parser.BlockLoopRuns` does.
- Parser.ParseLoop: the contract does not tie the entries to the declarations parsed. `Parser.ParseLoopRuns` does, and `Parser.Parse` carries it.
- Parser.Block: the contract does not tie the entries to the declarations parsed. `Parser.BlockRuns` and `ParserSteps.BlockIsTheOnlyRun` do.
- Scanner.Step: a step's line is stated only not to decrease. The exact count (one per newline consumed, except the character consumed unseen after a nested comment) is stated per scan instead: `ScanToken` for blanks, `StringLiteral`, and `ScannerFacts.CommentIsDepthScan`.
- Interpreter.ApplyBinary: `/` is stated as `r.value.n * b.n == a.n` rather than as a quotient, and the mixed `+` results are stated through `Stringify`; the rendering of numbers itself is `show`.
- Java `Integer` values appear only as the printer's demonstration literals; nothing else produces them.
- The printer has no visitor for Variable and Assign nodes, so `RPNPrinter.Print` requires a tree without them (`Printable`).
- The dead `EQUAL` case of `visitBinaryExpr`, with its fall-through into `STAR`, and the `default` branches of the binary and unary visitors: the interpreter requires trees whose operators are those the parser produces (`WellFormed`), and `Parser.ShapedIsWellFormed` proves the parser only builds such trees.
- Grammar the code does not have: the keywords `and`, `or`, `class`, `fun`, `if`, `else`, `for`, `while`, `return`, `super` and `this` are scanned but have no rules, so no functions, classes, control flow or closures are modelled.
- Token, TokenType, Expr, Stmt and RuntimeError are not part of this model's source; they are rebuilt from how the modelled files use them. TokenType's `toString` (used when printing a TokenType-constant literal) is the constant's name.

=== FILE: ast.dfy ===
/**
 * The syntax trees the parser builds and the interpreter walks.
 * A statement list may hold `None` entries: the parser adds one for every
 * declaration it failed to parse (Java's null entry).
 */
module Ast {
  import opened Wrappers
  import opened Tokens

  datatype Expr =
    | Literal(value: Value)
    | Grouping(expression: Expr)
    | Unary(operator: Token, right: Expr)
    | Binary(left: Expr, operator: Token, right: Expr)
    | Variable(name: Token)
    | Assign(name: Token, rhs: Expr)

  datatype Stmt =
    | ExpressionStmt(expression: Expr)
    | PrintStmt(expression: Expr)
    | VarStmt(name: Token, initializer: Option<Expr>)
    | BlockStmt(statements: seq<Option<Stmt>>)

  /** The operator kinds the parser puts into Binary nodes. */
  const BinaryOperators: set<TokenType> :=
    {EqualEqual, BangEqual, Greater, GreaterEqual, Less, LessEqual, Plus, Minus, Star, Slash}

  /** The operator kinds the parser puts into Unary nodes. */
  const UnaryOperators: set<TokenType> := {Bang, Minus}

  /** Every operator in the tree is one the parser can produce. */
  predicate WellFormed(e: Expr) {
    match e
    case Literal(_) => true
    case Grouping(inner) => WellFormed(inner)
    case Unary(op, r) => op.kind in UnaryOperators && WellFormed(r)
    case Binary(l, op, r) => op.kind in BinaryOperators && WellFormed(l) && WellFormed(r)
    case Variable(_) => true
    case Assign(_, v) => WellFormed(v)
  }

  /** A statement with no missing (null) sub-statement and only well-formed expressions. */
  predicate Runnable(s: Stmt) {
    match s
    case ExpressionStmt(e) => WellFormed(e)
    case PrintStmt(e) => WellFormed(e)
    case VarStmt(_, init) => init.Some? ==> WellFormed(init.value)
    case BlockStmt(body) =>
      forall i :: 0 <= i < |body| ==> body[i].Some? && Runnable(body[i].value)
  }

  /** Every entry of a statement list is present and runnable. */
  predicate AllRunnable(ss: seq<Option<Stmt>>) {
    forall i :: 0 <= i < |ss| ==> ss[i].Some? && Runnable(ss[i].value)
  }
}

=== FILE: environment.dfy ===
/**
 * The chain of scope frames as a stack of maps. The last frame is the
 * innermost (the active Environment object), the first is the global frame;
 * walking Java's `enclosing` pointers is walking this sequence backwards.
 */
module Environment {
  import opened Wrappers
  import opened Tokens

  type Frame = map<string, Value>

  /** A chain always has at least the global frame. */
  type Env = frames: seq<Frame> | |frames| > 0 witness [map[]]

  /** The message both `get` and `assign` raise for a name no frame binds. */
  function UndefinedMessage(name: string): string {
    "Undefined variable'" + name + "'."
  }

  /** Some frame of the chain binds `name` (a binding to null counts). */
  ghost predicate Defined(env: Env, name: string) {
    exists i :: 0 <= i < |env| && name in env[i]
  }

  /** Frame `i` binds `name` and no frame inside it does. */
  ghost predicate Innermost(env: Env, name: string, i: int) {
    && 0 <= i < |env|
    && name in env[i]
    && forall j :: i < j < |env| ==> name !in env[j]
  }

  /** The innermost (active) frame. */
  function Top(env: Env): Frame {
    env[|env| - 1]
  }

  /** The chain with a fresh, empty innermost frame (Java `new Environment(enclosing)`). */
  function Push(env: Env): (r: Env)
    ensures |r| == |env| + 1 && r[..|env|] == env && r[|env|] == map[]
  {
    env + [map[]]
  }

  /** The enclosing chain of a chain that has more than the global frame. */
  function Pop(env: Env): (r: Env)
    requires |env| > 1
    ensures r == env[..|env| - 1]
  {
    env[..|env| - 1]
  }

  /** `define`: binds `name` in the innermost frame only, replacing any earlier binding there. */
  function Define(env: Env, name: string, v: Value): (r: Env)
    ensures |r| == |env|
    ensures forall j :: 0 <= j < |env| - 1 ==> r[j] == env[j]
    ensures name in Top(r) && Top(r)[name] == v
    ensures Top(r).Keys == Top(env).Keys + {name}
    ensures forall x :: x in Top(env) && x != name ==> Top(r)[x] == Top(env)[x]
  {
    env[..|env| - 1] + [env[|env| - 1][name := v]]
  }

  /** When the innermost frame does not bind a name, lookup of that name sees only the enclosing chain. */
  lemma PopKeepsLookup(env: Env, name: string)
    requires |env| > 1 && name !in Top(env)
    ensures Defined(env, name) <==> Defined(Pop(env), name)
    ensures forall i :: Innermost(env, name, i) <==> Innermost(Pop(env), name, i)
  {
    if Defined(env, name) {
      var i :| 0 <= i < |env| && name in env[i];
      assert i < |env| - 1 && name in Pop(env)[i];
    }
    if Defined(Pop(env), name) {
      var i :| 0 <= i < |Pop(env)| && name in Pop(env)[i];
      assert name in env[i];
    }
  }

  /** `get`: the value bound in the innermost frame that binds the name, else a runtime error. */
  function Get(env: Env, name: Token): (r: Result<Value, RuntimeError>)
    ensures r.Success? <==> Defined(env, name.lexeme)
    ensures r.Success? ==>
      exists i :: Innermost(env, name.lexeme, i) && r.value == env[i][name.lexeme]
    ensures r.Failure? ==> r.error == RuntimeError(name, UndefinedMessage(name.lexeme))
    decreases |env|
  {
    var top := env[|env| - 1];
    if name.lexeme in top then
      assert Innermost(env, name.lexeme, |env| - 1);
      Success(top[name.lexeme])
    else if |env| > 1 then
      PopKeepsLookup(env, name.lexeme);
      Get(Pop(env), name)
    else
      Failure(RuntimeError(name, UndefinedMessage(name.lexeme)))
  }

  /** An update of the enclosing chain, with the innermost frame put back on top, is an update of the whole chain. */
  lemma AssignThroughPop(env: Env, name: string, v: Value, outer: Env)
    requires |env| > 1 && name !in Top(env)
    requires |outer| == |env| - 1
    requires forall j :: 0 <= j < |env| - 1 ==> outer[j].Keys == env[j].Keys
    requires exists i :: && Innermost(Pop(env), name, i)
                         && outer[i] == env[i][name := v]
                         && forall j :: 0 <= j < |env| - 1 && j != i ==> outer[j] == env[j]
    ensures forall j :: 0 <= j < |env| ==> (outer + [Top(env)])[j].Keys == env[j].Keys
    ensures exists i :: && Innermost(env, name, i)
                        && (outer + [Top(env)])[i] == env[i][name := v]
                        && forall j :: 0 <= j < |env| && j != i ==> (outer + [Top(env)])[j] == env[j]
  {
    var r := outer + [Top(env)];
    var i :| && Innermost(Pop(env), name, i)
             && outer[i] == env[i][name := v]
             && forall j :: 0 <= j < |env| - 1 && j != i ==> outer[j] == env[j];
    PopKeepsLookup(env, name);
    assert Innermost(env, name, i);
    assert r[i] == env[i][name := v];
    forall j | 0 <= j < |env| && j != i
      ensures r[j] == env[j]
    {
      if j < |env| - 1 {
        assert r[j] == outer[j];
      }
    }
  }

  /**
   * `assign`: rebinds the name in the innermost frame that already binds it.
   * Every other frame, and every other name, is left as it was; no frame
   * gains a binding.
   */
  function Assign(env: Env, name: Token, v: Value): (r: Result<Env, RuntimeError>)
    ensures r.Success? <==> Defined(env, name.lexeme)
    ensures r.Success? ==> |r.value| == |env|
    ensures r.Success? ==> forall j :: 0 <= j < |env| ==> r.value[j].Keys == env[j].Keys
    ensures r.Success? ==>
      exists i :: && Innermost(env, name.lexeme, i)
                  && r.value[i] == env[i][name.lexeme := v]
                  && forall j :: 0 <= j < |env| && j != i ==> r.value[j] == env[j]
    ensures r.Failure? ==> r.error == RuntimeError(name, UndefinedMessage(name.lexeme))
    decreases |env|
  {
    var top := env[|env| - 1];
    if name.lexeme in top then
      var r := env[..|env| - 1] + [top[name.lexeme := v]];
      assert Innermost(env, name.lexeme, |env| - 1);
      Success(r)
    else if |env| > 1 then
      PopKeepsLookup(env, name.lexeme);
      var rest := Assign(Pop(env), name, v);
      if rest.Failure? then
        Failure(rest.error)
      else
        var r: Env := rest.value + [top];
        AssignThroughPop(env, name.lexeme, v, rest.value);
        Success(r)
    else
      Failure(RuntimeError(name, UndefinedMessage(name.lexeme)))
  }

  /** After `define`, reading the name yields the defined value, whatever was bound before. */
  lemma DefineThenGet(env: Env, name: Token, v: Value)
    ensures Get(Define(env, name.lexeme, v), name) == Success(v)
  {
    var r := Define(env, name.lexeme, v);
    var g := Get(r, name);
    var i :| Innermost(r, name.lexeme, i) && g.value == r[i][name.lexeme];
    assert i == |r| - 1;
  }

  /** A name bound to null is still defined: reading it yields null, not an error. */
  lemma NullBindingIsDefined(env: Env, name: Token)
    requires name.lexeme in env[|env| - 1] && env[|env| - 1][name.lexeme] == Null
    ensures Get(env, name) == Success(Null)
    ensures Assign(env, name, Num(1.0)).Success?
  {
    var g := Get(env, name);
    assert Defined(env, name.lexeme);
    var i :| Innermost(env, name.lexeme, i) && g.value == env[i][name.lexeme];
    assert i == |env| - 1;
  }

  /** Inner declarations shadow outer ones; popping the inner frame uncovers the outer binding. */
  lemma ShadowThenPop(env: Env, name: Token, outer: Value, inner: Value)
    requires Get(env, name) == Success(outer)
    ensures Get(Define(Push(env), name.lexeme, inner), name) == Success(inner)
    ensures Get(Pop(Define(Push(env), name.lexeme, inner)), name) == Success(outer)
  {
    DefineThenGet(Push(env), name, inner);
    assert Pop(Define(Push(env), name.lexeme, inner)) == env;
  }
}

=== FILE: interpreter.dfy ===
/**
 * Tree-walking evaluation. The interpreter's mutable `environment` field and
 * the standard-output stream become an explicit `State` threaded through every
 * call; a thrown RuntimeError becomes a `Thrown` outcome that carries the
 * state reached when it was thrown. Java's `Double.toString` is the
 * parameter `show`.
 */
module Interpreter {
  import opened Wrappers
  import opened Tokens
  import opened Ast
  import E = Environment

  /** The active scope chain and the lines written to standard output so far. */
  datatype State = State(env: E.Env, out: seq<string>)

  /** Normal completion with a value, or a runtime error unwinding to `interpret`. */
  datatype Outcome<T> = Normal(value: T, st: State) | Thrown(error: RuntimeError, st: State)

  /** What one `interpret` call leaves behind: the final state and the error it reported, if any. */
  datatype Run = Run(st: State, reported: Option<RuntimeError>)

  /** Two chains of the same depth whose frames bind the same names. */
  ghost predicate SameShape(a: E.Env, b: E.Env) {
    |a| == |b| && forall j :: 0 <= j < |a| ==> a[j].Keys == b[j].Keys
  }

  /** `b` is `a` after declarations in the innermost frame: same depth, outer frames bind the same names. */
  ghost predicate GrowsTop(a: E.Env, b: E.Env) {
    && |a| == |b|
    && (forall j :: 0 <= j < |a| - 1 ==> a[j].Keys == b[j].Keys)
    && E.Top(a).Keys <= E.Top(b).Keys
  }

  /** `isTruthy`: only null and Boolean false are falsey. */
  predicate IsTruthy(v: Value)
    ensures !IsTruthy(v) <==> v == Null || v == Bool(false)
  {
    match v
    case Null => false
    case Bool(b) => b
    case _ => true
  }

  /** `isEqual`: null equals only null, anything else uses `equals`. */
  predicate IsEqual(a: Value, b: Value)
    ensures IsEqual(a, b) <==> a == b
  {
    if a == Null && b == Null then true
    else if a == Null then false
    else a == b
  }

  /** `stringify`: "nil" for null, a Double's text without a trailing ".0", otherwise `toString`. */
  function Stringify(v: Value, show: real -> string): (r: string)
    ensures v == Null ==> r == "nil"
    ensures v.Num? && |show(v.n)| >= 2 && show(v.n)[|show(v.n)| - 2..] == ".0" ==>
      r + ".0" == show(v.n)
    ensures v.Num? && !(|show(v.n)| >= 2 && show(v.n)[|show(v.n)| - 2..] == ".0") ==> r == show(v.n)
    ensures v != Null && !v.Num? ==> r == ObjectText(v, show)
  {
    if v == Null then "nil"
    else if v.Num? then
      var text := ObjectText(v, show);
      if |text| >= 2 && text[|text| - 2..] == ".0" then text[..|text| - 2] else text
    else ObjectText(v, show)
  }

  const OperandMessage := "Operand must be a number."
  const OperandsMessage := "Operands must be numbers."
  const PlusMessage := "Operands must be two numbers of two strings"
  const DivideMessage := "Cannot divide by 0"

  /** `visitUnaryExpr` after its operand has been evaluated. */
  function ApplyUnary(op: Token, v: Value): (r: Result<Value, RuntimeError>)
    requires op.kind in UnaryOperators
    ensures op.kind == Bang ==> r == Success(Bool(!IsTruthy(v)))
    ensures op.kind == Minus ==> (r.Success? <==> v.Num?)
    ensures op.kind == Minus && v.Num? ==> r.value == Num(0.0 - v.n)
    ensures r.Failure? ==> r.error == RuntimeError(op, OperandMessage)
  {
    if op.kind == Bang then Success(Bool(!IsTruthy(v)))
    else if v.Num? then Success(Num(-v.n))
    else Failure(RuntimeError(op, OperandMessage))
  }

  /** The operators that demand two numbers. */
  const NumericOperators: set<TokenType> := {Greater, GreaterEqual, Less, LessEqual, Minus, Star, Slash}

  /** `visitBinaryExpr` after both operands have been evaluated. */
  function ApplyBinary(op: Token, a: Value, b: Value, show: real -> string): (r: Result<Value, RuntimeError>)
    requires op.kind in BinaryOperators
    // comparisons and arithmetic other than + need two numbers; / also a non-zero divisor
    ensures op.kind in NumericOperators ==>
      (r.Success? <==> a.Num? && b.Num? && !(op.kind == Slash && b.n == 0.0))
    ensures op.kind in NumericOperators && !(a.Num? && b.Num?) ==>
      r == Failure(RuntimeError(op, OperandsMessage))
    ensures op.kind == Slash && a.Num? && b.Num? && b.n == 0.0 ==>
      r == Failure(RuntimeError(op, DivideMessage))
    ensures op.kind in {Greater, GreaterEqual, Less, LessEqual} && r.Success? ==> r.value.Bool?
    ensures op.kind == Less && r.Success? ==> r.value.b == (a.n < b.n)
    ensures op.kind == Greater && r.Success? ==> r.value.b == (b.n < a.n)
    ensures op.kind == GreaterEqual && r.Success? ==> r.value.b == !(a.n < b.n)
    ensures op.kind == LessEqual && r.Success? ==> r.value.b == !(b.n < a.n)
    ensures op.kind == Minus && r.Success? ==> r.value == Num(a.n - b.n)
    ensures op.kind == Star && r.Success? ==> r.value == Num(a.n * b.n)
    ensures op.kind == Slash && r.Success? ==> r.value.Num? && r.value.n * b.n == a.n
    // equality never fails and != is the negation of ==
    ensures op.kind == EqualEqual ==> r == Success(Bool(a == b))
    ensures op.kind == BangEqual ==> r == Success(Bool(a != b))
    // + adds numbers, concatenates strings, renders a number mixed with a string
    ensures op.kind == Plus ==> (r.Success? <==> (a.Num? || a.Str?) && (b.Num? || b.Str?))
    ensures op.kind == Plus && a.Num? && b.Num? ==> r == Success(Num(a.n + b.n))
    ensures op.kind == Plus && a.Str? && b.Str? ==> r == Success(Str(a.s + b.s))
    ensures op.kind == Plus && a.Str? && b.Num? ==> r == Success(Str(a.s + Stringify(b, show)))
    ensures op.kind == Plus && a.Num? && b.Str? ==> r == Success(Str(Stringify(a, show) + b.s))
    ensures op.kind == Plus && r.Failure? ==> r.error == RuntimeError(op, PlusMessage)
  {
    match op.kind
    case Greater => if a.Num? && b.Num? then Success(Bool(a.n > b.n)) else Failure(RuntimeError(op, OperandsMessage))
    case GreaterEqual => if a.Num? && b.Num? then Success(Bool(a.n >= b.n)) else Failure(RuntimeError(op, OperandsMessage))
    case Less => if a.Num? && b.Num? then Success(Bool(a.n < b.n)) else Failure(RuntimeError(op, OperandsMessage))
    case LessEqual => if a.Num? && b.Num? then Success(Bool(a.n <= b.n)) else Failure(RuntimeError(op, OperandsMessage))
    case BangEqual => Success(Bool(!IsEqual(a, b)))
    case EqualEqual => Success(Bool(IsEqual(a, b)))
    case Minus => if a.Num? && b.Num? then Success(Num(a.n - b.n)) else Failure(RuntimeError(op, OperandsMessage))
    case Plus =>
      if a.Num? && b.Num? then Success(Num(a.n + b.n))
      else if a.Str? && b.Str? then Success(Str(a.s + b.s))
      else if a.Str? && b.Num? then Success(Str(a.s + Stringify(b, show)))
      else if a.Num? && b.Str? then Success(Str(Stringify(a, show) + b.s))
      else Failure(RuntimeError(op, PlusMessage))
    case Slash =>
      if !(a.Num? && b.Num?) then Failure(RuntimeError(op, OperandsMessage))
      else if b.n == 0.0 then Failure(RuntimeError(op, DivideMessage))
      else Success(Num(a.n / b.n))
    case Star => if a.Num? && b.Num? then Success(Num(a.n * b.n)) else Failure(RuntimeError(op, OperandsMessage))
    // the `default: return null` branch, which well-formed trees never reach
    case _ => Success(Null)
  }

  /**
   * `evaluate`: an expression never changes which names the frames bind,
   * nor the output. A literal is its value, a grouping is its inner
   * expression, and a variable is what `get` finds for it, or `get`'s error.
   */
  function Evaluate(e: Expr, st: State, show: real -> string): (r: Outcome<Value>)
    requires WellFormed(e)
    ensures SameShape(st.env, r.st.env) && r.st.out == st.out
    ensures e.Literal? ==> r == Normal(e.value, st)
    ensures e.Grouping? ==> r == Evaluate(e.expression, st, show)
    ensures e.Variable? && E.Get(st.env, e.name).Success? ==> r == Normal(E.Get(st.env, e.name).value, st)
    ensures e.Variable? && E.Get(st.env, e.name).Failure? ==> r == Thrown(E.Get(st.env, e.name).error, st)
    decreases e
  {
    match e
    case Literal(v) => Normal(v, st)
    case Grouping(inner) => Evaluate(inner, st, show)
    case Unary(op, right) =>
      (match Evaluate(right, st, show)
       case Thrown(err, s1) => Thrown(err, s1)
       case Normal(v, s1) =>
         (match ApplyUnary(op, v)
          case Success(u) => Normal(u, s1)
          case Failure(err) => Thrown(err, s1)))
    case Binary(left, op, right) =>
      (match Evaluate(left, st, show)
       case Thrown(err, s1) => Thrown(err, s1)
       case Normal(a, s1) =>
         (match Evaluate(right, s1, show)
          case Thrown(err, s2) => Thrown(err, s2)
          case Normal(b, s2) =>
            (match ApplyBinary(op, a, b, show)
             case Success(v) => Normal(v, s2)
             case Failure(err) => Thrown(err, s2))))
    case Variable(name) =>
      (match E.Get(st.env, name)
       case Success(v) => Normal(v, st)
       case Failure(err) => Thrown(err, st))
    case Assign(name, rhs) =>
      (match Evaluate(rhs, st, show)
       case Thrown(err, s1) => Thrown(err, s1)
       case Normal(v, s1) =>
         (match E.Assign(s1.env, name, v)
          case Success(env) => Normal(v, s1.(env := env))
          case Failure(err) => Thrown(err, s1)))
  }

  /**
   * `execute`: a statement may add names to the innermost frame only, keeps
   * the chain's depth, and only appends to the output.
   */
  function Exec(s: Stmt, st: State, isRepl: bool, show: real -> string): (r: Outcome<()>)
    requires Runnable(s)
    ensures GrowsTop(st.env, r.st.env)
    ensures |st.out| <= |r.st.out| && r.st.out[..|st.out|] == st.out
    decreases s, 1, 0
  {
    match s
    case ExpressionStmt(e) => ExecExpression(e, st, isRepl, show)
    case PrintStmt(e) => ExecPrint(e, st, show)
    case VarStmt(name, init) => ExecVar(name, init, st, show)
    case BlockStmt(body) => ExecBlock(body, st, isRepl, show)
  }

  /** `visitExpressionStmt`: evaluates for effect; the REPL also prints the value. */
  function ExecExpression(e: Expr, st: State, isRepl: bool, show: real -> string): (r: Outcome<()>)
    requires WellFormed(e)
    ensures SameShape(st.env, r.st.env) && GrowsTop(st.env, r.st.env)
    ensures |st.out| <= |r.st.out| && r.st.out[..|st.out|] == st.out
    ensures Evaluate(e, st, show).Thrown? ==> r == Thrown(Evaluate(e, st, show).error, Evaluate(e, st, show).st)
    ensures Evaluate(e, st, show).Normal? && isRepl ==>
      r.st.out == st.out + [Stringify(Evaluate(e, st, show).value, show)]
    ensures Evaluate(e, st, show).Normal? && !isRepl ==> r.st.out == st.out
    ensures Evaluate(e, st, show).Normal? ==> r.Normal? && r.st.env == Evaluate(e, st, show).st.env
  {
    var ev := Evaluate(e, st, show);
    ShapeGrows(st.env, ev.st.env);
    match ev
    case Thrown(err, s1) => Thrown(err, s1)
    case Normal(v, s1) =>
      if isRepl then Normal((), s1.(out := WriteLine(st.out, Stringify(v, show)))) else Normal((), s1)
  }

  /** `visitPrintStmt`: evaluates, then writes the value's rendering as one line. */
  function ExecPrint(e: Expr, st: State, show: real -> string): (r: Outcome<()>)
    requires WellFormed(e)
    ensures SameShape(st.env, r.st.env) && GrowsTop(st.env, r.st.env)
    ensures |st.out| <= |r.st.out| && r.st.out[..|st.out|] == st.out
    ensures Evaluate(e, st, show).Thrown? ==> r == Thrown(Evaluate(e, st, show).error, Evaluate(e, st, show).st)
    ensures Evaluate(e, st, show).Normal? ==>
      r.Normal? && r.st.out == st.out + [Stringify(Evaluate(e, st, show).value, show)]
    ensures Evaluate(e, st, show).Normal? ==> r.st.env == Evaluate(e, st, show).st.env
  {
    var ev := Evaluate(e, st, show);
    ShapeGrows(st.env, ev.st.env);
    match ev
    case Thrown(err, s1) => Thrown(err, s1)
    case Normal(v, s1) => Normal((), s1.(out := WriteLine(st.out, Stringify(v, show))))
  }

  /** The output after one more line is written: the earlier lines are kept. */
  function WriteLine(out: seq<string>, line: string): (r: seq<string>)
    ensures |r| == |out| + 1 && r[..|out|] == out && r[|out|] == line
  {
    out + [line]
  }

  /** Frames that bind the same names have, in particular, the same outer frames and the same top. */
  lemma ShapeGrows(a: E.Env, b: E.Env)
    requires SameShape(a, b)
    ensures GrowsTop(a, b)
  {
    assert E.Top(a).Keys == a[|a| - 1].Keys;
  }

  /**
   * `visitVarStmt`: binds the initializer's value, or nil without one, in
   * the innermost frame, so that reading the name afterwards yields that
   * value; an error in the initializer is thrown before anything is bound.
   */
  function ExecVar(name: Token, init: Option<Expr>, st: State, show: real -> string): (r: Outcome<()>)
    requires init.Some? ==> WellFormed(init.value)
    ensures GrowsTop(st.env, r.st.env) && r.st.out == st.out
    ensures |st.out| <= |r.st.out| && r.st.out[..|st.out|] == st.out
    ensures r.Normal? ==> name.lexeme in E.Top(r.st.env)
    ensures init.None? ==> r == Normal((), st.(env := E.Define(st.env, name.lexeme, Null)))
    ensures init.None? ==> E.Get(r.st.env, name) == Success(Null)
    ensures init.Some? && Evaluate(init.value, st, show).Normal? ==>
      r.Normal? && E.Get(r.st.env, name) == Success(Evaluate(init.value, st, show).value)
    ensures init.Some? && Evaluate(init.value, st, show).Normal? ==>
      var x := Evaluate(init.value, st, show);
      r.st.env == E.Define(x.st.env, name.lexeme, x.value)
    ensures init.Some? && Evaluate(init.value, st, show).Thrown? ==>
      r == Thrown(Evaluate(init.value, st, show).error, Evaluate(init.value, st, show).st)
  {
    var initial := if init.Some? then Evaluate(init.value, st, show) else Normal(Null, st);
    match initial
    case Thrown(err, s1) => Thrown(err, s1)
    case Normal(v, s1) =>
      E.DefineThenGet(s1.env, name, v);
      Normal((), s1.(env := E.Define(s1.env, name.lexeme, v)))
  }

  /**
   * `executeBlock` with a fresh child frame: the body runs in the chain
   * with that frame pushed; whether it completes or throws, the enclosing
   * chain is active again afterwards, with every assignment the body made
   * to it, while the body's declarations are gone with the child frame.
   */
  function ExecBlock(body: seq<Option<Stmt>>, st: State, isRepl: bool, show: real -> string): (r: Outcome<()>)
    requires AllRunnable(body)
    ensures SameShape(st.env, r.st.env) && GrowsTop(st.env, r.st.env)
    ensures |st.out| <= |r.st.out| && r.st.out[..|st.out|] == st.out
    ensures var inner := ExecList(body, 0, State(E.Push(st.env), st.out), isRepl, show);
      && (r.Thrown? <==> inner.Thrown?)
      && (r.Thrown? ==> r.error == inner.error)
      && r.st.out == inner.st.out
      && forall j :: 0 <= j < |st.env| ==> r.st.env[j] == inner.st.env[j]
    decreases BlockStmt(body), 0, |body| + 1
  {
    var inner := ExecList(body, 0, State(E.Push(st.env), st.out), isRepl, show);
    match inner
    case Normal(_, s1) => Normal((), s1.(env := E.Pop(s1.env)))
    case Thrown(err, s1) => Thrown(err, s1.(env := E.Pop(s1.env)))
  }

  /** Runs `ss[i..]` in order, stopping at the first runtime error. */
  function ExecList(ss: seq<Option<Stmt>>, i: nat, st: State, isRepl: bool, show: real -> string): (r: Outcome<()>)
    requires i <= |ss| && AllRunnable(ss)
    ensures GrowsTop(st.env, r.st.env)
    ensures |st.out| <= |r.st.out| && r.st.out[..|st.out|] == st.out
    decreases BlockStmt(ss), 0, |ss| - i
  {
    if i == |ss| then Normal((), st)
    else
      match Exec(ss[i].value, st, isRepl, show)
      case Thrown(err, s1) => Thrown(err, s1)
      case Normal(_, s1) => ExecList(ss, i + 1, s1, isRepl, show)
  }

  /**
   * `interpret`: runs the statements in order; the first runtime error is
   * reported once and the statements after it are skipped. Only a program
   * the parser produced without reporting an error reaches this point, so no
   * entry is missing.
   */
  function Interpret(ss: seq<Option<Stmt>>, st: State, isRepl: bool, show: real -> string): (r: Run)
    requires AllRunnable(ss)
    ensures |r.st.env| == |st.env|
    ensures |st.out| <= |r.st.out| && r.st.out[..|st.out|] == st.out
    ensures var x := ExecList(ss, 0, st, isRepl, show);
      && r.st == x.st
      && (r.reported.Some? <==> x.Thrown?)
      && (x.Thrown? ==> r.reported == Some(x.error))
  {
    match ExecList(ss, 0, st, isRepl, show)
    case Normal(_, s1) => Run(s1, None)
    case Thrown(err, s1) => Run(s1, Some(err))
  }

  /** The state a fresh interpreter starts from: one empty global frame and no output. */
  const Initial: State := State([map[]], [])
}

=== FILE: interpreter_facts.dfy ===
/** Properties of the interpreter that relate several calls, and worked programs. */
module InterpreterFacts {
  import opened Wrappers
  import opened Tokens
  import opened Ast
  import opened Interpreter
  import E = Environment

  /** Running the statements of `q` after an index into `p + q` is running `q` itself. */
  lemma {:induction false} ExecListShift(p: seq<Option<Stmt>>, q: seq<Option<Stmt>>, k: nat, st: State, isRepl: bool, show: real -> string)
    requires k <= |q| && AllRunnable(p + q) && AllRunnable(q)
    ensures ExecList(p + q, |p| + k, st, isRepl, show) == ExecList(q, k, st, isRepl, show)
    decreases |q| - k
  {
    if k < |q| {
      assert (p + q)[|p| + k] == q[k];
      match Exec(q[k].value, st, isRepl, show)
      case Thrown(_, _) =>
      case Normal(_, s1) => ExecListShift(p, q, k + 1, s1, isRepl, show);
    }
  }

  /** Running `p + q` from index `i` of `p` runs the rest of `p`, then, unless it threw, all of `q`. */
  lemma {:induction false} ExecListConcat(p: seq<Option<Stmt>>, q: seq<Option<Stmt>>, i: nat, st: State, isRepl: bool, show: real -> string)
    requires i <= |p| && AllRunnable(p) && AllRunnable(q)
    ensures AllRunnable(p + q)
    ensures ExecList(p + q, i, st, isRepl, show) ==
      match ExecList(p, i, st, isRepl, show)
      case Thrown(err, s1) => Thrown(err, s1)
      case Normal(_, s1) => ExecList(q, 0, s1, isRepl, show)
    decreases |p| - i
  {
    AllRunnableConcat(p, q);
    if i == |p| {
      ExecListShift(p, q, 0, st, isRepl, show);
    } else {
      assert (p + q)[i] == p[i];
      var x := Exec(p[i].value, st, isRepl, show);
      if x.Normal? {
        ExecListConcat(p, q, i + 1, x.st, isRepl, show);
      }
    }
  }

  /** A list of one statement runs exactly that statement. */
  lemma ExecListOne(s: Stmt, st: State, isRepl: bool, show: real -> string)
    requires Runnable(s)
    ensures AllRunnable([Some(s)])
    ensures ExecList([Some(s)], 0, st, isRepl, show) == Exec(s, st, isRepl, show)
  {
    assert AllRunnable([Some(s)]);
    var x := Exec(s, st, isRepl, show);
    if x.Normal? {
      assert ExecList([Some(s)], 1, x.st, isRepl, show) == Normal((), x.st);
    }
  }

  /**
   * A list runs its first statement, and then, unless that threw, the rest
   * from the state the first left; with `ExecListOne` this fixes every run.
   */
  lemma ExecListCons(s: Stmt, rest: seq<Option<Stmt>>, st: State, isRepl: bool, show: real -> string)
    requires Runnable(s) && AllRunnable(rest)
    ensures AllRunnable([Some(s)] + rest)
    ensures var x := Exec(s, st, isRepl, show);
      ExecList([Some(s)] + rest, 0, st, isRepl, show) ==
        if x.Thrown? then Thrown(x.error, x.st) else ExecList(rest, 0, x.st, isRepl, show)
  {
    ExecListOne(s, st, isRepl, show);
    ExecListConcat([Some(s)], rest, 0, st, isRepl, show);
  }

  /** Two lists of present, runnable entries make one. */
  lemma AllRunnableConcat(p: seq<Option<Stmt>>, q: seq<Option<Stmt>>)
    requires AllRunnable(p) && AllRunnable(q)
    ensures AllRunnable(p + q)
  {
    forall k | 0 <= k < |p + q|
      ensures (p + q)[k].Some? && Runnable((p + q)[k].value)
    {
      if k < |p| { assert (p + q)[k] == p[k]; } else { assert (p + q)[k] == q[k - |p|]; }
    }
  }

  /**
   * `interpret` runs statements in order: if the first part reports a
   * runtime error, the rest is skipped and the run ends with the state the
   * error left (earlier output and assignments persist); otherwise the rest
   * runs from the state the first part reached.
   */
  lemma InterpretSequence(p: seq<Option<Stmt>>, q: seq<Option<Stmt>>, st: State, isRepl: bool, show: real -> string)
    requires AllRunnable(p) && AllRunnable(q)
    ensures AllRunnable(p + q)
    ensures Interpret(p, st, isRepl, show).reported.Some? ==>
      Interpret(p + q, st, isRepl, show) == Interpret(p, st, isRepl, show)
    ensures Interpret(p, st, isRepl, show).reported.None? ==>
      Interpret(p + q, st, isRepl, show) == Interpret(q, Interpret(p, st, isRepl, show).st, isRepl, show)
  {
    ExecListConcat(p, q, 0, st, isRepl, show);
  }

  /** Binary evaluates the left operand, then the right, and only then looks at the operator. */
  lemma BinaryOperandsFirst(l: Expr, op: Token, r: Expr, st: State, show: real -> string)
    requires WellFormed(Binary(l, op, r))
    ensures Evaluate(l, st, show).Thrown? ==>
      Evaluate(Binary(l, op, r), st, show) == Evaluate(l, st, show)
    ensures Evaluate(l, st, show).Normal? && Evaluate(r, Evaluate(l, st, show).st, show).Thrown? ==>
      Evaluate(Binary(l, op, r), st, show) == Evaluate(r, Evaluate(l, st, show).st, show)
    ensures Evaluate(l, st, show).Normal? && Evaluate(r, Evaluate(l, st, show).st, show).Normal? ==>
      var s2 := Evaluate(r, Evaluate(l, st, show).st, show).st;
      var a := Evaluate(l, st, show).value;
      var b := Evaluate(r, Evaluate(l, st, show).st, show).value;
      Evaluate(Binary(l, op, r), st, show) ==
        if ApplyBinary(op, a, b, show).Success? then Normal(ApplyBinary(op, a, b, show).value, s2)
        else Thrown(ApplyBinary(op, a, b, show).error, s2)
  {
  }

  /** Unary evaluates its operand first, and only then applies the operator. */
  lemma UnaryOperandFirst(op: Token, right: Expr, st: State, show: real -> string)
    requires WellFormed(Unary(op, right))
    ensures Evaluate(right, st, show).Thrown? ==>
      Evaluate(Unary(op, right), st, show) == Evaluate(right, st, show)
    ensures Evaluate(right, st, show).Normal? ==>
      var x := Evaluate(right, st, show);
      Evaluate(Unary(op, right), st, show) ==
        if ApplyUnary(op, x.value).Success? then Normal(ApplyUnary(op, x.value).value, x.st)
        else Thrown(ApplyUnary(op, x.value).error, x.st)
  {
  }

  /**
   * Assigning a name no frame binds throws "Undefined variable" at the
   * name, after the right side was evaluated, and binds nothing.
   */
  lemma AssignUndefinedThrows(name: Token, rhs: Expr, st: State, show: real -> string)
    requires WellFormed(rhs)
    requires Evaluate(rhs, st, show).Normal?
    requires !E.Defined(Evaluate(rhs, st, show).st.env, name.lexeme)
    ensures Evaluate(Assign(name, rhs), st, show) ==
      Thrown(RuntimeError(name, E.UndefinedMessage(name.lexeme)), Evaluate(rhs, st, show).st)
  {
  }

  /** The body of `{ a = v; }`. */
  function AssignInBlock(name: Token, v: Value): (r: seq<Option<Stmt>>)
    ensures AllRunnable(r)
  {
    var r := [Some(ExpressionStmt(Assign(name, Literal(v))))];
    assert r[0].Some? && Runnable(r[0].value);
    r
  }

  /**
   * Assigning, under a fresh child frame, a name the chain binds succeeds,
   * and once the child frame is popped the chain reads the new value.
   */
  lemma AssignUnderChild(env: E.Env, name: Token, v: Value)
    requires E.Defined(env, name.lexeme)
    ensures E.Assign(E.Push(env), name, v).Success?
    ensures |E.Assign(E.Push(env), name, v).value| > 1
    ensures E.Get(E.Pop(E.Assign(E.Push(env), name, v).value), name) == Success(v)
  {
    var pushed := E.Push(env);
    var i :| 0 <= i < |env| && name.lexeme in env[i];
    assert pushed[i] == env[i];
    var env' := E.Assign(pushed, name, v).value;
    StoredValueIsRead(pushed, env', name, v);
    var k :| && E.Innermost(pushed, name.lexeme, k)
             && env'[k] == pushed[k][name.lexeme := v]
             && forall j :: 0 <= j < |pushed| && j != k ==> env'[j] == pushed[j];
    assert k < |env|;
    assert name.lexeme !in env'[|env'| - 1];
    assert E.Get(env', name) == E.Get(E.Pop(env'), name);
  }

  /**
   * A block that assigns a name of the enclosing chain, `{ a = v; }`,
   * leaves the chain reading `v` for that name: the assignment outlives
   * the block, and nothing is printed.
   */
  lemma BlockAssignsOuter(name: Token, v: Value, st: State, show: real -> string)
    requires E.Defined(st.env, name.lexeme)
    ensures var r := ExecBlock(AssignInBlock(name, v), st, false, show);
      r.Normal? && E.Get(r.st.env, name) == Success(v) && r.st.out == st.out
  {
    AssignUnderChild(st.env, name, v);
    var env' := E.Assign(E.Push(st.env), name, v).value;
    var s1 := State(E.Push(st.env), st.out);
    assert Evaluate(Assign(name, Literal(v)), s1, show) == Normal(v, s1.(env := env'));
    assert Exec(ExpressionStmt(Assign(name, Literal(v))), s1, false, show) == Normal((), s1.(env := env'));
    assert ExecList(AssignInBlock(name, v), 0, s1, false, show) == Normal((), s1.(env := env'));
  }

  /** An assignment stores the value through `assign` and is itself that value. */
  lemma AssignYieldsValue(name: Token, rhs: Expr, st: State, show: real -> string)
    requires WellFormed(rhs)
    requires Evaluate(rhs, st, show).Normal?
    requires E.Defined(Evaluate(rhs, st, show).st.env, name.lexeme)
    ensures Evaluate(Assign(name, rhs), st, show).Normal?
    ensures Evaluate(Assign(name, rhs), st, show).value == Evaluate(rhs, st, show).value
    ensures E.Get(Evaluate(Assign(name, rhs), st, show).st.env, name) == Success(Evaluate(rhs, st, show).value)
    ensures var x := Evaluate(rhs, st, show);
      Evaluate(Assign(name, rhs), st, show) == Normal(x.value, x.st.(env := E.Assign(x.st.env, name, x.value).value))
  {
    var s1 := Evaluate(rhs, st, show).st;
    var v := Evaluate(rhs, st, show).value;
    var stored := E.Assign(s1.env, name, v);
    assert stored.Success?;
    var env' := stored.value;
    assert Evaluate(Assign(name, rhs), st, show) == Normal(v, s1.(env := env'));
    StoredValueIsRead(s1.env, env', name, v);
  }

  /** After a successful `assign`, reading the name gives the assigned value. */
  lemma StoredValueIsRead(env: E.Env, env': E.Env, name: Token, v: Value)
    requires E.Assign(env, name, v) == Success(env')
    ensures E.Get(env', name) == Success(v)
  {
    var i :| && E.Innermost(env, name.lexeme, i)
             && env'[i] == env[i][name.lexeme := v]
             && forall j :: 0 <= j < |env| && j != i ==> env'[j] == env[j];
    assert E.Innermost(env', name.lexeme, i);
    var g := E.Get(env', name);
    var k :| E.Innermost(env', name.lexeme, k) && g.value == env'[k][name.lexeme];
    assert k == i;
  }

  function Name(s: string): Token { Token(Identifier, s, Null, 1) }
  function Op(k: TokenType, s: string): Token { Token(k, s, Null, 1) }

  /**
   * The literal `nil` is the TokenType constant NIL, which is truthy, so
   * `!nil` is false; `!false` is false for the same reason; `!0` and `!""`
   * are false because zero and the empty string are truthy.
   */
  lemma NegatedLiterals(st: State, show: real -> string)
    ensures Evaluate(Unary(Op(Bang, "!"), Literal(Kind(Nil))), st, show) == Normal(Bool(false), st)
    ensures Evaluate(Unary(Op(Bang, "!"), Literal(Kind(False))), st, show) == Normal(Bool(false), st)
    ensures Evaluate(Unary(Op(Bang, "!"), Literal(Num(0.0))), st, show) == Normal(Bool(false), st)
    ensures Evaluate(Unary(Op(Bang, "!"), Literal(Str(""))), st, show) == Normal(Bool(false), st)
    ensures Evaluate(Unary(Op(Bang, "!"), Literal(Null)), st, show) == Normal(Bool(true), st)
  {
  }

  /** `print true;` prints the enum constant's name, because the literal is TokenType.TRUE. */
  lemma PrintTrueLiteral(st: State, show: real -> string)
    ensures Exec(PrintStmt(Literal(Kind(True))), st, false, show) == Normal((), st.(out := st.out + ["TRUE"]))
  {
  }

  /** `1 / 0` is a runtime error, not infinity. */
  lemma DivideByZero(st: State, show: real -> string)
    ensures Evaluate(Binary(Literal(Num(1.0)), Op(Slash, "/"), Literal(Num(0.0))), st, show) ==
      Thrown(RuntimeError(Op(Slash, "/"), "Cannot divide by 0"), st)
  {
  }

  /** `"age: " + 10` is "age: 10" and `10 + "x"` is "10x" when 10.0 prints as "10.0". */
  lemma ConcatenateNumber(st: State, show: real -> string)
    requires show(10.0) == "10.0"
    ensures Evaluate(Binary(Literal(Str("age: ")), Op(Plus, "+"), Literal(Num(10.0))), st, show) ==
      Normal(Str("age: 10"), st)
    ensures Evaluate(Binary(Literal(Num(10.0)), Op(Plus, "+"), Literal(Str("x"))), st, show) ==
      Normal(Str("10x"), st)
  {
    var ten := ObjectText(Num(10.0), show);
    assert ten[|ten| - 2..] == ".0";
    assert Stringify(Num(10.0), show) == "10";
    assert "age: " + "10" == "age: 10";
    assert "10" + "x" == "10x";
    assert ApplyBinary(Op(Plus, "+"), Str("age: "), Num(10.0), show) == Success(Str("age: 10"));
    assert ApplyBinary(Op(Plus, "+"), Num(10.0), Str("x"), show) == Success(Str("10x"));
  }

  /** `b = 5;` with no declaration of b reports "Undefined variable'b'." and prints nothing. */
  lemma AssignUndeclared(show: real -> string)
    ensures Interpret([Some(ExpressionStmt(Assign(Name("b"), Literal(Num(5.0)))))], Initial, false, show) ==
      Run(Initial, Some(RuntimeError(Name("b"), "Undefined variable'b'.")))
  {
    var e := Assign(Name("b"), Literal(Num(5.0)));
    assert !E.Defined(Initial.env, "b");
    assert E.UndefinedMessage("b") == "Undefined variable'b'.";
    assert E.Assign(Initial.env, Name("b"), Num(5.0)) == Failure(RuntimeError(Name("b"), "Undefined variable'b'."));
    assert Evaluate(e, Initial, show) == Thrown(RuntimeError(Name("b"), "Undefined variable'b'."), Initial);
    assert Exec(ExpressionStmt(e), Initial, false, show) == Thrown(RuntimeError(Name("b"), "Undefined variable'b'."), Initial);
  }

  /** A declaration with a literal initializer binds the literal in the innermost frame. */
  lemma ExecVarLiteral(name: Token, v: Value, st: State, show: real -> string)
    ensures Exec(VarStmt(name, Some(Literal(v))), st, false, show) ==
      Normal((), st.(env := E.Define(st.env, name.lexeme, v)))
  {
  }

  /** Printing a variable writes the rendering of the value the chain binds it to. */
  lemma ExecPrintVariable(name: Token, v: Value, st: State, show: real -> string)
    requires E.Get(st.env, name) == Success(v)
    ensures Exec(PrintStmt(Variable(name)), st, false, show) ==
      Normal((), st.(out := st.out + [Stringify(v, show)]))
  {
    assert Evaluate(Variable(name), st, show) == Normal(v, st);
  }

  /** The inner block of the shadowing program, `{ var a = 2; print a; }`. */
  function ShadowingBlockBody(): (r: seq<Option<Stmt>>)
    ensures AllRunnable(r)
  {
    var a := Name("a");
    var block := [Some(VarStmt(a, Some(Literal(Num(2.0))))), Some(PrintStmt(Variable(a)))];
    assert Runnable(block[0].value) && Runnable(block[1].value);
    block
  }

  /** The program `var a = 1; { var a = 2; print a; } print a;`. */
  function ShadowingSource(): (r: seq<Option<Stmt>>)
    ensures AllRunnable(r)
  {
    var a := Name("a");
    var prog := [Some(VarStmt(a, Some(Literal(Num(1.0))))), Some(BlockStmt(ShadowingBlockBody())), Some(PrintStmt(Variable(a)))];
    assert Runnable(prog[0].value) && Runnable(prog[1].value) && Runnable(prog[2].value);
    prog
  }

  /** The inner block prints 2 and leaves the outer frame as it was. */
  lemma ShadowingBlock(show: real -> string)
    requires show(2.0) == "2.0"
    ensures Exec(BlockStmt(ShadowingBlockBody()), State([map["a" := Num(1.0)]], []), false, show) ==
      Normal((), State([map["a" := Num(1.0)]], ["2"]))
  {
    var outer: E.Env := [map["a" := Num(1.0)]];
    var inner: E.Env := outer + [map["a" := Num(2.0)]];
    ShadowingBody(show);
    assert E.Pop(inner) == outer;
  }

  /** The block's body, run in a fresh frame, binds a there and prints 2. */
  lemma ShadowingBody(show: real -> string)
    requires show(2.0) == "2.0"
    ensures ExecList(ShadowingBlockBody(), 0, State(E.Push([map["a" := Num(1.0)]]), []), false, show) ==
      Normal((), State([map["a" := Num(1.0)], map["a" := Num(2.0)]], ["2"]))
  {
    var a := Name("a");
    var block := ShadowingBlockBody();
    var outer: E.Env := [map["a" := Num(1.0)]];
    var inner: E.Env := outer + [map["a" := Num(2.0)]];
    var two := ObjectText(Num(2.0), show);
    assert two[|two| - 2..] == ".0";
    assert Stringify(Num(2.0), show) == "2";
    assert E.Get(inner, a) == Success(Num(2.0)) by {
      assert E.Innermost(inner, "a", 1);
    }
    ExecVarLiteral(a, Num(2.0), State(E.Push(outer), []), show);
    assert E.Define(E.Push(outer), "a", Num(2.0)) == inner;
    ExecPrintVariable(a, Num(2.0), State(inner, []), show);
    assert ExecList(block, 2, State(inner, ["2"]), false, show) == Normal((), State(inner, ["2"]));
    assert ExecList(block, 1, State(inner, []), false, show) == Normal((), State(inner, ["2"]));
  }

  /** The shadowing program prints 2 then 1: the inner declaration does not leak. */
  lemma ShadowingProgram(show: real -> string)
    requires show(1.0) == "1.0" && show(2.0) == "2.0"
    ensures AllRunnable(ShadowingSource())
    ensures Interpret(ShadowingSource(), Initial, false, show).st.out == ["2", "1"]
  {
    var a := Name("a");
    var prog := ShadowingSource();
    var outer: E.Env := [map["a" := Num(1.0)]];
    ExecVarLiteral(a, Num(1.0), Initial, show);
    assert E.Define(Initial.env, "a", Num(1.0)) == outer;
    ShadowingTail(show);
    assert ExecList(prog, 0, Initial, false, show) == Normal((), State(outer, ["2", "1"]));
  }

  /** After the outer declaration, the block prints 2 and the last statement prints 1. */
  lemma ShadowingTail(show: real -> string)
    requires show(1.0) == "1.0" && show(2.0) == "2.0"
    ensures ExecList(ShadowingSource(), 1, State([map["a" := Num(1.0)]], []), false, show) ==
      Normal((), State([map["a" := Num(1.0)]], ["2", "1"]))
  {
    var a := Name("a");
    var prog := ShadowingSource();
    var outer: E.Env := [map["a" := Num(1.0)]];
    var one := ObjectText(Num(1.0), show);
    assert one[|one| - 2..] == ".0";
    assert Stringify(Num(1.0), show) == "1";
    assert E.Get(outer, a) == Success(Num(1.0)) by {
      assert E.Innermost(outer, "a", 0);
    }
    ShadowingBlock(show);
    ExecPrintVariable(a, Num(1.0), State(outer, ["2"]), show);
    assert ExecList(prog, 3, State(outer, ["2", "1"]), false, show) == Normal((), State(outer, ["2", "1"]));
    assert ExecList(prog, 2, State(outer, ["2"]), false, show) == Normal((), State(outer, ["2", "1"]));
  }
}

=== FILE: parser.dfy ===
/**
 * The recursive-descent parser over a token cursor. A thrown parse error is
 * the `Raised` outcome (the error has already been reported); a
 * `synchronize` that never returns is the `Hangs` outcome.
 */
module Parser {
  import opened Wrappers
  import opened Tokens
  import opened Ast

  /** A token list as the scanner delivers it: non-empty, ending in EOF. */
  predicate ValidTokens(toks: seq<Token>) {
    |toks| > 0 && toks[|toks| - 1].kind == Eof
  }

  /** The index of the first EOF token at or after `i`. */
  function FirstEofFrom(toks: seq<Token>, i: nat): (r: nat)
    requires ValidTokens(toks) && i < |toks|
    ensures i <= r < |toks| && toks[r].kind == Eof
    ensures forall j :: i <= j < r ==> toks[j].kind != Eof
    decreases |toks| - i
  {
    if toks[i].kind == Eof then i else FirstEofFrom(toks, i + 1)
  }

  /** The index of the first EOF token: where the parser stops. */
  function FirstEof(toks: seq<Token>): (r: nat)
    requires ValidTokens(toks)
    ensures r < |toks| && toks[r].kind == Eof
    ensures forall j :: 0 <= j < r ==> toks[j].kind != Eof
  {
    FirstEofFrom(toks, 0)
  }

  /** The cursor `current` has not passed the first EOF. */
  predicate Cursor(toks: seq<Token>, pos: nat) {
    ValidTokens(toks) && pos <= FirstEof(toks)
  }

  /** `isAtEnd`: the token under the cursor is EOF. */
  predicate IsAtEnd(toks: seq<Token>, pos: nat)
    requires Cursor(toks, pos)
  {
    toks[pos].kind == Eof
  }

  /** `check`: the token under the cursor has the given kind, and it is not EOF. */
  predicate Check(toks: seq<Token>, pos: nat, kind: TokenType)
    requires Cursor(toks, pos)
  {
    !IsAtEnd(toks, pos) && toks[pos].kind == kind
  }

  /** `match` over several kinds: whether the token under the cursor is one of them (it is then consumed). */
  predicate MatchAny(toks: seq<Token>, pos: nat, kinds: set<TokenType>)
    requires Cursor(toks, pos)
  {
    !IsAtEnd(toks, pos) && toks[pos].kind in kinds
  }

  /** `advance`: move past the token under the cursor, except at EOF. */
  function Advance(toks: seq<Token>, pos: nat): (r: nat)
    requires Cursor(toks, pos)
    ensures Cursor(toks, r)
    ensures IsAtEnd(toks, pos) ==> r == pos
    ensures !IsAtEnd(toks, pos) ==> r == pos + 1
  {
    if IsAtEnd(toks, pos) then pos else pos + 1
  }

  /** Taking a token that is not EOF keeps the cursor within the tokens. */
  lemma CursorStep(toks: seq<Token>, pos: nat)
    requires Cursor(toks, pos) && !IsAtEnd(toks, pos)
    ensures Cursor(toks, pos + 1)
  {
    assert pos != FirstEof(toks);
  }

  /** `Lox.error(token, message)`: the location is " at end" for EOF, otherwise the lexeme. */
  function ErrorAt(token: Token, message: string): Diag {
    Diag(token.line, if token.kind == Eof then " at end" else " at '" + token.lexeme + "'", message)
  }

  /** The cursor and the diagnostics reported so far. */
  datatype PState = PState(pos: nat, diags: seq<Diag>)

  /** A parse function's outcome: a value and the new state, a thrown ParseError, or a hang. */
  datatype Parsed<T> = Done(value: T, st: PState) | Raised(st: PState) | Hangs(diags: seq<Diag>)

  /**
   * What every parse function keeps: the cursor stays within the tokens up
   * to EOF and never moves back, diagnostics are only added, and a thrown
   * error has been reported. With `strict`, a success consumed a token.
   */
  ghost predicate Progress<T>(toks: seq<Token>, st: PState, r: Parsed<T>, strict: bool) {
    match r
    case Done(_, after) =>
      Cursor(toks, after.pos) && st.pos <= after.pos && (strict ==> st.pos < after.pos)
      && Extends(st.diags, after.diags)
    case Raised(after) =>
      Cursor(toks, after.pos) && st.pos <= after.pos
      && Extends(st.diags, after.diags) && |after.diags| > |st.diags|
    case Hangs(diags) => Extends(st.diags, diags)
  }

  /** `consume`: the expected token is taken, or the error is reported at the token under the cursor. */
  function Consume(toks: seq<Token>, st: PState, kind: TokenType, message: string): (r: Parsed<Token>)
    requires Cursor(toks, st.pos)
    ensures Progress(toks, st, r, true) && !r.Hangs?
    ensures r.Done? <==> Check(toks, st.pos, kind)
    ensures r.Done? ==> r.value == toks[st.pos] && r.st == PState(st.pos + 1, st.diags)
    ensures r.Done? ==> r.st.pos > 0 && toks[r.st.pos - 1].kind == kind
    ensures r.Raised? ==> r.st == PState(st.pos, st.diags + [ErrorAt(toks[st.pos], message)])
  {
    if Check(toks, st.pos, kind) then Done(toks[st.pos], PState(st.pos + 1, st.diags))
    else Raised(PState(st.pos, st.diags + [ErrorAt(toks[st.pos], message)]))
  }

  /** The operator kinds of the four binary levels: equality, comparison, term, factor. */
  function Operators(level: nat): set<TokenType>
    requires 1 <= level <= 4
  {
    if level == 1 then {EqualEqual, BangEqual}
    else if level == 2 then {Greater, Less, LessEqual, GreaterEqual}
    else if level == 3 then {Plus, Minus}
    else {Star, Slash}
  }

  /** The operator kinds of binary level `level` and of every tighter binary level. */
  function TighterOperators(level: nat): set<TokenType>
    requires 1 <= level
    decreases 5 - level
  {
    if level > 4 then {} else Operators(level) + TighterOperators(level + 1)
  }

  /** No binary operator of level `level` or of a tighter level is under the cursor: where those levels stop. */
  predicate StopsAt(toks: seq<Token>, pos: nat, level: nat)
    requires Cursor(toks, pos) && 1 <= level
  {
    !MatchAny(toks, pos, TighterOperators(level))
  }

  /**
   * The trees the grammar derives at each precedence level: 0 assignment,
   * 1 equality, 2 comparison, 3 term, 4 factor, 5 unary, 6 primary. A
   * binary node's left operand is at its own level and its right operand one
   * level tighter, which is left associativity; a lower level reaches a
   * higher one only through its operands, which is precedence.
   */
  predicate Shaped(e: Expr, level: nat)
    requires level <= 6
    decreases e, 6 - level
  {
    if level == 0 then
      (e.Assign? && e.name.kind == Identifier && Shaped(e.rhs, 0)) || Shaped(e, 1)
    else if level <= 4 then
      (e.Binary? && e.operator.kind in Operators(level) && Shaped(e.left, level) && Shaped(e.right, level + 1))
      || Shaped(e, level + 1)
    else if level == 5 then
      (e.Unary? && e.operator.kind in UnaryOperators && Shaped(e.right, 5)) || Shaped(e, 6)
    else
      e.Literal? || (e.Variable? && e.name.kind == Identifier) || (e.Grouping? && Shaped(e.expression, 0))
  }

  /** A variable the grammar derives is named by an identifier token. */
  lemma {:induction false} ShapedVariable(e: Expr, level: nat)
    requires level <= 6 && Shaped(e, level) && e.Variable?
    ensures e.name.kind == Identifier
    decreases 6 - level
  {
    if level < 6 {
      ShapedVariable(e, level + 1);
    }
  }

  /** A tree the grammar derives uses only operators the interpreter handles. */
  lemma {:induction false} ShapedIsWellFormed(e: Expr, level: nat)
    requires level <= 6 && Shaped(e, level)
    ensures WellFormed(e)
    decreases e, 6 - level
  {
    if level == 0 {
      if e.Assign? && e.name.kind == Identifier && Shaped(e.rhs, 0) {
        ShapedIsWellFormed(e.rhs, 0);
      } else {
        ShapedIsWellFormed(e, 1);
      }
    } else if level <= 4 {
      if e.Binary? && e.operator.kind in Operators(level) && Shaped(e.left, level) && Shaped(e.right, level + 1) {
        ShapedIsWellFormed(e.left, level);
        ShapedIsWellFormed(e.right, level + 1);
      } else {
        ShapedIsWellFormed(e, level + 1);
      }
    } else if level == 5 {
      if e.Unary? && e.operator.kind in UnaryOperators && Shaped(e.right, 5) {
        ShapedIsWellFormed(e.right, 5);
      } else {
        ShapedIsWellFormed(e, 6);
      }
    } else if e.Grouping? {
      ShapedIsWellFormed(e.expression, 0);
    }
  }

  /**
   * A token as it shows in a syntax tree: parentheses and `=` keep only
   * their role, a literal token keeps the value the parser stores for it,
   * and every other token (names and operators) is kept whole.
   */
  datatype Sym = Open | Close | Assigns | Lit(v: Value) | Word(t: Token)

  function SymOf(t: Token): Sym {
    match t.kind
    case LeftParen => Open
    case RightParen => Close
    case Equal => Assigns
    case Number => Lit(t.literal)
    case String => Lit(t.literal)
    case True => Lit(Kind(True))
    case False => Lit(Kind(False))
    case Nil => Lit(Kind(Nil))
    case _ => Word(t)
  }

  /** The symbols of a run of tokens, one per token. */
  function Symbols(ts: seq<Token>): (r: seq<Sym>)
    ensures |r| == |ts|
  {
    if |ts| == 0 then [] else [SymOf(ts[0])] + Symbols(ts[1..])
  }

  /**
   * The frontier of a tree: the symbols of the tokens it was built from, in
   * source order, with a grouping contributing its two parentheses.
   */
  function Yield(e: Expr): (r: seq<Sym>)
    ensures |r| > 0
  {
    match e
    case Literal(v) => [Lit(v)]
    case Variable(name) => [Word(name)]
    case Grouping(inner) => [Open] + Yield(inner) + [Close]
    case Unary(op, right) => [Word(op)] + Yield(right)
    case Binary(left, op, right) => Yield(left) + [Word(op)] + Yield(right)
    case Assign(name, rhs) => [Word(name), Assigns] + Yield(rhs)
  }

  lemma {:induction false} SymbolsAppend(x: seq<Token>, y: seq<Token>)
    ensures Symbols(x + y) == Symbols(x) + Symbols(y)
  {
    if |x| > 0 {
      assert (x + y)[1..] == x[1..] + y;
      SymbolsAppend(x[1..], y);
    } else {
      assert x + y == y;
    }
  }

  lemma SymbolsSplit(toks: seq<Token>, a: nat, b: nat, c: nat)
    requires a <= b <= c <= |toks|
    ensures Symbols(toks[a..c]) == Symbols(toks[a..b]) + Symbols(toks[b..c])
  {
    assert toks[a..c] == toks[a..b] + toks[b..c];
    SymbolsAppend(toks[a..b], toks[b..c]);
  }

  /** The symbols of `toks[a..b]` are those of its first token and of the rest. */
  lemma SymbolsFirst(toks: seq<Token>, a: nat, b: nat)
    requires a < b <= |toks|
    ensures Symbols(toks[a..b]) == [SymOf(toks[a])] + Symbols(toks[a + 1..b])
  {
    assert toks[a..b][1..] == toks[a + 1..b];
  }

  /** Every diagnostic added from `before` to `after` reports an invalid assignment target. */
  predicate OnlyInvalidTargets(before: seq<Diag>, after: seq<Diag>) {
    |before| <= |after| && forall k :: |before| <= k < |after| ==> after[k].message == "Invalid assignment target"
  }

  lemma OnlyInvalidTargetsTrans(a: seq<Diag>, b: seq<Diag>, c: seq<Diag>)
    requires OnlyInvalidTargets(a, b) && OnlyInvalidTargets(b, c) && Extends(b, c)
    ensures OnlyInvalidTargets(a, c)
  {
    forall k | |a| <= k < |c|
      ensures c[k].message == "Invalid assignment target"
    {
      if k < |b| {
        assert c[k] == c[..|b|][k] == b[k];
      }
    }
  }

  /** `expression`. */
  function Expression(toks: seq<Token>, st: PState): (r: Parsed<Expr>)
    requires Cursor(toks, st.pos)
    ensures Progress(toks, st, r, true) && !r.Hangs?
    ensures r.Done? ==> Shaped(r.value, 0) && OnlyInvalidTargets(st.diags, r.st.diags)
    ensures r.Done? && |r.st.diags| == |st.diags| ==> Yield(r.value) == Symbols(toks[st.pos..(r.st.pos)])
    decreases |toks| - st.pos, 20
  {
    Assignment(toks, st)
  }

  /**
   * `assignment`: an equality expression, then, after `=`, the right side
   * (parsed recursively, so assignment groups to the right). The result is
   * an Assign when the left side is a variable; otherwise "Invalid
   * assignment target" is reported at the `=` without throwing and the
   * left side is the result. That report is the only way a successful
   * expression adds a diagnostic, and without one the tree's symbols are
   * exactly the tokens consumed.
   */
  function Assignment(toks: seq<Token>, st: PState): (r: Parsed<Expr>)
    requires Cursor(toks, st.pos)
    ensures Progress(toks, st, r, true) && !r.Hangs?
    ensures r.Done? ==> Shaped(r.value, 0) && OnlyInvalidTargets(st.diags, r.st.diags)
    ensures r.Done? && |r.st.diags| == |st.diags| ==> Yield(r.value) == Symbols(toks[st.pos..(r.st.pos)])
    decreases |toks| - st.pos, 19
  {
    var x := Binaries(toks, st, 1);
    if !x.Done? then Raised(x.st)
    else
      var r := AssignmentTail(toks, x.st, x.value);
      if r.Done? then
        ThenYield(toks, st, x, r, true);
        r
      else r
  }

  /**
   * The rest of `assignment` after the equality expression `left`: nothing
   * unless an `=` follows; then the right side, and an Assign node if `left`
   * is a variable, or else the report "Invalid assignment target" at the
   * `=` and `left` itself.
   */
  function AssignmentTail(toks: seq<Token>, st: PState, left: Expr): (r: Parsed<Expr>)
    requires Cursor(toks, st.pos) && Shaped(left, 1)
    ensures Progress(toks, st, r, false) && !r.Hangs?
    ensures r.Done? ==> Shaped(r.value, 0) && OnlyInvalidTargets(st.diags, r.st.diags)
    ensures r.Done? && |r.st.diags| == |st.diags| ==> Yield(r.value) == Yield(left) + Symbols(toks[st.pos..(r.st.pos)])
    ensures !Check(toks, st.pos, Equal) ==> r == Done(left, st)
    ensures r.Done? && Check(toks, st.pos, Equal) && !left.Variable? ==>
      r.value == left && |r.st.diags| > 0 && r.st.diags[|r.st.diags| - 1] == ErrorAt(toks[st.pos], "Invalid assignment target")
    decreases |toks| - st.pos, 18
  {
    if Check(toks, st.pos, Equal) then AssignedValue(toks, st, left)
    else
      assert toks[st.pos..st.pos] == [];
      Done(left, st)
  }

  /** At `=`: parse the right side, then build the Assign or report the target. */
  function AssignedValue(toks: seq<Token>, st: PState, left: Expr): (r: Parsed<Expr>)
    requires Cursor(toks, st.pos) && Shaped(left, 1) && Check(toks, st.pos, Equal)
    ensures Progress(toks, st, r, true) && !r.Hangs?
    ensures r.Done? ==> Shaped(r.value, 0) && OnlyInvalidTargets(st.diags, r.st.diags)
    ensures r.Done? && |r.st.diags| == |st.diags| ==> Yield(r.value) == Yield(left) + Symbols(toks[st.pos..(r.st.pos)])
    ensures r.Done? && left.Variable? ==> r.value.Assign? && r.value.name == left.name
    ensures r.Done? && !left.Variable? ==>
      r.value == left && |r.st.diags| > 0 && r.st.diags[|r.st.diags| - 1] == ErrorAt(toks[st.pos], "Invalid assignment target")
    decreases |toks| - st.pos, 17
  {
    CursorStep(toks, st.pos);
    var x := Assignment(toks, PState(st.pos + 1, st.diags));
    if !x.Done? then Raised(x.st) else AssignTarget(toks, st, left, x)
  }

  /** After the right side `x` of an `=`: the Assign node, or the left side and the report. */
  function AssignTarget(toks: seq<Token>, st: PState, left: Expr, x: Parsed<Expr>): (r: Parsed<Expr>)
    requires Cursor(toks, st.pos) && Shaped(left, 1) && Check(toks, st.pos, Equal)
    requires Progress(toks, PState(st.pos + 1, st.diags), x, true) && x.Done?
    requires Shaped(x.value, 0) && OnlyInvalidTargets(st.diags, x.st.diags)
    requires |x.st.diags| == |st.diags| ==> Yield(x.value) == Symbols(toks[st.pos + 1..(x.st.pos)])
    ensures Progress(toks, st, r, true) && r.Done? && r.st.pos == x.st.pos
    ensures Shaped(r.value, 0) && OnlyInvalidTargets(st.diags, r.st.diags)
    ensures |r.st.diags| == |st.diags| ==> Yield(r.value) == Yield(left) + Symbols(toks[st.pos..(r.st.pos)])
    ensures left.Variable? ==> r == Done(Assign(left.name, x.value), x.st)
    ensures !left.Variable? ==>
      r.value == left && |r.st.diags| > 0 && r.st.diags[|r.st.diags| - 1] == ErrorAt(toks[st.pos], "Invalid assignment target")
  {
    if left.Variable? then AssignNode(toks, st, left, x) else InvalidTarget(toks, st, left, x)
  }

  /** A variable on the left of `=`: the Assign node of that name and the right side. */
  function AssignNode(toks: seq<Token>, st: PState, left: Expr, x: Parsed<Expr>): (r: Parsed<Expr>)
    requires Cursor(toks, st.pos) && Shaped(left, 1) && left.Variable? && Check(toks, st.pos, Equal)
    requires Progress(toks, PState(st.pos + 1, st.diags), x, true) && x.Done?
    requires Shaped(x.value, 0) && OnlyInvalidTargets(st.diags, x.st.diags)
    requires |x.st.diags| == |st.diags| ==> Yield(x.value) == Symbols(toks[st.pos + 1..(x.st.pos)])
    ensures Progress(toks, st, r, true) && r == Done(Assign(left.name, x.value), x.st)
    ensures Shaped(r.value, 0) && OnlyInvalidTargets(st.diags, r.st.diags)
    ensures |r.st.diags| == |st.diags| ==> Yield(r.value) == Yield(left) + Symbols(toks[st.pos..(r.st.pos)])
  {
    var e := Assign(left.name, x.value);
    ShapedVariable(left, 1);
    assert Shaped(e, 0);
    assert Yield(e) == Yield(left) + [SymOf(toks[st.pos])] + Yield(x.value);
    FirstThenYield(toks, st, Yield(left), e, x);
    Done(e, x.st)
  }

  /** Anything else on the left of `=`: the left side itself, with the error reported at the `=`. */
  function InvalidTarget(toks: seq<Token>, st: PState, left: Expr, x: Parsed<Expr>): (r: Parsed<Expr>)
    requires Cursor(toks, st.pos) && Shaped(left, 1) && !left.Variable? && Check(toks, st.pos, Equal)
    requires Progress(toks, PState(st.pos + 1, st.diags), x, true) && x.Done?
    requires OnlyInvalidTargets(st.diags, x.st.diags)
    ensures Progress(toks, st, r, true) && r.Done? && r.st.pos == x.st.pos
    ensures Shaped(r.value, 0) && OnlyInvalidTargets(st.diags, r.st.diags)
    ensures |r.st.diags| > |st.diags|
    ensures r.value == left && r.st.diags == x.st.diags + [ErrorAt(toks[st.pos], "Invalid assignment target")]
  {
    Done(left, PState(x.st.pos, x.st.diags + [ErrorAt(toks[st.pos], "Invalid assignment target")]))
  }

  /** The operand parser one level tighter than binary level `level`. */
  function Operand(toks: seq<Token>, st: PState, level: nat): (r: Parsed<Expr>)
    requires 1 <= level <= 4 && Cursor(toks, st.pos)
    ensures Progress(toks, st, r, true) && !r.Hangs?
    ensures r.Done? ==> Shaped(r.value, level + 1) && OnlyInvalidTargets(st.diags, r.st.diags)
    ensures r.Done? && |r.st.diags| == |st.diags| ==> Yield(r.value) == Symbols(toks[st.pos..(r.st.pos)])
    decreases |toks| - st.pos, 16 - 2 * level
  {
    if level == 4 then UnaryExpr(toks, st) else Binaries(toks, st, level + 1)
  }

  /**
   * `equality`, `comparison`, `term` and `factor`: an operand, then any
   * number of operator-operand pairs. The tree is of the level's shape and,
   * without a new report, its symbols are the tokens consumed.
   */
  function Binaries(toks: seq<Token>, st: PState, level: nat): (r: Parsed<Expr>)
    requires 1 <= level <= 4 && Cursor(toks, st.pos)
    ensures Progress(toks, st, r, true) && !r.Hangs?
    ensures r.Done? ==> Shaped(r.value, level) && OnlyInvalidTargets(st.diags, r.st.diags)
    ensures r.Done? && |r.st.diags| == |st.diags| ==> Yield(r.value) == Symbols(toks[st.pos..(r.st.pos)])
    decreases |toks| - st.pos, 17 - 2 * level
  {
    var x := Operand(toks, st, level);
    if !x.Done? then Raised(x.st)
    else
      var r := BinariesLoop(toks, x.st, level, x.value);
      if r.Done? then
        ThenYield(toks, st, x, r, true);
        r
      else r
  }

  /**
   * The loop of a binary level: each operator folds the tree built so far
   * into a new left operand, so the result's symbols are those of the
   * starting tree followed by every token the loop consumed.
   */
  function BinariesLoop(toks: seq<Token>, st: PState, level: nat, left: Expr): (r: Parsed<Expr>)
    requires 1 <= level <= 4 && Cursor(toks, st.pos) && Shaped(left, level)
    ensures Progress(toks, st, r, false) && !r.Hangs?
    ensures r.Done? ==> Shaped(r.value, level) && OnlyInvalidTargets(st.diags, r.st.diags)
    ensures r.Done? && |r.st.diags| == |st.diags| ==> Yield(r.value) == Yield(left) + Symbols(toks[st.pos..(r.st.pos)])
    ensures r.Done? ==> !MatchAny(toks, r.st.pos, Operators(level))
    decreases |toks| - st.pos, 16 - 2 * level
  {
    if MatchAny(toks, st.pos, Operators(level)) then
      CursorStep(toks, st.pos);
      var x := Operand(toks, PState(st.pos + 1, st.diags), level);
      if !x.Done? then Raised(x.st)
      else
        var r := BinariesLoop(toks, x.st, level, Binary(left, toks[st.pos], x.value));
        if r.Done? then
          OnlyInvalidTargetsTrans(st.diags, x.st.diags, r.st.diags);
          FoldYield(toks, st, left, x, r);
          r
        else r
    else
      assert toks[st.pos..st.pos] == [];
      Done(left, st)
  }

  /** Folding `operator right` into `left` and continuing keeps the loop's account of the consumed tokens. */
  lemma FoldYield(toks: seq<Token>, st: PState, left: Expr, x: Parsed<Expr>, r: Parsed<Expr>)
    requires Cursor(toks, st.pos) && !IsAtEnd(toks, st.pos) && toks[st.pos].kind in BinaryOperators
    requires Progress(toks, PState(st.pos + 1, st.diags), x, true) && x.Done?
    requires |x.st.diags| == |st.diags| ==> Yield(x.value) == Symbols(toks[st.pos + 1..(x.st.pos)])
    requires Progress(toks, x.st, r, false) && r.Done?
    requires |r.st.diags| == |x.st.diags| ==> Yield(r.value) == Yield(Binary(left, toks[st.pos], x.value)) + Symbols(toks[x.st.pos..(r.st.pos)])
    ensures |r.st.diags| == |st.diags| ==> Yield(r.value) == Yield(left) + Symbols(toks[st.pos..(r.st.pos)])
  {
    if |r.st.diags| == |st.diags| {
      var a, b, c := st.pos, x.st.pos, r.st.pos;
      SymbolsFirst(toks, a, c);
      SymbolsSplit(toks, a + 1, b, c);
      OperatorSym(toks[a]);
      Regroup(Yield(left), [Word(toks[a])], Symbols(toks[a + 1..b]), Symbols(toks[b..c]));
    }
  }

  /** An operator token is a symbol of its own. */
  lemma OperatorSym(t: Token)
    requires t.kind in BinaryOperators
    ensures SymOf(t) == Word(t)
  {
  }

  lemma Regroup(l: seq<Sym>, w: seq<Sym>, m: seq<Sym>, n: seq<Sym>)
    ensures l + w + m + n == l + (w + (m + n))
  {
  }

  /**
   * A tree parsed from `st` (the outcome `x`), followed by a parse `r`
   * that extends it over the tokens up to the end of `r`: the final tree
   * covers all the tokens consumed.
   */
  lemma ThenYield(toks: seq<Token>, st: PState, x: Parsed<Expr>, r: Parsed<Expr>, strict: bool)
    requires Progress(toks, st, x, strict) && x.Done? && OnlyInvalidTargets(st.diags, x.st.diags)
    requires |x.st.diags| == |st.diags| ==> Yield(x.value) == Symbols(toks[st.pos..(x.st.pos)])
    requires Progress(toks, x.st, r, false) && r.Done? && OnlyInvalidTargets(x.st.diags, r.st.diags)
    requires |r.st.diags| == |x.st.diags| ==> Yield(r.value) == Yield(x.value) + Symbols(toks[x.st.pos..(r.st.pos)])
    ensures Progress(toks, st, r, strict) && OnlyInvalidTargets(st.diags, r.st.diags)
    ensures |r.st.diags| == |st.diags| ==> Yield(r.value) == Symbols(toks[st.pos..(r.st.pos)])
  {
    OnlyInvalidTargetsTrans(st.diags, x.st.diags, r.st.diags);
    ExtendsTrans(st.diags, x.st.diags, r.st.diags);
    if |r.st.diags| == |st.diags| {
      SymbolsSplit(toks, st.pos, x.st.pos, r.st.pos);
    }
  }

  /**
   * A tree `e` whose symbols are `prefix`, then the symbol of the token at
   * `st`, then those of the tree `r` parsed after it: `e` accounts for
   * `prefix` and every token consumed.
   */
  lemma FirstThenYield(toks: seq<Token>, st: PState, prefix: seq<Sym>, e: Expr, r: Parsed<Expr>)
    requires Cursor(toks, st.pos) && !IsAtEnd(toks, st.pos)
    requires Progress(toks, PState(st.pos + 1, st.diags), r, true) && r.Done?
    requires |r.st.diags| == |st.diags| ==> Yield(r.value) == Symbols(toks[st.pos + 1..(r.st.pos)])
    requires Yield(e) == prefix + [SymOf(toks[st.pos])] + Yield(r.value)
    ensures |r.st.diags| == |st.diags| ==> Yield(e) == prefix + Symbols(toks[st.pos..(r.st.pos)])
  {
    if |r.st.diags| == |st.diags| {
      SymbolsFirst(toks, st.pos, r.st.pos);
      assert Yield(e) == prefix + ([SymOf(toks[st.pos])] + Yield(r.value));
    }
  }

  /** `unary`: `!` or `-` applied to a unary expression (grouping to the right), or a primary. */
  function UnaryExpr(toks: seq<Token>, st: PState): (r: Parsed<Expr>)
    requires Cursor(toks, st.pos)
    ensures Progress(toks, st, r, true) && !r.Hangs?
    ensures r.Done? ==> Shaped(r.value, 5) && OnlyInvalidTargets(st.diags, r.st.diags)
    ensures r.Done? && |r.st.diags| == |st.diags| ==> Yield(r.value) == Symbols(toks[st.pos..(r.st.pos)])
    ensures r.Done? && r.value.Unary? <==> r.Done? && MatchAny(toks, st.pos, UnaryOperators)
    decreases |toks| - st.pos, 5
  {
    if MatchAny(toks, st.pos, UnaryOperators) then
      CursorStep(toks, st.pos);
      Prefixed(toks, st, UnaryExpr(toks, PState(st.pos + 1, st.diags)))
    else Primary(toks, st)
  }

  /** The operator under the cursor applied to the operand `x` parsed after it. */
  function Prefixed(toks: seq<Token>, st: PState, x: Parsed<Expr>): (r: Parsed<Expr>)
    requires Cursor(toks, st.pos) && MatchAny(toks, st.pos, UnaryOperators)
    requires Progress(toks, PState(st.pos + 1, st.diags), x, true) && !x.Hangs?
    requires x.Done? ==> Shaped(x.value, 5) && OnlyInvalidTargets(st.diags, x.st.diags)
    requires x.Done? && |x.st.diags| == |st.diags| ==> Yield(x.value) == Symbols(toks[st.pos + 1..(x.st.pos)])
    ensures Progress(toks, st, r, true) && !r.Hangs?
    ensures r.Done? ==> Shaped(r.value, 5) && OnlyInvalidTargets(st.diags, r.st.diags)
    ensures r.Done? && |r.st.diags| == |st.diags| ==> Yield(r.value) == Symbols(toks[st.pos..(r.st.pos)])
    ensures r.Done? <==> x.Done?
    ensures r.Done? ==> r.value == Unary(toks[st.pos], x.value)
  {
    if !x.Done? then Raised(x.st)
    else
      var e := Unary(toks[st.pos], x.value);
      assert Yield(e) == [] + [SymOf(toks[st.pos])] + Yield(x.value);
      FirstThenYield(toks, st, [], e, x);
      Done(e, x.st)
  }

  /** The kinds of the one-token primaries. */
  const AtomKinds: set<TokenType> := {Number, String, True, False, Nil, Identifier}

  /**
   * The tree of a one-token primary: a NUMBER or STRING literal carries the
   * token's literal, the keywords true, false and nil carry their token
   * kinds, and an identifier is a variable.
   */
  function AtomTree(t: Token): (e: Expr)
    requires t.kind in AtomKinds
    ensures Shaped(e, 6) && Yield(e) == [SymOf(t)]
    ensures t.kind == Number || t.kind == String ==> e == Literal(t.literal)
    ensures t.kind == True || t.kind == False || t.kind == Nil ==> e == Literal(Kind(t.kind))
    ensures t.kind == Identifier ==> e == Variable(t)
  {
    if t.kind in {Number, String} then Literal(t.literal)
    else if t.kind == True then Literal(Kind(True))
    else if t.kind == False then Literal(Kind(False))
    else if t.kind == Nil then Literal(Kind(Nil))
    else Variable(t)
  }

  /**
   * `primary` for the one-token forms (a `(` is handled by `Primary`);
   * any other token is "Expect expression.".
   */
  function Atom(toks: seq<Token>, st: PState): (r: Parsed<Expr>)
    requires Cursor(toks, st.pos)
    ensures Progress(toks, st, r, true) && !r.Hangs?
    ensures r.Done? <==> MatchAny(toks, st.pos, AtomKinds)
    ensures r.Done? ==> r == Done(AtomTree(toks[st.pos]), PState(st.pos + 1, st.diags))
    ensures r.Done? ==> Yield(r.value) == Symbols(toks[st.pos..(r.st.pos)])
    ensures r.Raised? ==> r.st == PState(st.pos, st.diags + [ErrorAt(toks[st.pos], "Expect expression.")])
  {
    if !MatchAny(toks, st.pos, AtomKinds) then
      Raised(PState(st.pos, st.diags + [ErrorAt(toks[st.pos], "Expect expression.")]))
    else
      CursorStep(toks, st.pos);
      assert toks[st.pos..st.pos + 1] == [toks[st.pos]];
      Done(AtomTree(toks[st.pos]), PState(st.pos + 1, st.diags))
  }

  /** `primary`: a one-token form, or a parenthesised expression, which is a grouping. */
  function Primary(toks: seq<Token>, st: PState): (r: Parsed<Expr>)
    requires Cursor(toks, st.pos)
    ensures Progress(toks, st, r, true) && !r.Hangs?
    ensures r.Done? ==> Shaped(r.value, 6) && OnlyInvalidTargets(st.diags, r.st.diags)
    ensures r.Done? && |r.st.diags| == |st.diags| ==> Yield(r.value) == Symbols(toks[st.pos..(r.st.pos)])
    ensures !Check(toks, st.pos, LeftParen) ==> r == Atom(toks, st)
    ensures Check(toks, st.pos, LeftParen) ==> r == Parenthesized(toks, st)
    decreases |toks| - st.pos, 4
  {
    if Check(toks, st.pos, LeftParen) then Parenthesized(toks, st) else Atom(toks, st)
  }

  /**
   * The parenthesised form of `primary`, from the `(`: an expression, then
   * a required `)`, making a grouping.
   */
  function Parenthesized(toks: seq<Token>, st: PState): (r: Parsed<Expr>)
    requires Cursor(toks, st.pos) && Check(toks, st.pos, LeftParen)
    ensures Progress(toks, st, r, true) && !r.Hangs?
    ensures r.Done? ==> r.value.Grouping? && Shaped(r.value, 6) && OnlyInvalidTargets(st.diags, r.st.diags)
    ensures r.Done? ==> toks[r.st.pos - 1].kind == RightParen
    ensures r.Done? && |r.st.diags| == |st.diags| ==> Yield(r.value) == Symbols(toks[st.pos..(r.st.pos)])
    decreases |toks| - st.pos, 3
  {
    CursorStep(toks, st.pos);
    var x := Expression(toks, PState(st.pos + 1, st.diags));
    if !x.Done? then Raised(x.st)
    else
      var r := CloseGrouping(toks, st, x);
      assert r.Done? ==> r.st.pos - 1 == x.st.pos && r.value.Grouping?;
      r
  }

  /** The report for a parenthesised form whose `)` is missing. */
  const MissingCloseParen := "Expect ')' after expression."

  /** The end of a parenthesised form: the `)` after the inner expression `x` is required. */
  function CloseGrouping(toks: seq<Token>, st: PState, x: Parsed<Expr>): (r: Parsed<Expr>)
    requires Cursor(toks, st.pos) && Check(toks, st.pos, LeftParen)
    requires Progress(toks, PState(st.pos + 1, st.diags), x, true) && x.Done?
    requires Shaped(x.value, 0) && OnlyInvalidTargets(st.diags, x.st.diags)
    requires |x.st.diags| == |st.diags| ==> Yield(x.value) == Symbols(toks[st.pos + 1..(x.st.pos)])
    ensures Progress(toks, st, r, true) && !r.Hangs?
    ensures r.Done? <==> Check(toks, x.st.pos, RightParen)
    ensures r.Done? ==> r == Done(Grouping(x.value), PState(x.st.pos + 1, x.st.diags))
    ensures r.Done? ==> Shaped(r.value, 6) && OnlyInvalidTargets(st.diags, r.st.diags)
    ensures r.Done? && |r.st.diags| == |st.diags| ==> Yield(r.value) == Symbols(toks[st.pos..(r.st.pos)])
    ensures r.Raised? ==> r.st == PState(x.st.pos, x.st.diags + [ErrorAt(toks[x.st.pos], MissingCloseParen)])
  {
    var close := Consume(toks, x.st, RightParen, MissingCloseParen);
    if !close.Done? then Raised(close.st)
    else
      GroupingYield(toks, st, x, close.st);
      Done(Grouping(x.value), close.st)
  }

  /** `(`, an expression's tokens and `)` are the symbols of the grouping. */
  lemma GroupingYield(toks: seq<Token>, st: PState, x: Parsed<Expr>, s2: PState)
    requires Cursor(toks, st.pos) && Check(toks, st.pos, LeftParen)
    requires Progress(toks, PState(st.pos + 1, st.diags), x, true) && x.Done?
    requires |x.st.diags| == |st.diags| ==> Yield(x.value) == Symbols(toks[st.pos + 1..(x.st.pos)])
    requires Check(toks, x.st.pos, RightParen) && s2 == PState(x.st.pos + 1, x.st.diags)
    ensures |s2.diags| == |st.diags| ==> Yield(Grouping(x.value)) == Symbols(toks[st.pos..(s2.pos)])
  {
    if |s2.diags| == |st.diags| {
      SymbolsFirst(toks, st.pos, s2.pos);
      SymbolsSplit(toks, st.pos + 1, x.st.pos, s2.pos);
      assert toks[x.st.pos..s2.pos] == [toks[x.st.pos]];
    }
  }

  /** The keywords that start a statement: `synchronize` stops before them. */
  const SyncKinds: set<TokenType> := {Class, For, Fun, If, Print, Return, Var, While}

  /**
   * `synchronize`: advance once; then return if at EOF, if the token just
   * passed is `;`, or if the next token starts a statement. Its loop never
   * advances, so in every other case it does not return (`None`).
   */
  function Synchronize(toks: seq<Token>, pos: nat): (r: Option<nat>)
    requires Cursor(toks, pos)
    ensures r.Some? ==> Cursor(toks, r.value) && pos <= r.value
    ensures r.Some? ==>
      IsAtEnd(toks, r.value) || (r.value > 0 && toks[r.value - 1].kind == Semicolon) || toks[r.value].kind in SyncKinds
    ensures r.Some? && !IsAtEnd(toks, pos) ==> r.value == pos + 1
    ensures r.None? <==>
      !IsAtEnd(toks, pos) && !IsAtEnd(toks, pos + 1) && toks[pos].kind != Semicolon && toks[pos + 1].kind !in SyncKinds
  {
    var p := Advance(toks, pos);
    if IsAtEnd(toks, p) then Some(p)
    else if toks[p - 1].kind == Semicolon then Some(p)
    else if toks[p].kind in SyncKinds then Some(p)
    else None
  }

  /**
   * `declaration`: a `var` declaration or a statement. A thrown error is
   * caught here: after `synchronize` the entry is `None` (Java's null).
   */
  function Declaration(toks: seq<Token>, st: PState, isRepl: bool): (r: Parsed<Option<Stmt>>)
    requires Cursor(toks, st.pos) && !IsAtEnd(toks, st.pos)
    ensures Progress(toks, st, r, true) && !r.Raised?
    ensures r.Done? && r.value.None? ==> |r.st.diags| > |st.diags|
    ensures r.Done? && |r.st.diags| == |st.diags| ==> r.value.Some? && Runnable(r.value.value)
    decreases |toks| - st.pos, 3
  {
    var attempt :=
      if Check(toks, st.pos, Var) then VarDeclaration(toks, PState(st.pos + 1, st.diags))
      else Statement(toks, st, isRepl);
    if attempt.Hangs? then Hangs(attempt.diags)
    else if attempt.Done? then Done(Some(attempt.value), attempt.st)
    else
      var p := Synchronize(toks, attempt.st.pos);
      if p.Some? then Done(None, PState(p.value, attempt.st.diags)) else Hangs(attempt.st.diags)
  }

  /** The report for a declaration or statement whose `;` is missing. */
  const MissingSemicolon := "Expect ';' after value."

  /** `varDeclaration`, after `var`: a name, an optional initializer after `=`, and a required `;`. */
  function VarDeclaration(toks: seq<Token>, st: PState): (r: Parsed<Stmt>)
    requires Cursor(toks, st.pos)
    ensures Progress(toks, st, r, true) && !r.Hangs?
    ensures r.Done? ==> r.value.VarStmt? && r.value.name.kind == Identifier && Runnable(r.value)
    ensures r.Done? ==> toks[r.st.pos - 1].kind == Semicolon
    ensures r.Done? && r.value.initializer.None? ==> r.st.pos == st.pos + 2
    decreases |toks| - st.pos, 1
  {
    var name := Consume(toks, st, Identifier, "Expect variable name");
    if !name.Done? then Raised(name.st) else VarBody(toks, name.st, name.value)
  }

  /** The rest of `varDeclaration` after the name: the optional initializer and the required `;`. */
  function VarBody(toks: seq<Token>, st: PState, name: Token): (r: Parsed<Stmt>)
    requires Cursor(toks, st.pos) && name.kind == Identifier
    ensures Progress(toks, st, r, true) && !r.Hangs?
    ensures r.Done? ==> r.value.VarStmt? && r.value.name == name && Runnable(r.value)
    ensures r.Done? ==> toks[r.st.pos - 1].kind == Semicolon
    ensures r.Done? && r.value.initializer.None? ==> r.st.pos == st.pos + 1
  {
    var init := Initializer(toks, st);
    if !init.Done? then Raised(init.st)
    else
      var end := Consume(toks, init.st, Semicolon, MissingSemicolon);
      if !end.Done? then Raised(end.st) else Done(VarStmt(name, init.value), end.st)
  }

  /** The optional initializer of `varDeclaration`: after `=`, an expression. */
  function Initializer(toks: seq<Token>, st: PState): (r: Parsed<Option<Expr>>)
    requires Cursor(toks, st.pos)
    ensures Progress(toks, st, r, false) && !r.Hangs?
    ensures !Check(toks, st.pos, Equal) ==> r == Done(None, st)
    ensures r.Done? && Check(toks, st.pos, Equal) ==> r.value.Some? && Shaped(r.value.value, 0)
    ensures r.Done? && r.value.Some? ==> WellFormed(r.value.value)
    ensures r.Done? && r.value.None? ==> r.st == st
  {
    if Check(toks, st.pos, Equal) then
      CursorStep(toks, st.pos);
      var x := Expression(toks, PState(st.pos + 1, st.diags));
      if !x.Done? then Raised(x.st)
      else
        ShapedIsWellFormed(x.value, 0);
        Done(Some(x.value), x.st)
    else Done(None, st)
  }

  /** `statement`: a print statement, a block, or an expression statement, chosen by the first token. */
  function Statement(toks: seq<Token>, st: PState, isRepl: bool): (r: Parsed<Stmt>)
    requires Cursor(toks, st.pos)
    ensures Progress(toks, st, r, true)
    ensures r.Done? && |r.st.diags| == |st.diags| ==> Runnable(r.value)
    decreases |toks| - st.pos, 2
  {
    if Check(toks, st.pos, Print) then PrintStatement(toks, PState(st.pos + 1, st.diags))
    else if Check(toks, st.pos, LeftBrace) then
      var body := Block(toks, PState(st.pos + 1, st.diags), isRepl);
      if body.Done? then Done(BlockStmt(body.value), body.st)
      else if body.Raised? then Raised(body.st)
      else Hangs(body.diags)
    else ExpressionStatement(toks, st, isRepl)
  }

  /** `printStatement`, after `print`: an expression and a required `;`. */
  function PrintStatement(toks: seq<Token>, st: PState): (r: Parsed<Stmt>)
    requires Cursor(toks, st.pos)
    ensures Progress(toks, st, r, true) && !r.Hangs?
    ensures r.Done? ==> r.value.PrintStmt? && Runnable(r.value)
    ensures r.Done? ==> toks[r.st.pos - 1].kind == Semicolon
    decreases |toks| - st.pos, 1
  {
    var x := Expression(toks, st);
    if !x.Done? then Raised(x.st)
    else
      var end := Consume(toks, x.st, Semicolon, MissingSemicolon);
      if !end.Done? then Raised(end.st)
      else
        ShapedIsWellFormed(x.value, 0);
        Done(PrintStmt(x.value), end.st)
  }

  /**
   * `expressionStatement`: an expression, then `;`, which is required
   * outside the REPL and optional (taken if present) in it.
   */
  function ExpressionStatement(toks: seq<Token>, st: PState, isRepl: bool): (r: Parsed<Stmt>)
    requires Cursor(toks, st.pos)
    ensures Progress(toks, st, r, true) && !r.Hangs?
    ensures r.Done? ==> r.value.ExpressionStmt? && Runnable(r.value)
    ensures isRepl ==> (r.Done? <==> Expression(toks, st).Done?)
    ensures !isRepl ==> (r.Done? <==> Expression(toks, st).Done? && Check(toks, Expression(toks, st).st.pos, Semicolon))
    ensures r.Done? && !isRepl ==> toks[r.st.pos - 1].kind == Semicolon
    decreases |toks| - st.pos, 1
  {
    var x := Expression(toks, st);
    if !x.Done? then Raised(x.st)
    else
      ShapedIsWellFormed(x.value, 0);
      var end := StatementEnd(toks, x.st, isRepl);
      if end.Done? then Done(ExpressionStmt(x.value), end.st) else Raised(end.st)
  }

  /**
   * The end of an expression statement: outside the REPL a required `;`;
   * in the REPL a `;` is taken if present, and otherwise the statement
   * simply ends (the result says whether a `;` was taken).
   */
  function StatementEnd(toks: seq<Token>, st: PState, isRepl: bool): (r: Parsed<bool>)
    requires Cursor(toks, st.pos)
    ensures Progress(toks, st, r, false) && !r.Hangs?
    ensures r.Done? <==> isRepl || Check(toks, st.pos, Semicolon)
    ensures r.Done? ==> r.st.diags == st.diags && (r.value <==> Check(toks, st.pos, Semicolon))
    ensures r.Done? ==> r.st.pos == if r.value then st.pos + 1 else st.pos
    ensures r.Raised? ==> r.st == PState(st.pos, st.diags + [ErrorAt(toks[st.pos], MissingSemicolon)])
  {
    if Check(toks, st.pos, Semicolon) then
      CursorStep(toks, st.pos);
      Done(true, PState(st.pos + 1, st.diags))
    else if isRepl then Done(false, st)
    else Raised(PState(st.pos, st.diags + [ErrorAt(toks[st.pos], MissingSemicolon)]))
  }

  /** Where a run of declarations stops: at EOF, and inside a block also at `}`. */
  predicate DeclarationsEnd(toks: seq<Token>, pos: nat, inBlock: bool)
    requires Cursor(toks, pos)
  {
    IsAtEnd(toks, pos) || (inBlock && Check(toks, pos, RightBrace))
  }

  /**
   * Whether `entries` are, in order, what `declaration` returns when it is
   * called again and again from `st`, each time before the run's end; if
   * so, the state after the last of them.
   */
  function Declarations(toks: seq<Token>, st: PState, isRepl: bool, inBlock: bool, entries: seq<Option<Stmt>>): (r: Option<PState>)
    requires Cursor(toks, st.pos)
    ensures r.Some? ==> Cursor(toks, r.value.pos) && st.pos <= r.value.pos
    decreases |entries|
  {
    if entries == [] then Some(st)
    else if DeclarationsEnd(toks, st.pos, inBlock) then None
    else
      var d := Declaration(toks, st, isRepl);
      if d.Done? && d.value == entries[0] then Declarations(toks, d.st, isRepl, inBlock, entries[1..]) else None
  }

  /** One declaration parsed from `st`, then the rest from where it stopped, is a run from `st`. */
  lemma DeclarationsStep(toks: seq<Token>, st: PState, isRepl: bool, inBlock: bool, acc: seq<Option<Stmt>>, d: Parsed<Option<Stmt>>, all: seq<Option<Stmt>>)
    requires Cursor(toks, st.pos) && !DeclarationsEnd(toks, st.pos, inBlock)
    requires d == Declaration(toks, st, isRepl) && d.Done?
    requires |acc + [d.value]| <= |all| && all[..|acc + [d.value]|] == acc + [d.value]
    ensures Declarations(toks, st, isRepl, inBlock, all[|acc|..]) == Declarations(toks, d.st, isRepl, inBlock, all[|acc + [d.value]|..])
  {
    var k := |acc|;
    assert all[k] == all[..k + 1][k];
    assert all[k..][0] == d.value;
    assert all[k..][1..] == all[k + 1..];
  }

  /**
   * A run of declarations that ends where runs end is the only one: two
   * entry lists whose runs from the same state both reach the end are the
   * same list, reaching the same state.
   */
  lemma {:induction false} DeclarationsDetermined(toks: seq<Token>, st: PState, isRepl: bool, inBlock: bool, e1: seq<Option<Stmt>>, e2: seq<Option<Stmt>>)
    requires Cursor(toks, st.pos)
    requires var s1 := Declarations(toks, st, isRepl, inBlock, e1); s1.Some? && DeclarationsEnd(toks, s1.value.pos, inBlock)
    requires var s2 := Declarations(toks, st, isRepl, inBlock, e2); s2.Some? && DeclarationsEnd(toks, s2.value.pos, inBlock)
    ensures e1 == e2
    decreases |e1|
  {
    if e1 != [] && e2 != [] {
      var d := Declaration(toks, st, isRepl);
      DeclarationsDetermined(toks, d.st, isRepl, inBlock, e1[1..], e2[1..]);
      assert e1 == [e1[0]] + e1[1..] && e2 == [e2[0]] + e2[1..];
    }
  }

  /** The report for a block whose `}` is missing. */
  const MissingCloseBrace := "Expect '}' after block."

  /** `block`, after `{`: declarations up to `}`, which is required. */
  function Block(toks: seq<Token>, st: PState, isRepl: bool): (r: Parsed<seq<Option<Stmt>>>)
    requires Cursor(toks, st.pos)
    ensures Progress(toks, st, r, true)
    ensures r.Done? && |r.st.diags| == |st.diags| ==> AllRunnable(r.value)
    ensures r.Done? ==> toks[r.st.pos - 1].kind == RightBrace
    ensures r.Raised? ==>
      IsAtEnd(toks, r.st.pos) && r.st.diags[|r.st.diags| - 1] == ErrorAt(toks[r.st.pos], MissingCloseBrace)
    decreases |toks| - st.pos, 7
  {
    var body := BlockLoop(toks, st, isRepl, []);
    if body.Hangs? then Hangs(body.diags)
    else
      var close := Consume(toks, body.st, RightBrace, MissingCloseBrace);
      if !close.Done? then Raised(close.st) else Done(body.value, close.st)
  }

  /** The loop of `block`: declarations until `}` or EOF, collected after `acc`. */
  function BlockLoop(toks: seq<Token>, st: PState, isRepl: bool, acc: seq<Option<Stmt>>): (r: Parsed<seq<Option<Stmt>>>)
    requires Cursor(toks, st.pos)
    ensures Progress(toks, st, r, false) && !r.Raised?
    ensures r.Done? ==> IsAtEnd(toks, r.st.pos) || Check(toks, r.st.pos, RightBrace)
    ensures r.Done? ==> |acc| <= |r.value| && r.value[..|acc|] == acc
    ensures r.Done? && |r.st.diags| == |st.diags| && AllRunnable(acc) ==> AllRunnable(r.value)
    decreases |toks| - st.pos, 6
  {
    if Check(toks, st.pos, RightBrace) || IsAtEnd(toks, st.pos) then Done(acc, st)
    else
      var d := Declaration(toks, st, isRepl);
      if d.Hangs? then Hangs(d.diags)
      else
        var r := BlockLoop(toks, d.st, isRepl, acc + [d.value]);
        BlockLoopStep(toks, st, acc, d, r);
        r
  }

  /** The rest of the block loop after one more declaration `d` keeps the loop's promises from `st` and `acc`. */
  lemma BlockLoopStep(toks: seq<Token>, st: PState, acc: seq<Option<Stmt>>, d: Parsed<Option<Stmt>>, r: Parsed<seq<Option<Stmt>>>)
    requires Progress(toks, st, d, true) && d.Done?
    requires |d.st.diags| == |st.diags| ==> d.value.Some? && Runnable(d.value.value)
    requires Progress(toks, d.st, r, false) && !r.Raised?
    requires r.Done? ==> IsAtEnd(toks, r.st.pos) || Check(toks, r.st.pos, RightBrace)
    requires r.Done? ==> |acc + [d.value]| <= |r.value| && r.value[..|acc + [d.value]|] == acc + [d.value]
    requires r.Done? && |r.st.diags| == |d.st.diags| && AllRunnable(acc + [d.value]) ==> AllRunnable(r.value)
    ensures Progress(toks, st, r, false) && !r.Raised?
    ensures r.Done? ==> IsAtEnd(toks, r.st.pos) || Check(toks, r.st.pos, RightBrace)
    ensures r.Done? ==> |acc| <= |r.value| && r.value[..|acc|] == acc
    ensures r.Done? && |r.st.diags| == |st.diags| && AllRunnable(acc) ==> AllRunnable(r.value)
  {
    ProgressThen(toks, st, d.st, r, false);
    if r.Done? {
      AccumulateStep(st.diags, d.st.diags, r.st.diags, acc, d.value, r.value);
    }
  }

  /**
   * What `BlockLoop` collects after `acc` is the run of declarations from
   * `st` up to `}` or EOF, and the run ends in the state the loop returns.
   */
  lemma {:induction false} BlockLoopRuns(toks: seq<Token>, st: PState, isRepl: bool, acc: seq<Option<Stmt>>)
    requires Cursor(toks, st.pos)
    ensures var r := BlockLoop(toks, st, isRepl, acc);
      r.Done? ==> Declarations(toks, st, isRepl, true, r.value[|acc|..]) == Some(r.st)
    decreases |toks| - st.pos
  {
    var r := BlockLoop(toks, st, isRepl, acc);
    if r.Done? {
      if Check(toks, st.pos, RightBrace) || IsAtEnd(toks, st.pos) {
        assert r.value[|acc|..] == [];
      } else {
        var d := Declaration(toks, st, isRepl);
        assert d.Done? && r == BlockLoop(toks, d.st, isRepl, acc + [d.value]);
        BlockLoopRuns(toks, d.st, isRepl, acc + [d.value]);
        DeclarationsStep(toks, st, isRepl, true, acc, d, r.value);
      }
    }
  }

  /**
   * The statements of a block are the run of declarations after the `{`,
   * which stops at the `}` the block then takes.
   */
  lemma BlockRuns(toks: seq<Token>, st: PState, isRepl: bool)
    requires Cursor(toks, st.pos)
    ensures var r := Block(toks, st, isRepl);
      r.Done? ==>
        var run := Declarations(toks, st, isRepl, true, r.value);
        run.Some? && Check(toks, run.value.pos, RightBrace) && r.st == PState(run.value.pos + 1, run.value.diags)
  {
    BlockLoopRuns(toks, st, isRepl, []);
    var body := BlockLoop(toks, st, isRepl, []);
    if body.Done? {
      assert body.value[0..] == body.value;
    }
  }

  /** A step that advanced and only added diagnostics, followed by `r`, makes progress as `r` does. */
  lemma ProgressThen<T>(toks: seq<Token>, st: PState, s1: PState, r: Parsed<T>, strict: bool)
    requires st.pos <= s1.pos && (strict ==> st.pos < s1.pos) && Extends(st.diags, s1.diags)
    requires Progress(toks, s1, r, false)
    ensures Progress(toks, st, r, strict)
  {
    match r
    case Done(_, after) => ExtendsTrans(st.diags, s1.diags, after.diags);
    case Raised(after) => ExtendsTrans(st.diags, s1.diags, after.diags);
    case Hangs(diags) => ExtendsTrans(st.diags, s1.diags, diags);
  }

  /** One more declaration collected by a loop keeps the loop's promises about what was collected before. */
  lemma AccumulateStep(d0: seq<Diag>, d1: seq<Diag>, d2: seq<Diag>, acc: seq<Option<Stmt>>, d: Option<Stmt>, all: seq<Option<Stmt>>)
    requires Extends(d0, d1) && Extends(d1, d2)
    requires |acc| + 1 <= |all| && all[..|acc| + 1] == acc + [d]
    requires |d2| == |d1| && AllRunnable(acc + [d]) ==> AllRunnable(all)
    requires |d1| == |d0| ==> d.Some? && Runnable(d.value)
    ensures |acc| <= |all| && all[..|acc|] == acc
    ensures |d2| == |d0| && AllRunnable(acc) ==> AllRunnable(all)
  {
    assert all[..|acc|] == all[..|acc| + 1][..|acc|];
    if |d2| == |d0| && AllRunnable(acc) {
      assert (acc + [d])[|acc|] == d;
    }
  }

  /** The result of `parse`: the statement list and the syntax errors reported, or a hang in `synchronize`. */
  datatype Syntax = Program(statements: seq<Option<Stmt>>, diags: seq<Diag>) | Diverges(diags: seq<Diag>)

  /** The loop of `parse`: declarations until EOF, collected after `acc`. */
  function ParseLoop(toks: seq<Token>, st: PState, isRepl: bool, acc: seq<Option<Stmt>>): (r: Syntax)
    requires Cursor(toks, st.pos)
    ensures Extends(st.diags, r.diags)
    ensures r.Program? ==> |acc| <= |r.statements| && r.statements[..|acc|] == acc
    ensures r.Program? && |r.diags| == |st.diags| && AllRunnable(acc) ==> AllRunnable(r.statements)
    decreases |toks| - st.pos
  {
    if IsAtEnd(toks, st.pos) then Program(acc, st.diags)
    else
      var d := Declaration(toks, st, isRepl);
      if d.Hangs? then Diverges(d.diags)
      else
        var r := ParseLoop(toks, d.st, isRepl, acc + [d.value]);
        ExtendsTrans(st.diags, d.st.diags, r.diags);
        if r.Program? then
          AccumulateStep(st.diags, d.st.diags, r.diags, acc, d.value, r.statements);
          r
        else r
  }

  /**
   * `parse`: declarations until EOF. The entries are the declarations
   * parsed one after another up to EOF, with their reports; when no syntax
   * error was reported, every entry is present and every expression uses
   * operators the interpreter handles.
   */
  function Parse(toks: seq<Token>, isRepl: bool): (r: Syntax)
    requires ValidTokens(toks)
    ensures r.Program? && |r.diags| == 0 ==> AllRunnable(r.statements)
    ensures r.Program? ==>
      var run := Declarations(toks, PState(0, []), isRepl, false, r.statements);
      run.Some? && IsAtEnd(toks, run.value.pos) && run.value.diags == r.diags
  {
    var r := ParseLoop(toks, PState(0, []), isRepl, []);
    ParseLoopRuns(toks, PState(0, []), isRepl, []);
    assert r.Program? ==> r.statements[0..] == r.statements;
    r
  }

  /**
   * What `ParseLoop` collects after `acc` is the run of declarations from
   * `st` up to EOF, and the run ends with the reports the loop returns.
   */
  lemma {:induction false} ParseLoopRuns(toks: seq<Token>, st: PState, isRepl: bool, acc: seq<Option<Stmt>>)
    requires Cursor(toks, st.pos)
    ensures var r := ParseLoop(toks, st, isRepl, acc);
      r.Program? ==>
        var run := Declarations(toks, st, isRepl, false, r.statements[|acc|..]);
        run.Some? && IsAtEnd(toks, run.value.pos) && run.value.diags == r.diags
    decreases |toks| - st.pos
  {
    var r := ParseLoop(toks, st, isRepl, acc);
    if r.Program? {
      if IsAtEnd(toks, st.pos) {
        assert r.statements[|acc|..] == [];
      } else {
        var d := Declaration(toks, st, isRepl);
        assert d.Done? && r == ParseLoop(toks, d.st, isRepl, acc + [d.value]);
        ParseLoopRuns(toks, d.st, isRepl, acc + [d.value]);
        DeclarationsStep(toks, st, isRepl, false, acc, d, r.statements);
      }
    }
  }
}

=== FILE: parser_facts.dfy ===
/**
 * Worked token lists for the parser: associativity, precedence, the
 * assignment-target check, the optional semicolon of the REPL, and error
 * recovery, including the input on which `synchronize` never returns.
 */
module ParserFacts {
  import opened Wrappers
  import opened Tokens
  import opened Ast
  import opened Parser
  import ParserSteps

  /** A NUMBER token on line 1. */
  function N(v: real, text: string): Token {
    Token(Number, text, Num(v), 1)
  }

  /** A token without a literal on line 1. */
  function T(kind: TokenType, text: string): Token {
    Token(kind, text, Null, 1)
  }

  const EofToken := Token(Eof, "", Null, 1)

  /** A parser state at cursor `i` with nothing reported. */
  function At(i: nat): PState {
    PState(i, [])
  }

  /** A NUMBER token not followed by `*` or `/` is a whole factor: the literal the token carries. */
  lemma NumberFactor(toks: seq<Token>, st: PState)
    requires Cursor(toks, st.pos) && toks[st.pos].kind == Number
    requires toks[st.pos + 1].kind !in Operators(4)
    ensures Binaries(toks, st, 4) == Done(Literal(toks[st.pos].literal), PState(st.pos + 1, st.diags))
  {
    var lit := Literal(toks[st.pos].literal);
    var next := PState(st.pos + 1, st.diags);
    NumberUnary(toks, st);
    assert Operand(toks, st, 4) == Done(lit, next);
    assert Cursor(toks, next.pos);
    assert !MatchAny(toks, next.pos, Operators(4));
    assert BinariesLoop(toks, next, 4, lit) == Done(lit, next);
  }

  /** A number token is a unary-level operand on its own. */
  lemma NumberUnary(toks: seq<Token>, st: PState)
    requires Cursor(toks, st.pos) && toks[st.pos].kind == Number
    ensures UnaryExpr(toks, st) == Done(Literal(toks[st.pos].literal), PState(st.pos + 1, st.diags))
  {
    var lit := Literal(toks[st.pos].literal);
    var next := PState(st.pos + 1, st.diags);
    assert MatchAny(toks, st.pos, {Number, String});
    assert Atom(toks, st) == Done(lit, next);
    assert Primary(toks, st) == Done(lit, next);
    assert !MatchAny(toks, st.pos, UnaryOperators);
  }

  /** An expression at the term level passes unchanged through comparison, equality and assignment when nothing follows. */
  lemma TermIsExpression(toks: seq<Token>, st: PState, e: Expr, after: PState)
    requires Cursor(toks, st.pos) && Binaries(toks, st, 3) == Done(e, after)
    requires IsAtEnd(toks, after.pos) || toks[after.pos].kind == Semicolon
    ensures Expression(toks, st) == Done(e, after)
  {
    assert Operand(toks, st, 2) == Done(e, after);
    assert BinariesLoop(toks, after, 2, e) == Done(e, after);
    assert Binaries(toks, st, 2) == Done(e, after);
    assert Operand(toks, st, 1) == Done(e, after);
    assert BinariesLoop(toks, after, 1, e) == Done(e, after);
    assert Binaries(toks, st, 1) == Done(e, after);
  }

  /** `1 - 2 - 3` folds to the left: `(1 - 2) - 3`. */
  lemma SubtractionFoldsLeft()
    ensures var toks := [N(1.0, "1"), T(Minus, "-"), N(2.0, "2"), T(Minus, "-"), N(3.0, "3"), EofToken];
      Expression(toks, At(0)) ==
      Done(Binary(Binary(Literal(Num(1.0)), T(Minus, "-"), Literal(Num(2.0))), T(Minus, "-"), Literal(Num(3.0))), At(5))
  {
    var toks := [N(1.0, "1"), T(Minus, "-"), N(2.0, "2"), T(Minus, "-"), N(3.0, "3"), EofToken];
    var one, two, three := Literal(Num(1.0)), Literal(Num(2.0)), Literal(Num(3.0));
    var minus := T(Minus, "-");
    var whole := Binary(Binary(one, minus, two), minus, three);
    assert FirstEof(toks) == 5;
    NumberFactor(toks, At(0));
    NumberFactor(toks, At(2));
    NumberFactor(toks, At(4));
    assert BinariesLoop(toks, At(5), 3, whole) == Done(whole, At(5));
    assert BinariesLoop(toks, At(3), 3, Binary(one, minus, two)) == Done(whole, At(5));
    assert BinariesLoop(toks, At(1), 3, one) == Done(whole, At(5));
    assert Binaries(toks, At(0), 3) == Done(whole, At(5));
    TermIsExpression(toks, At(0), whole, At(5));
  }

  /** `1 + 2 * 3`: the factor binds tighter, `1 + (2 * 3)`. */
  lemma FactorBindsTighter()
    ensures var toks := [N(1.0, "1"), T(Plus, "+"), N(2.0, "2"), T(Star, "*"), N(3.0, "3"), EofToken];
      Expression(toks, At(0)) ==
      Done(Binary(Literal(Num(1.0)), T(Plus, "+"), Binary(Literal(Num(2.0)), T(Star, "*"), Literal(Num(3.0)))), At(5))
  {
    var toks := [N(1.0, "1"), T(Plus, "+"), N(2.0, "2"), T(Star, "*"), N(3.0, "3"), EofToken];
    var one, two, three := Literal(Num(1.0)), Literal(Num(2.0)), Literal(Num(3.0));
    var product := Binary(two, T(Star, "*"), three);
    var whole := Binary(one, T(Plus, "+"), product);
    assert FirstEof(toks) == 5;
    NumberFactor(toks, At(0));
    assert UnaryExpr(toks, At(2)) == Done(two, At(3)) by {
      assert Atom(toks, At(2)) == Done(two, At(3));
    }
    assert UnaryExpr(toks, At(4)) == Done(three, At(5)) by {
      assert Atom(toks, At(4)) == Done(three, At(5));
    }
    assert BinariesLoop(toks, At(5), 4, product) == Done(product, At(5));
    assert BinariesLoop(toks, At(3), 4, two) == Done(product, At(5));
    assert Binaries(toks, At(2), 4) == Done(product, At(5));
    assert BinariesLoop(toks, At(5), 3, whole) == Done(whole, At(5));
    assert BinariesLoop(toks, At(1), 3, one) == Done(whole, At(5));
    assert Binaries(toks, At(0), 3) == Done(whole, At(5));
    TermIsExpression(toks, At(0), whole, At(5));
  }

  /** `1 = 2;`: the target is not a variable, so the error is reported, nothing is thrown, and the statement is `1`. */
  lemma InvalidAssignmentTarget()
    ensures var toks := [N(1.0, "1"), T(Equal, "="), N(2.0, "2"), T(Semicolon, ";"), EofToken];
      Declaration(toks, At(0), false) ==
      Done(Some(ExpressionStmt(Literal(Num(1.0)))), PState(4, [Diag(1, " at '='", "Invalid assignment target")]))
  {
    var toks := [N(1.0, "1"), T(Equal, "="), N(2.0, "2"), T(Semicolon, ";"), EofToken];
    var one, two := Literal(Num(1.0)), Literal(Num(2.0));
    var diag := Diag(1, " at '='", "Invalid assignment target");
    assert FirstEof(toks) == 4;
    NumberFactor(toks, At(0));
    NumberFactor(toks, At(2));
    assert BinariesLoop(toks, At(1), 3, one) == Done(one, At(1));
    assert Binaries(toks, At(0), 3) == Done(one, At(1));
    assert Binaries(toks, At(0), 2) == Done(one, At(1));
    assert Binaries(toks, At(0), 1) == Done(one, At(1));
    assert Binaries(toks, At(2), 3) == Done(two, At(3));
    TermIsExpression(toks, At(2), two, At(3));
    assert " at '" + "=" + "'" == " at '='";
    assert AssignedValue(toks, At(1), one) == Done(one, PState(3, [diag]));
    assert Assignment(toks, At(0)) == Done(one, PState(3, [diag]));
    assert ExpressionStatement(toks, At(0), false) == Done(ExpressionStmt(one), PState(4, [diag]));
    assert Statement(toks, At(0), false) == Done(ExpressionStmt(one), PState(4, [diag]));
  }

  /** `1` with no `;`: accepted in the REPL; outside it, "Expect ';' after value." is reported at the end. */
  lemma SemicolonOptionalInRepl()
    ensures ExpressionStatement([N(1.0, "1"), EofToken], At(0), true) == Done(ExpressionStmt(Literal(Num(1.0))), At(1))
    ensures ExpressionStatement([N(1.0, "1"), EofToken], At(0), false) ==
      Raised(PState(1, [Diag(1, " at end", "Expect ';' after value.")]))
  {
    var toks := [N(1.0, "1"), EofToken];
    assert FirstEof(toks) == 1;
    NumberFactor(toks, At(0));
    assert Binaries(toks, At(0), 3) == Done(Literal(Num(1.0)), At(1));
    TermIsExpression(toks, At(0), Literal(Num(1.0)), At(1));
  }

  /**
   * `var = 1;`: the error is at `=`; `synchronize` passes it and stops at
   * `1`, which is neither after a `;` nor a statement keyword, so it never
   * returns.
   */
  lemma MissingVariableNameHangs()
    ensures Parse([T(Var, "var"), T(Equal, "="), N(1.0, "1"), T(Semicolon, ";"), EofToken], false) ==
      Diverges([Diag(1, " at '='", "Expect variable name")])
  {
    var toks := MissingNameTokens;
    var diag := Diag(1, " at '='", "Expect variable name");
    MissingNameRaises();
    assert Synchronize(toks, 1) == None;
    ParserSteps.DeclarationCatches(toks, At(0), false);
    assert Declaration(toks, At(0), false) == Hangs([diag]);
    assert toks == [T(Var, "var"), T(Equal, "="), N(1.0, "1"), T(Semicolon, ";"), EofToken];
    ParseIsLoop(toks, false);
  }

  const MissingNameTokens := [T(Var, "var"), T(Equal, "="), N(1.0, "1"), T(Semicolon, ";"), EofToken]

  /** After `var`, the `=` is no identifier: the declaration raises at it. */
  lemma MissingNameRaises()
    ensures FirstEof(MissingNameTokens) == 4
    ensures VarDeclaration(MissingNameTokens, At(1)) == Raised(PState(1, [Diag(1, " at '='", "Expect variable name")]))
  {
    assert FirstEof(MissingNameTokens) == 4;
    assert !Check(MissingNameTokens, 1, Identifier);
    ParserSteps.VarDeclarationParses(MissingNameTokens, At(1));
    assert " at '" + "=" + "'" == " at '='";
  }

  /** The tokens of `print ; print 1;`. */
  const RecoveryTokens := [T(Print, "print"), T(Semicolon, ";"), T(Print, "print"), N(1.0, "1"), T(Semicolon, ";"), EofToken]

  const EmptyPrintError := Diag(1, " at ';'", "Expect expression.")

  /** `print ;` fails at the `;`; `synchronize` stops after it and the entry is null. */
  lemma EmptyPrintRecovers()
    ensures Declaration(RecoveryTokens, At(0), false) == Done(None, PState(2, [EmptyPrintError]))
  {
    var toks := RecoveryTokens;
    assert FirstEof(toks) == 5;
    EmptyExpressionRaises();
    ParserSteps.PrintStatementParses(toks, At(1));
    ParserSteps.PrintDispatch(toks, At(0), false);
    ParserSteps.DeclarationCatches(toks, At(0), false);
    assert Synchronize(toks, 1) == Some(2);
  }

  /** The `;` after `print` starts no expression: the error is reported at it. */
  lemma EmptyExpressionRaises()
    ensures FirstEof(RecoveryTokens) == 5
    ensures Expression(RecoveryTokens, At(1)) == Raised(PState(1, [EmptyPrintError]))
  {
    var toks := RecoveryTokens;
    var failed: Parsed<Expr> := Raised(PState(1, [EmptyPrintError]));
    assert FirstEof(toks) == 5;
    assert " at '" + ";" + "'" == " at ';'";
    assert Atom(toks, At(1)) == failed;
    assert UnaryExpr(toks, At(1)) == failed;
    assert Binaries(toks, At(1), 4) == failed;
    assert Binaries(toks, At(1), 3) == failed;
    assert Binaries(toks, At(1), 2) == failed;
    assert Binaries(toks, At(1), 1) == failed;
  }

  /** The statement after the recovery point parses normally. */
  lemma PrintAfterRecovery()
    ensures Declaration(RecoveryTokens, PState(2, [EmptyPrintError]), false) ==
      Done(Some(PrintStmt(Literal(Num(1.0)))), PState(5, [EmptyPrintError]))
  {
    var toks := RecoveryTokens;
    var one := Literal(Num(1.0));
    var d := [EmptyPrintError];
    assert FirstEof(toks) == 5;
    NumberFactor(toks, PState(3, d));
    assert Binaries(toks, PState(3, d), 3) == Done(one, PState(4, d));
    TermIsExpression(toks, PState(3, d), one, PState(4, d));
    assert PrintStatement(toks, PState(3, d)) == Done(PrintStmt(one), PState(5, d));
  }

  /** At EOF the loop of `parse` returns what it has collected. */
  lemma LoopAtEof(toks: seq<Token>, st: PState, isRepl: bool, acc: seq<Option<Stmt>>)
    requires Cursor(toks, st.pos) && IsAtEnd(toks, st.pos)
    ensures ParseLoop(toks, st, isRepl, acc) == Program(acc, st.diags)
  {
  }

  /**
   * `print ; print 1;`: the first statement fails at `;`, `synchronize`
   * stops after that `;`, the entry is null, and the second statement is kept.
   */
  lemma RecoveryAfterSemicolon()
    ensures Parse(RecoveryTokens, false) ==
      Program([None, Some(PrintStmt(Literal(Num(1.0))))], [EmptyPrintError])
  {
    var toks := RecoveryTokens;
    var d := [EmptyPrintError];
    var stmts := [None, Some(PrintStmt(Literal(Num(1.0))))];
    assert FirstEof(toks) == 5;
    EmptyPrintRecovers();
    PrintAfterRecovery();
    assert IsAtEnd(toks, 5);
    LoopAtEof(toks, PState(5, d), false, stmts);
    assert [None] + [Some(PrintStmt(Literal(Num(1.0))))] == stmts;
    LoopStep(toks, PState(2, d), false, [None]);
    var none: seq<Option<Stmt>> := [];
    assert none + [None] == [None];
    LoopStep(toks, At(0), false, none);
    ParseIsLoop(toks, false);
  }

  /** `parse` is its loop started at the first token with nothing collected. */
  lemma ParseIsLoop(toks: seq<Token>, isRepl: bool)
    requires ValidTokens(toks)
    ensures Parse(toks, isRepl) == ParseLoop(toks, PState(0, []), isRepl, [])
  {
  }

  /** Before EOF the loop of `parse` collects one declaration and goes on after it. */
  lemma LoopStep(toks: seq<Token>, st: PState, isRepl: bool, acc: seq<Option<Stmt>>)
    requires Cursor(toks, st.pos) && !IsAtEnd(toks, st.pos) && Declaration(toks, st, isRepl).Done?
    ensures var d := Declaration(toks, st, isRepl);
      ParseLoop(toks, st, isRepl, acc) == ParseLoop(toks, d.st, isRepl, acc + [d.value])
  {
  }
}

=== FILE: parser_steps.dfy ===
/**
 * What each parsing function of the statement grammar does, stated against
 * the functions it calls, and where the expression parsers stop: the
 * partners of the functions in `Parser`, proved for all inputs.
 */
module ParserSteps {
  import opened Wrappers
  import opened Tokens
  import opened Ast
  import opened Parser

  // ----- Where the expression parsers stop -----

  /**
   * An operand of binary level `level` (a tree one level tighter) stops
   * before any operator of a tighter level: otherwise it would have taken it.
   */
  lemma {:induction false} OperandStops(toks: seq<Token>, st: PState, level: nat)
    requires 1 <= level <= 4 && Cursor(toks, st.pos)
    ensures var r := Operand(toks, st, level); r.Done? ==> StopsAt(toks, r.st.pos, level + 1)
    decreases |toks| - st.pos, 10 - 2 * level
  {
    if level < 4 {
      BinariesStops(toks, st, level + 1);
    }
  }

  /**
   * `equality`, `comparison`, `term` and `factor` stop only before a token
   * that is an operator of none of their own or tighter levels.
   */
  lemma {:induction false} BinariesStops(toks: seq<Token>, st: PState, level: nat)
    requires 1 <= level <= 4 && Cursor(toks, st.pos)
    ensures var r := Binaries(toks, st, level); r.Done? ==> StopsAt(toks, r.st.pos, level)
    decreases |toks| - st.pos, 11 - 2 * level
  {
    var x := Operand(toks, st, level);
    OperandStops(toks, st, level);
    if x.Done? {
      var r := BinariesLoop(toks, x.st, level, x.value);
      assert Binaries(toks, st, level) == r;
      BinariesLoopStops(toks, x.st, level, x.value);
    }
  }

  /**
   * The loop of a binary level, entered where tighter levels stop, ends
   * where tighter levels stop (its last operand stopped there).
   */
  lemma {:induction false} BinariesLoopStops(toks: seq<Token>, st: PState, level: nat, left: Expr)
    requires 1 <= level <= 4 && Cursor(toks, st.pos) && Shaped(left, level)
    requires StopsAt(toks, st.pos, level + 1)
    ensures var r := BinariesLoop(toks, st, level, left); r.Done? ==> StopsAt(toks, r.st.pos, level)
    decreases |toks| - st.pos, 0
  {
    var r := BinariesLoop(toks, st, level, left);
    if r.Done? && MatchAny(toks, st.pos, Operators(level)) {
      CursorStep(toks, st.pos);
      var s1 := PState(st.pos + 1, st.diags);
      var x := Operand(toks, s1, level);
      OperandStops(toks, s1, level);
      assert x.Done? && r == BinariesLoop(toks, x.st, level, Binary(left, toks[st.pos], x.value));
      BinariesLoopStops(toks, x.st, level, Binary(left, toks[st.pos], x.value));
    }
  }

  /**
   * `assignment` stops before a token that is neither a binary operator nor
   * `=`: a tail `= value` is always taken, and the value is an assignment.
   */
  lemma {:induction false} AssignmentStops(toks: seq<Token>, st: PState)
    requires Cursor(toks, st.pos)
    ensures var r := Assignment(toks, st); r.Done? ==> StopsAt(toks, r.st.pos, 1) && !Check(toks, r.st.pos, Equal)
    decreases |toks| - st.pos
  {
    var x := Binaries(toks, st, 1);
    BinariesStops(toks, st, 1);
    if x.Done? {
      var r := Assignment(toks, st);
      assert r == AssignmentTail(toks, x.st, x.value);
      if Check(toks, x.st.pos, Equal) {
        assert r == AssignedValue(toks, x.st, x.value);
        CursorStep(toks, x.st.pos);
        var s1 := PState(x.st.pos + 1, x.st.diags);
        var y := Assignment(toks, s1);
        AssignmentStops(toks, s1);
        assert r.Done? ==> y.Done? && r.st.pos == y.st.pos;
      }
    }
  }

  /** Every binary operator is an operator of binary level 1 or tighter. */
  lemma AllBinaryLevels()
    ensures TighterOperators(1) == BinaryOperators
  {
    assert TighterOperators(4) == {Star, Slash};
    assert TighterOperators(3) == {Plus, Minus, Star, Slash};
  }

  /**
   * `expression` stops only before a token that is neither a binary
   * operator nor `=`: every such token is taken by the expression.
   */
  lemma ExpressionStops(toks: seq<Token>, st: PState)
    requires Cursor(toks, st.pos)
    ensures var r := Expression(toks, st);
      r.Done? ==> !MatchAny(toks, r.st.pos, BinaryOperators) && !Check(toks, r.st.pos, Equal)
  {
    AssignmentStops(toks, st);
    AllBinaryLevels();
  }

  // ----- The statement grammar, step by step -----

  /**
   * The `try`/`catch` of `declaration`: an attempt that returned is the
   * entry; after one that threw, `synchronize` runs, and when it returns
   * the entry is null (`None`).
   */
  predicate Recovers(toks: seq<Token>, attempt: Parsed<Stmt>, r: Parsed<Option<Stmt>>)
    requires attempt.Raised? ==> Cursor(toks, attempt.st.pos)
  {
    match attempt
    case Done(s, after) => r == Done(Some(s), after)
    case Raised(after) =>
      var p := Synchronize(toks, after.pos);
      if p.Some? then r == Done(None, PState(p.value, after.diags)) else r == Hangs(after.diags)
    case Hangs(diags) => r == Hangs(diags)
  }

  /**
   * What `declaration` returns: after `var`, the variable declaration, and
   * otherwise the statement, each under the `try`/`catch` of `Recovers`.
   */
  lemma DeclarationCatches(toks: seq<Token>, st: PState, isRepl: bool)
    requires Cursor(toks, st.pos) && !IsAtEnd(toks, st.pos)
    ensures Check(toks, st.pos, Var) ==>
      Cursor(toks, st.pos + 1) && Recovers(toks, VarDeclaration(toks, PState(st.pos + 1, st.diags)), Declaration(toks, st, isRepl))
    ensures !Check(toks, st.pos, Var) ==> Recovers(toks, Statement(toks, st, isRepl), Declaration(toks, st, isRepl))
  {
    CursorStep(toks, st.pos);
  }

  /**
   * `varDeclaration` after `var`: with a name, the rest of the declaration
   * from the next token, named by that token; without one, the error
   * "Expect variable name" at the token under the cursor.
   */
  lemma VarDeclarationParses(toks: seq<Token>, st: PState)
    requires Cursor(toks, st.pos)
    ensures Check(toks, st.pos, Identifier) ==>
      Cursor(toks, st.pos + 1) && VarDeclaration(toks, st) == VarBody(toks, PState(st.pos + 1, st.diags), toks[st.pos])
    ensures !Check(toks, st.pos, Identifier) ==>
      VarDeclaration(toks, st) == Raised(PState(st.pos, st.diags + [ErrorAt(toks[st.pos], "Expect variable name")]))
  {
    var name := Consume(toks, st, Identifier, "Expect variable name");
    assert VarDeclaration(toks, st) == if name.Done? then VarBody(toks, name.st, name.value) else Raised(name.st);
  }

  /**
   * The rest of `varDeclaration`: the statement declares `name` with the
   * initializer parsed next and ends after the `;`, which is required.
   */
  lemma VarBodyParses(toks: seq<Token>, st: PState, name: Token)
    requires Cursor(toks, st.pos) && name.kind == Identifier
    ensures var i := Initializer(toks, st);
      i.Raised? ==> VarBody(toks, st, name) == Raised(i.st)
    ensures var i := Initializer(toks, st);
      i.Done? && Check(toks, i.st.pos, Semicolon) ==>
        VarBody(toks, st, name) == Done(VarStmt(name, i.value), PState(i.st.pos + 1, i.st.diags))
    ensures var i := Initializer(toks, st);
      i.Done? && !Check(toks, i.st.pos, Semicolon) ==>
        VarBody(toks, st, name) == Raised(PState(i.st.pos, i.st.diags + [ErrorAt(toks[i.st.pos], MissingSemicolon)]))
  {
  }

  /** The initializer after `=` is the expression parsed next, and an error in it is the declaration's. */
  lemma InitializerParses(toks: seq<Token>, st: PState)
    requires Cursor(toks, st.pos)
    ensures Check(toks, st.pos, Equal) ==>
      Cursor(toks, st.pos + 1)
      && var x := Expression(toks, PState(st.pos + 1, st.diags));
         && (x.Done? ==> Initializer(toks, st) == Done(Some(x.value), x.st))
         && (x.Raised? ==> Initializer(toks, st) == Raised(x.st))
  {
    if Check(toks, st.pos, Equal) {
      CursorStep(toks, st.pos);
    }
  }

  /**
   * `statement` chooses by the first token: after `print`, a print
   * statement; after `{`, a block statement holding the block's entries;
   * otherwise an expression statement from the same token.
   */
  lemma StatementDispatch(toks: seq<Token>, st: PState, isRepl: bool)
    requires Cursor(toks, st.pos)
    ensures Check(toks, st.pos, Print) ==>
      Cursor(toks, st.pos + 1) && Statement(toks, st, isRepl) == PrintStatement(toks, PState(st.pos + 1, st.diags))
    ensures Check(toks, st.pos, LeftBrace) ==>
      Cursor(toks, st.pos + 1)
      && var b := Block(toks, PState(st.pos + 1, st.diags), isRepl);
         && (b.Done? ==> Statement(toks, st, isRepl) == Done(BlockStmt(b.value), b.st))
         && (b.Raised? ==> Statement(toks, st, isRepl) == Raised(b.st))
         && (b.Hangs? ==> Statement(toks, st, isRepl) == Hangs(b.diags))
    ensures !Check(toks, st.pos, Print) && !Check(toks, st.pos, LeftBrace) ==>
      Statement(toks, st, isRepl) == ExpressionStatement(toks, st, isRepl)
  {
    if Check(toks, st.pos, Print) {
      PrintDispatch(toks, st, isRepl);
    } else if Check(toks, st.pos, LeftBrace) {
      BlockDispatch(toks, st, isRepl);
    } else {
      ExpressionDispatch(toks, st, isRepl);
    }
  }

  /** After `print`: the print statement from the next token. */
  lemma PrintDispatch(toks: seq<Token>, st: PState, isRepl: bool)
    requires Cursor(toks, st.pos) && Check(toks, st.pos, Print)
    ensures Cursor(toks, st.pos + 1) && Statement(toks, st, isRepl) == PrintStatement(toks, PState(st.pos + 1, st.diags))
  {
    CursorStep(toks, st.pos);
  }

  /** After `{`: the block from the next token, wrapped as a block statement. */
  lemma BlockDispatch(toks: seq<Token>, st: PState, isRepl: bool)
    requires Cursor(toks, st.pos) && Check(toks, st.pos, LeftBrace)
    ensures Cursor(toks, st.pos + 1)
    ensures var b := Block(toks, PState(st.pos + 1, st.diags), isRepl);
      Statement(toks, st, isRepl) ==
        if b.Done? then Done(BlockStmt(b.value), b.st) else if b.Raised? then Raised(b.st) else Hangs(b.diags)
  {
    CursorStep(toks, st.pos);
  }

  /** Any other first token: the expression statement from that same token. */
  lemma ExpressionDispatch(toks: seq<Token>, st: PState, isRepl: bool)
    requires Cursor(toks, st.pos) && !Check(toks, st.pos, Print) && !Check(toks, st.pos, LeftBrace)
    ensures Statement(toks, st, isRepl) == ExpressionStatement(toks, st, isRepl)
  {
  }

  /** `printStatement`: the statement prints the expression parsed next and ends after the required `;`. */
  lemma PrintStatementParses(toks: seq<Token>, st: PState)
    requires Cursor(toks, st.pos)
    ensures var x := Expression(toks, st);
      x.Raised? ==> PrintStatement(toks, st) == Raised(x.st)
    ensures var x := Expression(toks, st);
      x.Done? && Check(toks, x.st.pos, Semicolon) ==>
        PrintStatement(toks, st) == Done(PrintStmt(x.value), PState(x.st.pos + 1, x.st.diags))
    ensures var x := Expression(toks, st);
      x.Done? && !Check(toks, x.st.pos, Semicolon) ==>
        PrintStatement(toks, st) == Raised(PState(x.st.pos, x.st.diags + [ErrorAt(toks[x.st.pos], MissingSemicolon)]))
  {
    var x := Expression(toks, st);
    if x.Done? {
      var end := Consume(toks, x.st, Semicolon, MissingSemicolon);
      assert PrintStatement(toks, st) == if end.Done? then Done(PrintStmt(x.value), end.st) else Raised(end.st);
    }
  }

  /**
   * `expressionStatement`: the statement holds the expression parsed from
   * the same token; a `;` after it is taken, and only outside the REPL is
   * a missing one an error.
   */
  lemma ExpressionStatementParses(toks: seq<Token>, st: PState, isRepl: bool)
    requires Cursor(toks, st.pos)
    ensures var x := Expression(toks, st);
      x.Raised? ==> ExpressionStatement(toks, st, isRepl) == Raised(x.st)
    ensures var x := Expression(toks, st);
      x.Done? && Check(toks, x.st.pos, Semicolon) ==>
        ExpressionStatement(toks, st, isRepl) == Done(ExpressionStmt(x.value), PState(x.st.pos + 1, x.st.diags))
    ensures var x := Expression(toks, st);
      x.Done? && !Check(toks, x.st.pos, Semicolon) && isRepl ==>
        ExpressionStatement(toks, st, isRepl) == Done(ExpressionStmt(x.value), x.st)
    ensures var x := Expression(toks, st);
      x.Done? && !Check(toks, x.st.pos, Semicolon) && !isRepl ==>
        ExpressionStatement(toks, st, isRepl) == Raised(PState(x.st.pos, x.st.diags + [ErrorAt(toks[x.st.pos], MissingSemicolon)]))
  {
    var x := Expression(toks, st);
    if x.Done? {
      var end := StatementEnd(toks, x.st, isRepl);
      assert ExpressionStatement(toks, st, isRepl) == if end.Done? then Done(ExpressionStmt(x.value), end.st) else Raised(end.st);
    }
  }

  // ----- The statement lists, as runs of declarations -----

  /**
   * The entries `parse` returns are the only list of declarations that,
   * parsed one after another from the first token, reaches EOF: no entry is
   * dropped, added or reordered.
   */
  lemma ParseIsTheOnlyRun(toks: seq<Token>, isRepl: bool, entries: seq<Option<Stmt>>)
    requires ValidTokens(toks)
    requires var run := Declarations(toks, PState(0, []), isRepl, false, entries);
      run.Some? && IsAtEnd(toks, run.value.pos)
    ensures Parse(toks, isRepl).Program? ==> Parse(toks, isRepl).statements == entries
  {
    var r := Parse(toks, isRepl);
    if r.Program? {
      DeclarationsDetermined(toks, PState(0, []), isRepl, false, r.statements, entries);
    }
  }

  /**
   * The entries of a block are the only list of declarations that, parsed
   * one after another after the `{`, stops at the `}`.
   */
  lemma BlockIsTheOnlyRun(toks: seq<Token>, st: PState, isRepl: bool, entries: seq<Option<Stmt>>)
    requires Cursor(toks, st.pos)
    requires var run := Declarations(toks, st, isRepl, true, entries);
      run.Some? && Check(toks, run.value.pos, RightBrace)
    ensures Block(toks, st, isRepl).Done? ==> Block(toks, st, isRepl).value == entries
  {
    var r := Block(toks, st, isRepl);
    if r.Done? {
      BlockRuns(toks, st, isRepl);
      DeclarationsDetermined(toks, st, isRepl, true, r.value, entries);
    }
  }
}

=== FILE: precedence.dfy ===
/**
 * The expression grammar is unambiguous: a tree of a given precedence level
 * is determined by its symbols. Together with the parser's account of the
 * tokens it consumed, this makes the parser's tree the only tree of the
 * grammar for those tokens.
 *
 * The proof locates the operator a tree splits at. A binary level splits
 * at its last operator of that level outside any parentheses that follows
 * a complete operand (this is what rules out a unary minus), and an
 * assignment splits at its `=`.
 */
module Precedence {
  import opened Tokens
  import opened Ast
  import opened Parser

  /** The change in parenthesis depth caused by one symbol. */
  function Delta(s: Sym): int {
    if s.Open? then 1 else if s.Close? then -1 else 0
  }

  /** The parenthesis depth after reading `w`. */
  function Depth(w: seq<Sym>): int {
    if |w| == 0 then 0 else Depth(w[..|w| - 1]) + Delta(w[|w| - 1])
  }

  lemma {:induction false} DepthAppend(a: seq<Sym>, b: seq<Sym>)
    ensures Depth(a + b) == Depth(a) + Depth(b)
    decreases |b|
  {
    if |b| == 0 {
      assert a + b == a;
    } else {
      assert (a + b)[..|a + b| - 1] == a + b[..|b| - 1];
      DepthAppend(a, b[..|b| - 1]);
    }
  }

  /** The parentheses of `w` match: the depth never drops below zero and ends at zero. */
  predicate Balanced(w: seq<Sym>) {
    Depth(w) == 0 && forall j :: 0 <= j <= |w| ==> Depth(w[..j]) >= 0
  }

  lemma BalancedSingle(s: Sym)
    requires !s.Open? && !s.Close?
    ensures Balanced([s])
  {
    assert [s][..0] == [] && [s][..1] == [s];
  }

  lemma BalancedAppend(a: seq<Sym>, b: seq<Sym>)
    requires Balanced(a) && Balanced(b)
    ensures Balanced(a + b)
  {
    DepthAppend(a, b);
    forall j | 0 <= j <= |a + b|
      ensures Depth((a + b)[..j]) >= 0
    {
      if j <= |a| {
        assert (a + b)[..j] == a[..j];
      } else {
        assert (a + b)[..j] == a + b[..j - |a|];
        DepthAppend(a, b[..j - |a|]);
      }
    }
  }

  /** Parentheses around a balanced run: balanced, and strictly inside them the depth is positive. */
  lemma Wrapped(x: seq<Sym>)
    requires Balanced(x)
    ensures Balanced([Open] + x + [Close])
    ensures forall j :: 0 < j < |x| + 2 ==> Depth(([Open] + x + [Close])[..j]) >= 1
  {
    var w := [Open] + x + [Close];
    DepthAppend([Open], x);
    DepthAppend([Open] + x, [Close]);
    assert [Open][..0] == [] && [Close][..0] == [];
    forall j | 0 < j < |x| + 2
      ensures Depth(w[..j]) >= 1
    {
      assert w[..j] == [Open] + x[..j - 1];
      DepthAppend([Open], x[..j - 1]);
    }
    assert w[..0] == [];
    assert w[..|w|] == w;
  }

  /** The symbols of any tree have matching parentheses. */
  lemma {:induction false} YieldBalanced(e: Expr)
    ensures Balanced(Yield(e))
  {
    match e
    case Literal(v) => BalancedSingle(Lit(v));
    case Variable(name) => BalancedSingle(Word(name));
    case Grouping(inner) =>
      YieldBalanced(inner);
      Wrapped(Yield(inner));
    case Unary(op, right) =>
      YieldBalanced(right);
      BalancedSingle(Word(op));
      BalancedAppend([Word(op)], Yield(right));
    case Binary(left, op, right) =>
      YieldBalanced(left);
      YieldBalanced(right);
      BalancedSingle(Word(op));
      BalancedAppend(Yield(left), [Word(op)]);
      BalancedAppend(Yield(left) + [Word(op)], Yield(right));
    case Assign(name, rhs) =>
      YieldBalanced(rhs);
      BalancedSingle(Word(name));
      BalancedSingle(Assigns);
      BalancedAppend([Word(name)], [Assigns]);
      assert [Word(name)] + [Assigns] == [Word(name), Assigns];
      BalancedAppend([Word(name), Assigns], Yield(rhs));
  }

  /** A symbol that can end an operand: a literal, a variable's name or a `)`. */
  predicate EndsOperand(s: Sym) {
    s.Lit? || s.Close? || (s.Word? && s.t.kind == Identifier)
  }

  /** A symbol that can start a primary: a literal, a variable's name or a `(`. */
  predicate StartsPrimary(s: Sym) {
    s.Lit? || s.Open? || (s.Word? && s.t.kind == Identifier)
  }

  /** The operator symbols of a level: `=` for assignment, the level's operators for a binary level. */
  predicate Marks(s: Sym, level: nat)
    requires level <= 4
  {
    if level == 0 then s.Assigns? else s.Word? && s.t.kind in Operators(level)
  }

  /**
   * Position `j` of `w` is where a tree of `level` splits: an operator of
   * that level, outside parentheses, right after a complete operand.
   */
  predicate IsSplit(w: seq<Sym>, j: int, level: nat)
    requires level <= 4
  {
    0 < j < |w| && Marks(w[j], level) && EndsOperand(w[j - 1]) && Depth(w[..j]) == 0
  }

  /** A split of `a + b` before the end of `a` is a split of `a`. */
  lemma LeftSplit(a: seq<Sym>, b: seq<Sym>, j: int, level: nat)
    requires level <= 4 && j < |a|
    ensures IsSplit(a + b, j, level) ==> IsSplit(a, j, level)
  {
    if 0 < j {
      assert (a + b)[..j] == a[..j];
    }
  }

  /** A split of `a + b` after the end of `a`, where `a` is balanced, is a split of `b`. */
  lemma ShiftSplit(a: seq<Sym>, b: seq<Sym>, j: int, level: nat)
    requires level <= 4 && Depth(a) == 0 && |a| < j
    ensures IsSplit(a + b, j, level) ==> IsSplit(b, j - |a|, level)
  {
    if j < |a + b| {
      assert (a + b)[..j] == a + b[..j - |a|];
      DepthAppend(a, b[..j - |a|]);
    }
  }

  /** The tree is an assignment node of level 0. */
  predicate AssignAt(e: Expr) {
    e.Assign? && e.name.kind == Identifier && Shaped(e.rhs, 0)
  }

  /** The tree is a binary node of binary level `level`. */
  predicate BinaryAt(e: Expr, level: nat)
    requires 1 <= level <= 4
  {
    e.Binary? && e.operator.kind in Operators(level) && Shaped(e.left, level) && Shaped(e.right, level + 1)
  }

  /** The tree is a unary node of level 5. */
  predicate UnaryAt(e: Expr) {
    e.Unary? && e.operator.kind in UnaryOperators && Shaped(e.right, 5)
  }

  /** Every tree the grammar derives ends with a complete operand. */
  lemma {:induction false} LastIsOperand(e: Expr, level: nat)
    requires level <= 6 && Shaped(e, level)
    ensures EndsOperand(Yield(e)[|Yield(e)| - 1])
    decreases e, 6 - level
  {
    if level == 0 && AssignAt(e) {
      LastIsOperand(e.rhs, 0);
    } else if level == 0 {
      LastIsOperand(e, 1);
    } else if level <= 4 && BinaryAt(e, level) {
      LastIsOperand(e.right, level + 1);
    } else if level <= 4 {
      LastIsOperand(e, level + 1);
    } else if level == 5 && UnaryAt(e) {
      LastIsOperand(e.right, 5);
    } else if level == 5 {
      LastIsOperand(e, 6);
    }
  }

  /** A tree of the primary level starts with a symbol that can start a primary. */
  lemma FirstIsPrimary(e: Expr)
    requires Shaped(e, 6)
    ensures StartsPrimary(Yield(e)[0])
  {
  }

  /** A tree of a tighter level than `level` has no split of `level`. */
  lemma {:induction false} NoSplit(e: Expr, m: nat, level: nat)
    requires level < m <= 6 && level <= 4 && Shaped(e, m)
    ensures forall j :: !IsSplit(Yield(e), j, level)
    decreases e, 6 - m, 1
  {
    if m <= 4 && BinaryAt(e, m) {
      NoSplitBinary(e, m, level);
    } else if m <= 4 {
      NoSplit(e, m + 1, level);
    } else if m == 5 && UnaryAt(e) {
      NoSplitUnary(e, level);
    } else if m == 5 {
      NoSplit(e, 6, level);
    } else if e.Grouping? {
      YieldBalanced(e.expression);
      Wrapped(Yield(e.expression));
    }
  }

  lemma {:induction false} NoSplitBinary(e: Expr, m: nat, level: nat)
    requires level < m <= 4 && BinaryAt(e, m)
    ensures forall j :: !IsSplit(Yield(e), j, level)
    decreases e, 6 - m, 0
  {
    var w, l, r := Yield(e), Yield(e.left), Yield(e.right);
    NoSplit(e.left, m, level);
    NoSplit(e.right, m + 1, level);
    YieldBalanced(e.left);
    var a := l + [Word(e.operator)];
    DepthAppend(l, [Word(e.operator)]);
    assert [Word(e.operator)][..0] == [];
    assert w == a + r == l + ([Word(e.operator)] + r);
    forall j
      ensures !IsSplit(w, j, level)
    {
      if j < |l| {
        LeftSplit(l, [Word(e.operator)] + r, j, level);
      } else if j == |l| {
        assert w[j] == Word(e.operator);
      } else if j == |a| {
        assert w[j - 1] == Word(e.operator);
      } else {
        ShiftSplit(a, r, j, level);
      }
    }
  }

  lemma {:induction false} NoSplitUnary(e: Expr, level: nat)
    requires level < 5 && UnaryAt(e)
    ensures forall j :: !IsSplit(Yield(e), j, level)
    decreases e, 1, 0
  {
    var w := Yield(e);
    NoSplit(e.right, 5, level);
    var a := [Word(e.operator)];
    assert a[..0] == [];
    assert w == a + Yield(e.right);
    forall j
      ensures !IsSplit(w, j, level)
    {
      if j == 1 {
        assert w[0] == Word(e.operator);
      } else if j > 1 {
        ShiftSplit(a, Yield(e.right), j, level);
      }
    }
  }

  /** An assignment node splits at its `=`. */
  lemma AssignSplit(e: Expr)
    requires AssignAt(e)
    ensures IsSplit(Yield(e), 1, 0)
  {
    var w := Yield(e);
    assert w[..1] == [Word(e.name)];
    assert [Word(e.name)][..0] == [];
  }

  /** A binary node splits after its left operand, and nowhere later at its level. */
  lemma LastSplit(e: Expr, level: nat)
    requires 1 <= level <= 4 && BinaryAt(e, level)
    ensures IsSplit(Yield(e), |Yield(e.left)|, level)
    ensures forall j :: |Yield(e.left)| < j ==> !IsSplit(Yield(e), j, level)
  {
    var w, l, r := Yield(e), Yield(e.left), Yield(e.right);
    var a := l + [Word(e.operator)];
    YieldBalanced(e.left);
    LastIsOperand(e.left, level);
    NoSplit(e.right, level + 1, level);
    DepthAppend(l, [Word(e.operator)]);
    assert [Word(e.operator)][..0] == [];
    assert w == a + r;
    assert w[..|l|] == l;
    forall j | |l| < j
      ensures !IsSplit(w, j, level)
    {
      if j == |a| {
        assert w[j - 1] == Word(e.operator);
      } else {
        ShiftSplit(a, r, j, level);
      }
    }
  }

  /**
   * Unambiguity: two trees of the same level with the same symbols are the
   * same tree.
   */
  lemma {:induction false} YieldDetermines(e1: Expr, e2: Expr, level: nat)
    requires level <= 6 && Shaped(e1, level) && Shaped(e2, level) && Yield(e1) == Yield(e2)
    ensures e1 == e2
    decreases e1, 6 - level
  {
    var w := Yield(e1);
    if level == 0 {
      if AssignAt(e1) { AssignSplit(e1); } else { NoSplit(e1, 1, 0); }
      if AssignAt(e2) { AssignSplit(e2); } else { NoSplit(e2, 1, 0); }
      assert AssignAt(e1) == AssignAt(e2);
      if AssignAt(e1) {
        assert w[0] == Word(e1.name) == Word(e2.name);
        assert Yield(e1.rhs) == w[2..] == Yield(e2.rhs);
        YieldDetermines(e1.rhs, e2.rhs, 0);
      } else {
        YieldDetermines(e1, e2, 1);
      }
    } else if level <= 4 {
      if BinaryAt(e1, level) { LastSplit(e1, level); } else { NoSplit(e1, level + 1, level); }
      if BinaryAt(e2, level) { LastSplit(e2, level); } else { NoSplit(e2, level + 1, level); }
      assert BinaryAt(e1, level) == BinaryAt(e2, level);
      if BinaryAt(e1, level) {
        var p := |Yield(e1.left)|;
        assert p == |Yield(e2.left)|;
        assert Yield(e1.left) == w[..p] == Yield(e2.left);
        assert w[p] == Word(e1.operator) == Word(e2.operator);
        assert Yield(e1.right) == w[p + 1..] == Yield(e2.right);
        YieldDetermines(e1.left, e2.left, level);
        YieldDetermines(e1.right, e2.right, level + 1);
      } else {
        YieldDetermines(e1, e2, level + 1);
      }
    } else if level == 5 {
      if !UnaryAt(e1) { FirstIsPrimary(e1); }
      if !UnaryAt(e2) { FirstIsPrimary(e2); }
      assert UnaryAt(e1) == UnaryAt(e2);
      if UnaryAt(e1) {
        assert w[0] == Word(e1.operator) == Word(e2.operator);
        assert Yield(e1.right) == w[1..] == Yield(e2.right);
        YieldDetermines(e1.right, e2.right, 5);
      } else {
        YieldDetermines(e1, e2, 6);
      }
    } else if e1.Grouping? {
      assert e2.Grouping?;
      assert Yield(e1.expression) == w[1..|w| - 1] == Yield(e2.expression);
      YieldDetermines(e1.expression, e2.expression, 0);
    }
  }

  /**
   * The parser's tree is the derivation: when `expression` succeeds without
   * a new report, any tree of the grammar whose symbols are the tokens it
   * consumed is the tree it built.
   */
  lemma ParseIsTheDerivation(toks: seq<Token>, st: PState, e: Expr)
    requires Cursor(toks, st.pos) && Shaped(e, 0)
    requires Expression(toks, st).Done? && |Expression(toks, st).st.diags| == |st.diags|
    requires Yield(e) == Symbols(toks[st.pos..Expression(toks, st).st.pos])
    ensures Expression(toks, st).value == e
  {
    var r := Expression(toks, st);
    YieldDetermines(r.value, e, 0);
  }

  /**
   * When the tree's symbols are not the tokens consumed, the difference is
   * explained by "Invalid assignment target" reports: there is at least
   * one, and every diagnostic the expression added is one.
   */
  lemma MismatchIsReported(toks: seq<Token>, st: PState)
    requires Cursor(toks, st.pos) && Expression(toks, st).Done?
    requires Yield(Expression(toks, st).value) != Symbols(toks[st.pos..Expression(toks, st).st.pos])
    ensures |Expression(toks, st).st.diags| > |st.diags|
    ensures forall k :: |st.diags| <= k < |Expression(toks, st).st.diags| ==>
      Expression(toks, st).st.diags[k].message == "Invalid assignment target"
  {
  }
}

=== FILE: rpn_printer.dfy ===
/**
 * Postfix (reverse Polish) rendering of expression trees. The printer has
 * visitors for literals, groupings, unary and binary nodes only.
 */
module RPNPrinter {
  import opened Wrappers
  import opened Tokens
  import opened Ast

  /** The node kinds the printer has a visitor for. */
  predicate Printable(e: Expr) {
    match e
    case Literal(_) => true
    case Grouping(inner) => Printable(inner)
    case Unary(_, r) => Printable(r)
    case Binary(l, _, r) => Printable(l) && Printable(r)
    case _ => false
  }

  /** `print`: operands first, operator lexeme last; groupings add nothing. */
  function Print(e: Expr, show: real -> string): (r: string)
    requires Printable(e)
    ensures e.Literal? && e.value == Null ==> r == "nil"
    ensures e.Literal? && e.value != Null ==> r == ObjectText(e.value, show)
    ensures e.Unary? ==> |e.operator.lexeme| <= |r| && r[|r| - |e.operator.lexeme|..] == e.operator.lexeme
    ensures e.Binary? ==> |e.operator.lexeme| < |r| && r[|r| - |e.operator.lexeme|..] == e.operator.lexeme
    ensures e.Binary? ==> ' ' in r
  {
    match e
    case Binary(l, op, right) =>
      var lhs := Print(l, show) + " ";
      assert ' ' == lhs[|lhs| - 1];
      var t := lhs + Print(right, show) + op.lexeme;
      assert t[|lhs| - 1] == ' ';
      t
    case Grouping(inner) => Print(inner, show)
    case Literal(v) => if v == Null then "nil" else ObjectText(v, show)
    case Unary(op, right) => Print(right, show) + op.lexeme
  }

  /** The tree with every Grouping node replaced by its contents. */
  function StripGroupings(e: Expr): (r: Expr)
    requires Printable(e)
    ensures Printable(r) && !r.Grouping?
  {
    match e
    case Grouping(inner) => StripGroupings(inner)
    case Unary(op, right) => Unary(op, StripGroupings(right))
    case Binary(l, op, right) => Binary(StripGroupings(l), op, StripGroupings(right))
    case Literal(v) => Literal(v)
  }

  /** Groupings are transparent: removing every one of them leaves the rendering unchanged. */
  lemma {:induction false} GroupingsAreTransparent(e: Expr, show: real -> string)
    requires Printable(e)
    ensures Print(StripGroupings(e), show) == Print(e, show)
  {
    match e
    case Grouping(inner) => GroupingsAreTransparent(inner, show);
    case Unary(_, right) => GroupingsAreTransparent(right, show);
    case Binary(l, _, right) =>
      GroupingsAreTransparent(l, show);
      GroupingsAreTransparent(right, show);
    case Literal(_) =>
  }

  /**
   * One entry of a postfix sequence. Operators keep their arity, which the
   * printed text does not show.
   */
  datatype Item = Leaf(value: Value) | UnaryOp(operator: Token) | BinaryOp(operator: Token)

  /** The postfix order of a tree: operands before their operator, groupings dropped. */
  function Postfix(e: Expr): (items: seq<Item>)
    requires Printable(e)
    ensures |items| > 0 && items[0].Leaf?
  {
    match e
    case Literal(v) => [Leaf(v)]
    case Grouping(inner) => Postfix(inner)
    case Unary(op, right) => Postfix(right) + [UnaryOp(op)]
    case Binary(l, op, right) => Postfix(l) + Postfix(right) + [BinaryOp(op)]
  }

  /** The text of one item, with a separating space in front of every literal. */
  function Word(it: Item, show: real -> string): string {
    match it
    case Leaf(v) => " " + (if v == Null then "nil" else ObjectText(v, show))
    case UnaryOp(op) => op.lexeme
    case BinaryOp(op) => op.lexeme
  }

  /** The words of a postfix sequence, in order. */
  function Words(items: seq<Item>, show: real -> string): string {
    if items == [] then "" else Word(items[0], show) + Words(items[1..], show)
  }

  lemma {:induction false} WordsAppend(a: seq<Item>, b: seq<Item>, show: real -> string)
    ensures Words(a + b, show) == Words(a, show) + Words(b, show)
  {
    if a == [] {
      assert a + b == b;
    } else {
      assert (a + b)[0] == a[0] && (a + b)[1..] == a[1..] + b;
      WordsAppend(a[1..], b, show);
      Assoc(Word(a[0], show), Words(a[1..], show), Words(b, show));
    }
  }

  lemma Assoc(a: string, b: string, c: string)
    ensures a + (b + c) == (a + b) + c
  {
  }

  /**
   * The printed text is the postfix sequence written out by `Words`, less its
   * leading space: a space before each literal but the first, and operator
   * lexemes glued to what precedes them.
   */
  lemma {:induction false} PrintIsPostfixWords(e: Expr, show: real -> string)
    requires Printable(e)
    ensures " " + Print(e, show) == Words(Postfix(e), show)
  {
    match e
    case Literal(v) =>
    case Grouping(inner) => PrintIsPostfixWords(inner, show);
    case Unary(op, right) =>
      PrintIsPostfixWords(right, show);
      UnaryWords(right, op, Print(right, show), show);
    case Binary(l, op, right) =>
      PrintIsPostfixWords(l, show);
      PrintIsPostfixWords(right, show);
      BinaryWords(l, op, right, Print(l, show), Print(right, show), show);
  }

  /** A unary node's words: its operand's, then the lexeme. */
  lemma UnaryWords(right: Expr, op: Token, pr: string, show: real -> string)
    requires Printable(right) && " " + pr == Words(Postfix(right), show)
    ensures " " + (pr + op.lexeme) == Words(Postfix(Unary(op, right)), show)
  {
    WordsAppend(Postfix(right), [UnaryOp(op)], show);
    assert Words([UnaryOp(op)], show) == op.lexeme;
    Assoc(" ", pr, op.lexeme);
  }

  /** A binary node's words: the left operand's, the right operand's (with its leading space), then the lexeme. */
  lemma BinaryWords(l: Expr, op: Token, right: Expr, pl: string, pr: string, show: real -> string)
    requires Printable(l) && Printable(right)
    requires " " + pl == Words(Postfix(l), show)
    requires " " + pr == Words(Postfix(right), show)
    ensures " " + (pl + " " + pr + op.lexeme) == Words(Postfix(Binary(l, op, right)), show)
  {
    WordsAppend(Postfix(l), Postfix(right), show);
    WordsAppend(Postfix(l) + Postfix(right), [BinaryOp(op)], show);
    assert Words([BinaryOp(op)], show) == op.lexeme;
    calc {
      Words(Postfix(Binary(l, op, right)), show);
      Words(Postfix(l), show) + Words(Postfix(right), show) + op.lexeme;
      (" " + pl) + (" " + pr) + op.lexeme;
      { Regroup(" ", pl, " ", pr, op.lexeme); }
      " " + (pl + " " + pr + op.lexeme);
    }
  }

  lemma Regroup(a: string, b: string, c: string, d: string, e: string)
    ensures (a + b) + (c + d) + e == a + (b + c + d + e)
  {
    assert (a + b) + (c + d) == a + b + c + d;
  }

  /**
   * Read a postfix sequence with a stack: a literal pushes a leaf, a unary
   * operator replaces the top with its node, a binary operator replaces the
   * top two (the lower one as left operand). `None` when an operator finds
   * too few operands.
   */
  function Rebuild(items: seq<Item>, stack: seq<Expr>): Option<seq<Expr>>
    decreases |items|
  {
    if items == [] then Some(stack)
    else
      match items[0]
      case Leaf(v) => Rebuild(items[1..], stack + [Literal(v)])
      case UnaryOp(op) =>
        if |stack| < 1 then None
        else Rebuild(items[1..], stack[..|stack| - 1] + [Unary(op, stack[|stack| - 1])])
      case BinaryOp(op) =>
        if |stack| < 2 then None
        else Rebuild(items[1..], stack[..|stack| - 2] + [Binary(stack[|stack| - 2], op, stack[|stack| - 1])])
  }

  /** Reading a tree's postfix sequence pushes exactly that tree, without its groupings. */
  lemma {:induction false} RebuildPostfix(e: Expr, rest: seq<Item>, stack: seq<Expr>)
    requires Printable(e)
    ensures Rebuild(Postfix(e) + rest, stack) == Rebuild(rest, stack + [StripGroupings(e)])
  {
    match e
    case Literal(v) =>
      assert ([Leaf(v)] + rest)[1..] == rest;
    case Grouping(inner) => RebuildPostfix(inner, rest, stack);
    case Unary(op, right) =>
      var tail := [UnaryOp(op)] + rest;
      assert Postfix(e) + rest == Postfix(right) + tail;
      RebuildPostfix(right, tail, stack);
      assert tail[1..] == rest;
      var pushed := stack + [StripGroupings(right)];
      assert pushed[..|pushed| - 1] == stack;
    case Binary(l, op, right) =>
      var tail := [BinaryOp(op)] + rest;
      assert Postfix(e) + rest == Postfix(l) + (Postfix(right) + tail);
      RebuildPostfix(l, Postfix(right) + tail, stack);
      RebuildPostfix(right, tail, stack + [StripGroupings(l)]);
      assert tail[1..] == rest;
      var pushed := stack + [StripGroupings(l)] + [StripGroupings(right)];
      assert pushed[..|pushed| - 2] == stack;
  }

  /** The postfix sequence of a tree reads back as that tree, up to groupings. */
  lemma PostfixRoundTrip(e: Expr)
    requires Printable(e)
    ensures Rebuild(Postfix(e), []) == Some([StripGroupings(e)])
  {
    RebuildPostfix(e, [], []);
    assert Postfix(e) + [] == Postfix(e);
    assert [] + [StripGroupings(e)] == [StripGroupings(e)];
  }

  /**
   * Two trees with the same postfix sequence are the same tree up to
   * groupings: the order of operands is kept, never swapped.
   */
  lemma SamePostfixSameTree(e1: Expr, e2: Expr)
    requires Printable(e1) && Printable(e2) && Postfix(e1) == Postfix(e2)
    ensures StripGroupings(e1) == StripGroupings(e2)
  {
    PostfixRoundTrip(e1);
    PostfixRoundTrip(e2);
  }

  /**
   * The printed text alone does not determine the tree: `1 - (-2)` and
   * `-(1 - 2)` both print as "1 2--", since the text drops each operator's arity.
   */
  lemma PrintDropsArity(show: real -> string)
    ensures var minus := Token(Minus, "-", Null, 1);
      var a := Binary(Literal(Int(1)), minus, Unary(minus, Literal(Int(2))));
      var b := Unary(minus, Binary(Literal(Int(1)), minus, Literal(Int(2))));
      && Printable(a) && Printable(b) && a != b
      && Print(a, show) == Print(b, show) == "1 2--"
  {
    var minus := Token(Minus, "-", Null, 1);
    var one, two := Literal(Int(1)), Literal(Int(2));
    ArityOperands(show);
    assert "1" + " " + "2-" + "-" == "1 2--";
    assert "1 2-" + "-" == "1 2--";
  }

  /** The inner nodes of the two trees print as "2-" and "1 2-". */
  lemma ArityOperands(show: real -> string)
    ensures Print(Literal(Int(1)), show) == "1"
    ensures Print(Unary(Token(Minus, "-", Null, 1), Literal(Int(2))), show) == "2-"
    ensures Print(Binary(Literal(Int(1)), Token(Minus, "-", Null, 1), Literal(Int(2))), show) == "1 2-"
  {
    Digits();
    assert Print(Literal(Int(2)), show) == "2";
    assert "2" + "-" == "2-";
    assert "1" + " " + "2" + "-" == "1 2-";
  }

  /** The demonstration tree `(-123) * (8 - 123)`, with Integer literals. */
  const Demo: Expr :=
    Binary(
      Unary(Token(Minus, "-", Null, 1), Literal(Int(123))),
      Token(Star, "*", Null, 1),
      Grouping(Binary(Literal(Int(8)), Token(Minus, "-", Null, 1), Literal(Int(123)))))

  /** The demonstration tree prints as "123- 8 123-*". */
  lemma DemoOutput(show: real -> string)
    ensures Printable(Demo) && Print(Demo, show) == "123- 8 123-*"
  {
    var minus := Token(Minus, "-", Null, 1);
    DemoOperands(show);
    assert "123-" + " " + "8 123-" + "*" == "123- 8 123-*";
    assert Print(Grouping(Binary(Literal(Int(8)), minus, Literal(Int(123)))), show) == "8 123-";
  }

  /** The two operands of the demonstration tree print as "123-" and "8 123-". */
  lemma DemoOperands(show: real -> string)
    ensures Print(Unary(Token(Minus, "-", Null, 1), Literal(Int(123))), show) == "123-"
    ensures Print(Binary(Literal(Int(8)), Token(Minus, "-", Null, 1), Literal(Int(123))), show) == "8 123-"
  {
    Numerals();
    assert "123" + "-" == "123-";
    assert "8" + " " + "123" + "-" == "8 123-";
  }

  /** The decimal text of one and two. */
  lemma Digits()
    ensures IntToString(1) == "1" && IntToString(2) == "2"
  {
    assert NatToString(1) == "1" && NatToString(2) == "2";
  }

  /** The decimal text of the demonstration's integers. */
  lemma Numerals()
    ensures NatToString(123) == "123" && NatToString(8) == "8"
  {
    assert NatToString(1) == "1";
    assert NatToString(12) == NatToString(1) + "2" == "12";
    assert NatToString(123) == NatToString(12) + "3";
  }
}

=== FILE: scanner.dfy ===
/**
 * The character-cursor lexer. Every helper takes the source and the cursor
 * state and returns the new state; `charAt` past the end of the source
 * (which ends the Java run with an exception) is the `Crash` outcome.
 */
module Scanner {
  import opened Wrappers
  import opened Tokens

  /** `charAt` was called with an index past the end of the source. */
  datatype Crash = IndexOutOfRange(index: int)

  /** The scanner's fields: `current`, `line`, the tokens added and the errors reported so far. */
  datatype Lexer = Lexer(current: nat, line: int, tokens: seq<Token>, diags: seq<Diag>)

  /** The reserved words and the kinds they scan to. */
  const Keywords: map<string, TokenType> := map[
    "and" := And, "class" := Class, "else" := Else, "false" := False,
    "for" := For, "fun" := Fun, "if" := If, "nil" := Nil,
    "or" := Or, "print" := Print, "return" := Return, "super" := Super,
    "this" := This, "true" := True, "var" := Var, "while" := While]

  /** The characters that are a token on their own. */
  const PunctuationChars: set<char> := {'(', ')', '{', '}', ',', '.', '-', '+', ';', '*'}

  /** The characters that make a one- or two-character operator. */
  const OperatorChars: set<char> := {'!', '=', '<', '>'}

  /** The characters `scanToken` skips: space, carriage return, tab and newline. */
  const BlankChars: set<char> := {' ', '\r', '\t', '\n'}

  predicate IsDigit(c: char) {
    '0' <= c <= '9'
  }

  predicate IsAlpha(c: char) {
    ('a' <= c <= 'z') || ('A' <= c <= 'Z') || c == '_'
  }

  predicate IsAlphaNumeric(c: char) {
    IsAlpha(c) || IsDigit(c)
  }

  /** The number of newline characters in a text. */
  function NewlineCount(s: string): nat {
    if |s| == 0 then 0 else (if s[0] == '\n' then 1 else 0) + NewlineCount(s[1..])
  }

  /** `peek`: the character under the cursor, or NUL at the end. */
  function Peek(src: string, i: nat): (c: char)
    ensures i < |src| ==> c == src[i]
    ensures i >= |src| ==> c == '\0'
  {
    if i >= |src| then '\0' else src[i]
  }

  /** `String.charAt`, which throws for an index past the end. */
  function CharAt(src: string, k: nat): (r: Result<char, Crash>)
    ensures r.Success? <==> k < |src|
    ensures r.Success? ==> r.value == src[k]
    ensures r.Failure? ==> r.error == IndexOutOfRange(k)
  {
    if k < |src| then Success(src[k]) else Failure(IndexOutOfRange(k))
  }

  /**
   * `peekNext`. Its guard is `current + 1 > length`, so when the character
   * under the cursor is the last one the lookahead reads one past the end
   * and crashes.
   */
  function PeekNext(src: string, i: nat): (r: Result<char, Crash>)
    ensures r.Failure? <==> i + 1 == |src|
    ensures i + 1 < |src| ==> r == Success(src[i + 1])
    ensures i + 1 > |src| ==> r == Success('\0')
  {
    if i + 1 > |src| then Success('\0') else CharAt(src, i + 1)
  }

  /** `advance`: consume the character under the cursor. */
  function Advance(src: string, lx: Lexer): (r: Result<Lexer, Crash>)
    ensures r.Success? <==> lx.current < |src|
    ensures r.Success? ==> r.value == lx.(current := lx.current + 1)
  {
    var c :- CharAt(src, lx.current);
    Success(lx.(current := lx.current + 1))
  }

  /** `match`: the character under the cursor is `expected` (and is then consumed). */
  predicate Matches(src: string, i: nat, expected: char) {
    i < |src| && src[i] == expected
  }

  /** `addToken`: a token whose lexeme is the source text from `start` to the cursor. */
  function AddToken(src: string, start: nat, lx: Lexer, kind: TokenType, literal: Value): Lexer
    requires start <= lx.current <= |src|
  {
    lx.(tokens := lx.tokens + [Token(kind, src[start..lx.current], literal, lx.line)])
  }

  /** `Lox.error(line, message)`: a diagnostic on the current line with no location. */
  function Report(lx: Lexer, message: string): Lexer {
    lx.(diags := lx.diags + [Diag(lx.line, "", message)])
  }

  /** The loop of a `//` comment: the first newline at or after `i`, or the end. */
  function SkipLine(src: string, i: nat): (r: nat)
    requires i <= |src|
    ensures i <= r <= |src|
    ensures r == |src| || src[r] == '\n'
    ensures forall k :: i <= k < r ==> src[k] != '\n'
    decreases |src| - i
  {
    if Peek(src, i) != '\n' && i < |src| then SkipLine(src, i + 1) else i
  }

  /** The end of the run of digits starting at `i`. */
  function DigitsEnd(src: string, i: nat): (r: nat)
    requires i <= |src|
    ensures i <= r <= |src|
    ensures r == |src| || !IsDigit(src[r])
    ensures forall k :: i <= k < r ==> IsDigit(src[k])
    decreases |src| - i
  {
    if IsDigit(Peek(src, i)) then DigitsEnd(src, i + 1) else i
  }

  /** The end of the run of letters, digits and underscores starting at `i`. */
  function AlphaNumericEnd(src: string, i: nat): (r: nat)
    requires i <= |src|
    ensures i <= r <= |src|
    ensures r == |src| || !IsAlphaNumeric(src[r])
    ensures forall k :: i <= k < r ==> IsAlphaNumeric(src[k])
    decreases |src| - i
  {
    if IsAlphaNumeric(Peek(src, i)) then AlphaNumericEnd(src, i + 1) else i
  }

  /** The value of a run of decimal digits. */
  function DigitsValue(s: string): nat
    requires forall k :: 0 <= k < |s| ==> IsDigit(s[k])
  {
    if |s| == 0 then 0
    else
      var last := s[|s| - 1];
      assert IsDigit(last);
      10 * DigitsValue(s[..|s| - 1]) + (last as int - '0' as int)
  }

  function Pow10(n: nat): (r: nat)
    ensures r > 0
  {
    if n == 0 then 1 else 10 * Pow10(n - 1)
  }

  /**
   * `Double.parseDouble` of `whole` or of `whole.fraction`, as an exact
   * rational (rounding to the nearest double is not modelled).
   */
  function DecimalValue(whole: string, fraction: string): real
    requires forall k :: 0 <= k < |whole| ==> IsDigit(whole[k])
    requires forall k :: 0 <= k < |fraction| ==> IsDigit(fraction[k])
  {
    var digits := whole + fraction;
    assert forall k :: 0 <= k < |digits| ==> IsDigit(digits[k]);
    (DigitsValue(digits) as real) / (Pow10(|fraction|) as real)
  }

  /**
   * The loop of `string`: up to the next double quote or the end, counting
   * the newlines it passes.
   */
  function StringBody(src: string, lx: Lexer): (r: Lexer)
    requires lx.current <= |src|
    ensures lx.current <= r.current <= |src|
    ensures r.current == |src| || src[r.current] == '"'
    ensures forall k :: lx.current <= k < r.current ==> src[k] != '"'
    ensures r.line == lx.line + NewlineCount(src[lx.current..(r.current)])
    ensures r.tokens == lx.tokens && r.diags == lx.diags
    decreases |src| - lx.current
  {
    if Peek(src, lx.current) != '"' && lx.current < |src| then
      var line := if src[lx.current] == '\n' then lx.line + 1 else lx.line;
      var r := StringBody(src, lx.(current := lx.current + 1, line := line));
      assert src[lx.current..r.current][1..] == src[lx.current + 1..r.current];
      r
    else
      lx
  }

  /**
   * The text a step may consume without adding a token or reporting: one
   * blank, a `//` comment up to its newline, or a block comment through its
   * closing `*` `/`.
   */
  ghost predicate Skippable(src: string, i: nat, j: nat)
    requires i < j <= |src|
  {
    || (j == i + 1 && src[i] in BlankChars)
    || (i + 1 < |src| && src[i] == '/' && src[i + 1] == '/' && j == SkipLine(src, i + 2))
    || (i + 4 <= j && src[i] == '/' && src[i + 1] == '*' && src[j - 2] == '*' && src[j - 1] == '/')
  }

  /**
   * The text each lexical error is reported on: one unrecognised character,
   * or a string or block comment that runs to the end of the source.
   */
  ghost predicate Reportable(src: string, i: nat, j: nat, message: string)
    requires i < j <= |src|
  {
    || (message == "Unexpected Character" && j == i + 1 && Unrecognised(src[i]))
    || (message == "Unterminated String" && src[i] == '"' && j == |src|)
    || (message == "Unterminated Comment" && i + 1 < j && src[i] == '/' && src[i + 1] == '*' && j == |src|)
  }

  /**
   * One `scanToken` step has consumed input and either added one token, whose
   * lexeme is the text it consumed, or reported one error on that text, or
   * skipped a blank or a comment.
   */
  ghost predicate Step(src: string, before: Lexer, after: Lexer) {
    && before.current < after.current <= |src|
    && after.line >= before.line
    && Extends(before.tokens, after.tokens)
    && |after.tokens| <= |before.tokens| + 1
    && Extends(before.diags, after.diags)
    && |after.diags| <= |before.diags| + 1
    && (|after.tokens| > |before.tokens| ==>
          var t := after.tokens[|before.tokens|];
          && t.lexeme == src[before.current..after.current]
          && t.kind != Eof
          && t.line == after.line)
    && (|after.diags| > |before.diags| ==>
          var d := after.diags[|before.diags|];
          && after.tokens == before.tokens
          && d.line == after.line && d.where == ""
          && Reportable(src, before.current, after.current, d.message))
    && (|after.tokens| == |before.tokens| && |after.diags| == |before.diags| ==>
          Skippable(src, before.current, after.current))
  }

  /**
   * Zero or more steps: the cursor moves from `a` to `b` through a chain of
   * `Step`s, each starting where the previous one ended.
   */
  ghost predicate Steps(src: string, a: Lexer, b: Lexer)
    decreases |src| - a.current
  {
    || a == b
    || (a.current < |src| && exists m :: Step(src, a, m) && Steps(src, m, b))
  }

  /**
   * The step that ends with `addToken`: the cursor has moved from `lx.current`
   * to `end` and the line to `line`, and one token with the consumed text is added.
   */
  function Emit(src: string, lx: Lexer, end: nat, line: int, kind: TokenType, literal: Value): (r: Lexer)
    requires lx.current < end <= |src| && line >= lx.line && kind != Eof
    ensures Step(src, lx, r)
    ensures r.current == end && r.line == line && r.diags == lx.diags
    ensures r.tokens == lx.tokens + [Token(kind, src[lx.current..end], literal, line)]
  {
    AddToken(src, lx.current, lx.(current := end, line := line), kind, literal)
  }

  /** A step over a blank or a comment: it adds no token and reports nothing. */
  function Skip(src: string, lx: Lexer, end: nat, line: int): (r: Lexer)
    requires lx.current < end <= |src| && line >= lx.line && Skippable(src, lx.current, end)
    ensures Step(src, lx, r)
    ensures r.current == end && r.line == line && r.tokens == lx.tokens && r.diags == lx.diags
  {
    lx.(current := end, line := line)
  }

  /** A step that consumes the text up to `end` and reports one error on it. */
  function Fail(src: string, lx: Lexer, end: nat, line: int, message: string): (r: Lexer)
    requires lx.current < end <= |src| && line >= lx.line && Reportable(src, lx.current, end, message)
    ensures Step(src, lx, r)
    ensures r.current == end && r.line == line && r.tokens == lx.tokens
    ensures r.diags == lx.diags + [Diag(line, "", message)]
  {
    Report(lx.(current := end, line := line), message)
  }

  /** The kind each single-character token scans to. */
  function PunctuationKind(c: char): TokenType
    requires c in PunctuationChars
  {
    match c
    case '(' => LeftParen case ')' => RightParen case '{' => LeftBrace case '}' => RightBrace
    case ',' => Comma case '.' => Dot case '-' => Minus case '+' => Plus case ';' => Semicolon
    case _ => Star
  }

  /** The single-character tokens: one token whose lexeme is that character. */
  function Punctuation(src: string, lx: Lexer): (r: Lexer)
    requires lx.current < |src| && src[lx.current] in PunctuationChars
    ensures Step(src, lx, r) && r.current == lx.current + 1
    ensures r.tokens == lx.tokens + [Token(PunctuationKind(src[lx.current]), [src[lx.current]], Null, lx.line)]
  {
    assert src[lx.current..lx.current + 1] == [src[lx.current]];
    Emit(src, lx, lx.current + 1, lx.line, PunctuationKind(src[lx.current]), Null)
  }

  /** The two kinds `!`, `=`, `<` and `>` scan to: with a following `=`, and alone. */
  function OperatorKinds(c: char): (TokenType, TokenType)
    requires c in OperatorChars
  {
    match c
    case '!' => (BangEqual, Bang)
    case '=' => (EqualEqual, Equal)
    case '<' => (LessEqual, Less)
    case _ => (GreaterEqual, Greater)
  }

  /**
   * `!`, `=`, `<` and `>`: the two-character kind when an `=` follows
   * (which is then consumed), the one-character kind otherwise.
   */
  function OperatorToken(src: string, lx: Lexer): (r: Lexer)
    requires lx.current < |src| && src[lx.current] in OperatorChars
    ensures Step(src, lx, r) && |r.tokens| == |lx.tokens| + 1
    ensures Matches(src, lx.current + 1, '=') <==> r.current == lx.current + 2
    ensures !Matches(src, lx.current + 1, '=') <==> r.current == lx.current + 1
    ensures r.tokens[|lx.tokens|].kind == if r.current == lx.current + 2
      then OperatorKinds(src[lx.current]).0 else OperatorKinds(src[lx.current]).1
  {
    var (two, one) := OperatorKinds(src[lx.current]);
    if Matches(src, lx.current + 1, '=') then Emit(src, lx, lx.current + 2, lx.line, two, Null)
    else Emit(src, lx, lx.current + 1, lx.line, one, Null)
  }

  /**
   * The loop of `comment`. It stops before a `*` followed by `/`, or at the
   * end. A slash-star inside starts a nested comment; after the nested comment
   * returns, the loop consumes one more character without looking at it (so a
   * newline there is not counted, and after an unterminated nested comment
   * the read is past the end).
   */
  function CommentLoop(src: string, lx: Lexer): (r: Result<Lexer, Crash>)
    requires lx.current <= |src|
    ensures r.Success? ==> lx.current <= r.value.current <= |src|
    ensures r.Success? ==>
      (r.value.current == |src| ||
       (r.value.current + 1 < |src| && src[r.value.current] == '*' && src[r.value.current + 1] == '/'))
    ensures r.Success? ==> r.value.tokens == lx.tokens && r.value.diags == lx.diags
    ensures r.Success? ==> r.value.line >= lx.line
    decreases |src| - lx.current, 0
  {
    var c := Peek(src, lx.current);
    var notClosing :- if c != '*' then Success(true) else (var n :- PeekNext(src, lx.current); Success(n != '/'));
    if !(notClosing && lx.current < |src|) then
      Success(lx)
    else
      var counted := if c == '\n' then lx.(line := lx.line + 1) else lx;
      var opens :- if c == '/' then (var n :- PeekNext(src, lx.current); Success(n == '*')) else Success(false);
      var afterNested :- if opens then Comment(src, counted.(current := counted.current + 1)) else Success(counted);
      var advanced :- Advance(src, afterNested);
      CommentLoop(src, advanced)
  }

  /**
   * `comment`, entered with the opening slash-star consumed (or, when nested, with only the `/`
   * consumed). Consumes up to and including the closing `*` `/`, or reports
   * "Unterminated Comment" at the end of the source.
   */
  function Comment(src: string, lx: Lexer): (r: Result<Lexer, Crash>)
    requires lx.current <= |src|
    ensures r.Success? ==> lx.current <= r.value.current <= |src|
    ensures r.Success? ==> r.value.tokens == lx.tokens && Extends(lx.diags, r.value.diags)
    ensures r.Success? ==> r.value.line >= lx.line
    ensures r.Success? && |r.value.diags| > |lx.diags| ==>
      r.value.current == |src| && r.value.diags == lx.diags + [Diag(r.value.line, "", "Unterminated Comment")]
    ensures r.Success? && |r.value.diags| == |lx.diags| ==>
      r.value.diags == lx.diags && lx.current + 2 <= r.value.current && src[r.value.current - 2..(r.value.current)] == "*/"
    decreases |src| - lx.current, 1
  {
    var body :- CommentLoop(src, lx);
    if body.current >= |src| then
      Success(Report(body, "Unterminated Comment"))
    else
      // the loop stopped before `*` `/`, so both reads are in range
      var star := Advance(src, body).value;
      assert src[body.current..body.current + 2] == "*/";
      Advance(src, star)
  }

  /**
   * `/`: a line comment (up to, not including, the newline), a block comment,
   * or a SLASH token.
   */
  function SlashToken(src: string, lx: Lexer): (r: Result<Lexer, Crash>)
    requires lx.current < |src| && src[lx.current] == '/'
    ensures r.Success? ==> Step(src, lx, r.value)
    ensures Matches(src, lx.current + 1, '/') ==>
      (r.Success? && r.value.tokens == lx.tokens && r.value.current == SkipLine(src, lx.current + 2))
    ensures !Matches(src, lx.current + 1, '/') && !Matches(src, lx.current + 1, '*') ==>
      r == Success(Emit(src, lx, lx.current + 1, lx.line, Slash, Null))
    ensures Matches(src, lx.current + 1, '*') && r.Success? ==> r.value.tokens == lx.tokens
  {
    if Matches(src, lx.current + 1, '/') then Success(Skip(src, lx, SkipLine(src, lx.current + 2), lx.line))
    else if Matches(src, lx.current + 1, '*') then
      var after :- Comment(src, lx.(current := lx.current + 2));
      Success(after)
    else Success(Emit(src, lx, lx.current + 1, lx.line, Slash, Null))
  }

  /**
   * `string`, at the opening quote. A closed string adds a STRING token whose
   * value is the text between the quotes and whose line is the line of the
   * closing quote; an unclosed one reports "Unterminated String" at the end
   * and adds nothing.
   */
  function StringLiteral(src: string, lx: Lexer): (r: Lexer)
    requires lx.current < |src| && src[lx.current] == '"'
    ensures Step(src, lx, r)
    ensures r.line == lx.line + NewlineCount(src[lx.current + 1..(r.current)])
    ensures |r.tokens| > |lx.tokens| ==>
      && r.current >= lx.current + 2
      && src[r.current - 1] == '"'
      && (forall k :: lx.current < k < r.current - 1 ==> src[k] != '"')
      && r.tokens[|lx.tokens|].kind == String
      && r.tokens[|lx.tokens|].literal == Str(src[lx.current + 1..(r.current - 1)])
    ensures |r.tokens| == |lx.tokens| ==>
      && r.current == |src|
      && (forall k :: lx.current < k < |src| ==> src[k] != '"')
      && r.diags == lx.diags + [Diag(r.line, "", "Unterminated String")]
  {
    var body := StringBody(src, lx.(current := lx.current + 1));
    if body.current >= |src| then UnclosedString(src, lx, body)
    else ClosedString(src, lx, body)
  }

  /** The text ran out before a closing quote: report it at the end of the text. */
  function UnclosedString(src: string, lx: Lexer, body: Lexer): (r: Lexer)
    requires lx.current < body.current == |src| && src[lx.current] == '"'
    requires body.line == lx.line + NewlineCount(src[lx.current + 1..(body.current)])
    ensures Step(src, lx, r)
    ensures r.current == |src| && r.tokens == lx.tokens
    ensures r.line == lx.line + NewlineCount(src[lx.current + 1..(r.current)])
    ensures r.diags == lx.diags + [Diag(r.line, "", "Unterminated String")]
  {
    Fail(src, lx, body.current, body.line, "Unterminated String")
  }

  /** The string's closing quote is at `body.current`: emit the literal without its quotes. */
  function ClosedString(src: string, lx: Lexer, body: Lexer): (r: Lexer)
    requires lx.current < body.current < |src| && src[body.current] == '"'
    requires body.line == lx.line + NewlineCount(src[lx.current + 1..(body.current)])
    ensures Step(src, lx, r)
    ensures r.current == body.current + 1 && r.diags == lx.diags
    ensures r.line == lx.line + NewlineCount(src[lx.current + 1..(r.current)])
    ensures r.tokens == lx.tokens + [Token(String, src[lx.current..(r.current)], Str(src[lx.current + 1..(body.current)]), r.line)]
  {
    assert src[lx.current + 1..body.current + 1] == src[lx.current + 1..body.current] + ['"'];
    NewlineCountAppend(src[lx.current + 1..body.current], '"');
    Emit(src, lx, body.current + 1, body.line, String, Str(src[lx.current + 1..body.current]))
  }

  /** A quote adds no newline. */
  lemma {:induction false} NewlineCountAppend(s: string, c: char)
    requires c != '\n'
    ensures NewlineCount(s + [c]) == NewlineCount(s)
  {
    if |s| > 0 {
      assert (s + [c])[1..] == s[1..] + [c];
      NewlineCountAppend(s[1..], c);
    } else {
      assert (s + [c])[1..] == [];
    }
  }

  /**
   * `number`, at the first digit: the digits, then a `.` and more digits
   * only when a digit follows the `.`. Looking past a `.` that ends the
   * source crashes (see `PeekNext`).
   */
  function NumberLiteral(src: string, lx: Lexer): (r: Result<Lexer, Crash>)
    requires lx.current < |src| && IsDigit(src[lx.current])
    ensures r.Failure? <==> DigitsEnd(src, lx.current) + 1 == |src| && src[DigitsEnd(src, lx.current)] == '.'
    ensures r.Success? ==> Step(src, lx, r.value) && |r.value.tokens| == |lx.tokens| + 1
    ensures r.Success? ==> var whole := DigitsEnd(src, lx.current);
      && r.value.tokens[|lx.tokens|].kind == Number
      && (if whole + 1 < |src| && src[whole] == '.' && IsDigit(src[whole + 1]) then
            && r.value.current == DigitsEnd(src, whole + 1)
            && r.value.tokens[|lx.tokens|].literal
               == Num(DecimalValue(src[lx.current..whole], src[whole + 1..(r.value.current)]))
          else
            && r.value.current == whole
            && r.value.tokens[|lx.tokens|].literal == Num(DecimalValue(src[lx.current..whole], "")))
  {
    var whole := DigitsEnd(src, lx.current);
    if Peek(src, whole) == '.' then
      var next :- PeekNext(src, whole);
      if IsDigit(next) then Success(FractionalNumber(src, lx, whole))
      else Success(WholeNumber(src, lx, whole))
    else
      Success(WholeNumber(src, lx, whole))
  }

  /** A number literal without a fractional part: the digits before `whole`. */
  function WholeNumber(src: string, lx: Lexer, whole: nat): (r: Lexer)
    requires lx.current < whole <= |src|
    requires forall k :: lx.current <= k < whole ==> IsDigit(src[k])
    ensures Step(src, lx, r) && |r.tokens| == |lx.tokens| + 1 && r.current == whole
    ensures r.tokens[|lx.tokens|].kind == Number
    ensures r.tokens[|lx.tokens|].literal == Num(DecimalValue(src[lx.current..whole], ""))
  {
    Emit(src, lx, whole, lx.line, Number, Num(DecimalValue(src[lx.current..whole], "")))
  }

  /** A number literal whose `.` at `whole` is followed by a digit: consume the fraction's digits too. */
  function FractionalNumber(src: string, lx: Lexer, whole: nat): (r: Lexer)
    requires lx.current < whole && whole + 1 < |src| && src[whole] == '.' && IsDigit(src[whole + 1])
    requires forall k :: lx.current <= k < whole ==> IsDigit(src[k])
    ensures Step(src, lx, r) && |r.tokens| == |lx.tokens| + 1 && r.current == DigitsEnd(src, whole + 1)
    ensures r.tokens[|lx.tokens|].kind == Number
    ensures r.tokens[|lx.tokens|].literal == Num(DecimalValue(src[lx.current..whole], src[whole + 1..DigitsEnd(src, whole + 1)]))
  {
    var end := DigitsEnd(src, whole + 1);
    Emit(src, lx, end, lx.line, Number, Num(DecimalValue(src[lx.current..whole], src[whole + 1..end])))
  }

  /**
   * `identifier`, at the first letter: the longest run of letters, digits
   * and underscores, scanned to its keyword's kind or to IDENTIFIER.
   */
  function IdentifierToken(src: string, lx: Lexer): (r: Lexer)
    requires lx.current < |src| && IsAlpha(src[lx.current])
    ensures Step(src, lx, r) && |r.tokens| == |lx.tokens| + 1
    ensures r.current == |src| || !IsAlphaNumeric(src[r.current])
    ensures forall k :: lx.current <= k < r.current ==> IsAlphaNumeric(src[k])
    ensures var text := src[lx.current..(r.current)];
      r.tokens[|lx.tokens|].kind == if text in Keywords then Keywords[text] else Identifier
  {
    var end := AlphaNumericEnd(src, lx.current + 1);
    var text := src[lx.current..end];
    Emit(src, lx, end, lx.line, if text in Keywords then Keywords[text] else Identifier, Null)
  }

  /** A character that starts no lexeme: `scanToken` reports it. */
  predicate Unrecognised(c: char) {
    c !in PunctuationChars && c !in OperatorChars && c !in BlankChars && c != '/' && c != '"' && !IsDigit(c) && !IsAlpha(c)
  }

  /** The case of `scanToken`'s switch a first character selects. */
  datatype CharClass = PunctuationClass | OperatorClass | SlashClass | BlankClass
                     | QuoteClass | DigitClass | AlphaClass | OtherClass

  /** Each class holds exactly the characters its case of the switch names. */
  function ClassOf(c: char): (k: CharClass)
    ensures k == PunctuationClass <==> c in PunctuationChars
    ensures k == OperatorClass <==> c in OperatorChars
    ensures k == SlashClass <==> c == '/'
    ensures k == BlankClass <==> c in BlankChars
    ensures k == QuoteClass <==> c == '"'
    ensures k == DigitClass <==> IsDigit(c)
    ensures k == AlphaClass <==> IsAlpha(c)
    ensures k == OtherClass <==> Unrecognised(c)
  {
    if c in PunctuationChars then PunctuationClass
    else if c in OperatorChars then OperatorClass
    else if c == '/' then SlashClass
    else if c in BlankChars then BlankClass
    else if c == '"' then QuoteClass
    else if IsDigit(c) then DigitClass
    else if IsAlpha(c) then AlphaClass
    else OtherClass
  }

  /**
   * `scanToken`: scan one lexeme starting at the cursor, chosen by its
   * first character.
   */
  function ScanToken(src: string, lx: Lexer): (r: Result<Lexer, Crash>)
    requires lx.current < |src|
    ensures r.Success? ==> Step(src, lx, r.value)
    ensures src[lx.current] in PunctuationChars ==>
      r == Success(lx.(current := lx.current + 1,
                       tokens := lx.tokens + [Token(PunctuationKind(src[lx.current]), [src[lx.current]], Null, lx.line)]))
    ensures src[lx.current] in OperatorChars ==> r == Success(OperatorToken(src, lx))
    ensures src[lx.current] == '/' ==> r == SlashToken(src, lx)
    ensures src[lx.current] in BlankChars ==>
      r == Success(lx.(current := lx.current + 1, line := if src[lx.current] == '\n' then lx.line + 1 else lx.line))
    ensures src[lx.current] == '"' ==> r == Success(StringLiteral(src, lx))
    ensures IsDigit(src[lx.current]) ==> r == NumberLiteral(src, lx)
    ensures IsAlpha(src[lx.current]) ==> r == Success(IdentifierToken(src, lx))
    ensures Unrecognised(src[lx.current]) ==>
      r == Success(lx.(current := lx.current + 1, diags := lx.diags + [Diag(lx.line, "", "Unexpected Character")]))
  {
    var c := src[lx.current];
    match ClassOf(c)
    case PunctuationClass => Success(Punctuation(src, lx))
    case OperatorClass => Success(OperatorToken(src, lx))
    case SlashClass => SlashToken(src, lx)
    case BlankClass => Success(Skip(src, lx, lx.current + 1, if c == '\n' then lx.line + 1 else lx.line))
    case QuoteClass => Success(StringLiteral(src, lx))
    case DigitClass => NumberLiteral(src, lx)
    case AlphaClass => Success(IdentifierToken(src, lx))
    case OtherClass => Success(Fail(src, lx, lx.current + 1, lx.line, "Unexpected Character"))
  }

  /** The loop of `scanTokens`: scan lexemes until the cursor reaches the end. */
  function ScanFrom(src: string, lx: Lexer): (r: Result<Lexer, Crash>)
    requires lx.current <= |src|
    ensures r.Success? ==> r.value.current == |src| && r.value.line >= lx.line
    ensures r.Success? ==> Extends(lx.tokens, r.value.tokens) && Extends(lx.diags, r.value.diags)
    ensures r.Success? ==> forall k :: |lx.tokens| <= k < |r.value.tokens| ==> r.value.tokens[k].kind != Eof
    ensures r.Success? ==> Steps(src, lx, r.value)
    ensures r.Failure? ==> exists m :: Steps(src, lx, m) && m.current < |src| && ScanToken(src, m) == Failure(r.error)
    decreases |src| - lx.current
  {
    if lx.current >= |src| then Success(lx)
    else
      var first := ScanToken(src, lx);
      if first.Failure? then
        assert Steps(src, lx, lx);
        Failure(first.error)
      else
        var rest := ScanFrom(src, first.value);
        if rest.Failure? then
          CrashAfterStep(src, lx, first.value, rest.error);
          Failure(rest.error)
        else
          StepThenRest(src, lx, first.value, rest.value);
          Success(rest.value)
  }

  /** A crash reached from the state after one step is reached from the state before it. */
  lemma CrashAfterStep(src: string, lx: Lexer, mid: Lexer, err: Crash)
    requires lx.current < |src| && Step(src, lx, mid)
    requires exists m :: Steps(src, mid, m) && m.current < |src| && ScanToken(src, m) == Failure(err)
    ensures exists m :: Steps(src, lx, m) && m.current < |src| && ScanToken(src, m) == Failure(err)
  {
    var m :| Steps(src, mid, m) && m.current < |src| && ScanToken(src, m) == Failure(err);
    assert Steps(src, lx, m);
  }

  /** What one step and the rest of the scan keep, put together. */
  lemma StepThenRest(src: string, lx: Lexer, mid: Lexer, rest: Lexer)
    requires Step(src, lx, mid)
    requires rest.line >= mid.line
    requires Extends(mid.tokens, rest.tokens) && Extends(mid.diags, rest.diags)
    requires forall k :: |mid.tokens| <= k < |rest.tokens| ==> rest.tokens[k].kind != Eof
    ensures rest.line >= lx.line
    ensures Extends(lx.tokens, rest.tokens) && Extends(lx.diags, rest.diags)
    ensures forall k :: |lx.tokens| <= k < |rest.tokens| ==> rest.tokens[k].kind != Eof
  {
    assert rest.tokens[..|lx.tokens|] == rest.tokens[..|mid.tokens|][..|lx.tokens|];
    assert rest.diags[..|lx.diags|] == rest.diags[..|mid.diags|][..|lx.diags|];
    forall k | |lx.tokens| <= k < |mid.tokens|
      ensures rest.tokens[k].kind != Eof
    {
      assert rest.tokens[k] == rest.tokens[..|mid.tokens|][k] == mid.tokens[k];
    }
  }

  /** The token list and the reported lexical errors. */
  datatype Scanned = Scanned(tokens: seq<Token>, diags: seq<Diag>)

  /**
   * `scanTokens`: the tokens of the whole source followed by exactly one
   * end-of-input token, with empty lexeme, carrying the final line.
   */
  function ScanTokens(src: string): (r: Result<Scanned, Crash>)
    ensures r.Success? ==> |r.value.tokens| > 0
    ensures r.Success? ==> var last := r.value.tokens[|r.value.tokens| - 1];
      last.kind == Eof && last.lexeme == "" && last.literal == Null && last.line >= 1
    ensures r.Success? ==> forall k :: 0 <= k < |r.value.tokens| - 1 ==> r.value.tokens[k].kind != Eof
    ensures r.Success? ==> exists end :: && Steps(src, Lexer(0, 1, [], []), end) && end.current == |src|
                                         && r.value == Scanned(end.tokens + [Token(Eof, "", Null, end.line)], end.diags)
    ensures r.Failure? ==> exists m :: && Steps(src, Lexer(0, 1, [], []), m) && m.current < |src|
                                       && ScanToken(src, m) == Failure(r.error)
  {
    var end :- ScanFrom(src, Lexer(0, 1, [], []));
    Success(Scanned(end.tokens + [Token(Eof, "", Null, end.line)], end.diags))
  }
}

=== FILE: scanner_facts.dfy ===
/**
 * Properties of the lexer that relate several scanning steps, and worked
 * inputs for the block-comment, number and string quirks.
 */
module ScannerFacts {
  import opened Wrappers
  import opened Tokens
  import opened Scanner

  /** The start state of `scanTokens`: cursor 0, line 1, nothing scanned. */
  const Fresh := Lexer(0, 1, [], [])

  /** `scanTokens` appends the end-of-input token to what the scanning loop produced. */
  lemma ScanTokensOf(src: string, end: Lexer)
    requires ScanFrom(src, Fresh) == Success(end)
    ensures ScanTokens(src) == Success(Scanned(end.tokens + [Token(Eof, "", Null, end.line)], end.diags))
  {
  }

  /** At the end of the source the scanning loop stops and returns the lexer it was given. */
  lemma ScanFromAtEnd(src: string, lx: Lexer)
    requires lx.current == |src|
    ensures ScanFrom(src, lx) == Success(lx)
  {
  }

  /**
   * Before the end, the scanning loop scans one lexeme and continues from
   * where it stopped; a crash in that lexeme ends the scan. With
   * `ScanFromAtEnd` this fixes the loop's result on every source.
   */
  lemma ScanFromStep(src: string, lx: Lexer)
    requires lx.current < |src|
    ensures ScanToken(src, lx).Failure? ==> ScanFrom(src, lx) == Failure(ScanToken(src, lx).error)
    ensures ScanToken(src, lx).Success? ==> ScanFrom(src, lx) == ScanFrom(src, ScanToken(src, lx).value)
  {
  }

  /** The characters `scanToken` skips: blanks and the newline. */
  predicate IsBlank(c: char) {
    c in BlankChars
  }

  /** A run of blanks and newlines scans to nothing, and the line grows by the newlines passed. */
  lemma {:induction false} BlanksScanToNothing(src: string, lx: Lexer)
    requires lx.current <= |src|
    requires forall k :: lx.current <= k < |src| ==> IsBlank(src[k])
    ensures ScanFrom(src, lx) == Success(lx.(current := |src|, line := lx.line + NewlineCount(src[lx.current..])))
    decreases |src| - lx.current
  {
    if lx.current < |src| {
      var c := src[lx.current];
      var mid := lx.(current := lx.current + 1, line := if c == '\n' then lx.line + 1 else lx.line);
      assert ScanToken(src, lx) == Success(mid);
      assert src[lx.current..][1..] == src[lx.current + 1..];
      BlanksScanToNothing(src, mid);
    } else {
      assert src[lx.current..] == [];
    }
  }

  /** Every character of `s` is a blank or a newline. */
  predicate AllBlank(s: string) {
    |s| == 0 || (IsBlank(s[0]) && AllBlank(s[1..]))
  }

  lemma {:induction false} AllBlankAt(s: string, k: nat)
    requires AllBlank(s) && k < |s|
    ensures IsBlank(s[k])
  {
    if k > 0 {
      AllBlankAt(s[1..], k - 1);
    }
  }

  /** A source of blanks and newlines scans to the end-of-input token alone, on line 1 plus its newlines. */
  lemma BlankSource(src: string)
    requires AllBlank(src)
    ensures ScanTokens(src) == Success(Scanned([Token(Eof, "", Null, 1 + NewlineCount(src))], []))
  {
    BlankLoop(src);
    NothingScanned(src, 1 + NewlineCount(src));
  }

  lemma BlankLoop(src: string)
    requires AllBlank(src)
    ensures ScanFrom(src, Fresh) == Success(Lexer(|src|, 1 + NewlineCount(src), [], []))
  {
    forall k | 0 <= k < |src|
      ensures IsBlank(src[k])
    {
      AllBlankAt(src, k);
    }
    BlanksFromStart(src, Fresh);
  }

  /** When the loop adds nothing, `scanTokens` gives the end-of-input token alone. */
  lemma NothingScanned(src: string, line: int)
    requires ScanFrom(src, Fresh) == Success(Lexer(|src|, line, [], []))
    ensures ScanTokens(src) == Success(Scanned([Token(Eof, "", Null, line)], []))
  {
    var end := Lexer(|src|, line, [], []);
    ScanTokensOf(src, end);
    NothingBefore(end.tokens, Token(Eof, "", Null, line));
  }

  /** Appending to an empty list gives the appended item alone. */
  lemma NothingBefore<T>(s: seq<T>, x: T)
    requires s == []
    ensures s + [x] == [x]
  {
  }

  lemma BlanksFromStart(src: string, lx: Lexer)
    requires lx.current == 0
    requires forall k :: 0 <= k < |src| ==> IsBlank(src[k])
    ensures ScanFrom(src, lx) == Success(lx.(current := |src|, line := lx.line + NewlineCount(src)))
  {
    assert src[lx.current..] == src;
    BlanksScanToNothing(src, lx);
  }

  /**
   * A source that is one word (a letter or underscore, then letters, digits
   * and underscores) scans to one token: its keyword's kind, or IDENTIFIER.
   */
  lemma WordSource(src: string)
    requires |src| > 0 && IsAlpha(src[0])
    requires forall k :: 0 <= k < |src| ==> IsAlphaNumeric(src[k])
    ensures ScanTokens(src) == Success(Scanned(
      [Token(if src in Keywords then Keywords[src] else Identifier, src, Null, 1), Token(Eof, "", Null, 1)], []))
  {
    var kind := if src in Keywords then Keywords[src] else Identifier;
    WordFromStart(src, Fresh);
    var end := Fresh.(current := |src|, tokens := [Token(kind, src, Null, 1)]);
    ScanTokensOf(src, end);
    assert end.tokens + [Token(Eof, "", Null, 1)] == [Token(kind, src, Null, 1), Token(Eof, "", Null, 1)];
  }

  lemma WordFromStart(src: string, lx: Lexer)
    requires lx.current == 0 && |src| > 0 && IsAlpha(src[0])
    requires forall k :: 0 <= k < |src| ==> IsAlphaNumeric(src[k])
    ensures ScanFrom(src, lx) == Success(lx.(current := |src|,
      tokens := lx.tokens + [Token(if src in Keywords then Keywords[src] else Identifier, src, Null, lx.line)]))
  {
    ScanLetter(src, lx);
    var word := IdentifierToken(src, lx);
    assert word.current == |src|;
    assert src[0..|src|] == src;
    assert ScanFrom(src, word) == Success(word);
  }

  /** At a letter or underscore, `scanToken` scans an identifier. */
  lemma ScanLetter(src: string, lx: Lexer)
    requires lx.current < |src| && IsAlpha(src[lx.current])
    ensures ScanToken(src, lx) == Success(IdentifierToken(src, lx))
  {
    var c := src[lx.current];
    assert c !in PunctuationChars && c !in OperatorChars && c !in BlankChars && !IsDigit(c);
  }

  /** At a digit, `scanToken` scans a number. */
  lemma ScanDigit(src: string, lx: Lexer)
    requires lx.current < |src| && IsDigit(src[lx.current])
    ensures ScanToken(src, lx) == NumberLiteral(src, lx)
  {
    var c := src[lx.current];
    assert c !in PunctuationChars && c !in OperatorChars && c !in BlankChars;
  }

  /** A keyword followed by more letters is an identifier: `orchid` is not `or`. */
  lemma KeywordPrefixIsIdentifier()
    ensures ScanTokens("orchid") == Success(Scanned([Token(Identifier, "orchid", Null, 1), Token(Eof, "", Null, 1)], []))
    ensures ScanTokens("or") == Success(Scanned([Token(Or, "or", Null, 1), Token(Eof, "", Null, 1)], []))
  {
    OrchidIsIdentifier();
    OrIsKeyword();
  }

  lemma OrchidIsIdentifier()
    ensures ScanTokens("orchid") == Success(Scanned([Token(Identifier, "orchid", Null, 1), Token(Eof, "", Null, 1)], []))
  {
    assert "orchid" !in Keywords;
    WordSource("orchid");
  }

  lemma OrIsKeyword()
    ensures ScanTokens("or") == Success(Scanned([Token(Or, "or", Null, 1), Token(Eof, "", Null, 1)], []))
  {
    assert Keywords["or"] == Or;
    WordSource("or");
  }

  /** Digits then a final `.`: looking past the `.` reads beyond the source. */
  lemma TrailingDotCrashes(digits: string)
    requires |digits| > 0 && forall k :: 0 <= k < |digits| ==> IsDigit(digits[k])
    ensures ScanTokens(digits + ".") == Failure(IndexOutOfRange(|digits| + 1))
  {
    var src := digits + ".";
    assert DigitsEnd(src, 0) == |digits| by {
      assert !IsDigit(src[|digits|]);
    }
    assert NumberLiteral(src, Fresh) == Failure(IndexOutOfRange(|digits| + 1));
    ScanDigit(src, Fresh);
  }

  /** A `.` not followed by a digit ends the number and is left for a DOT token. */
  lemma DotWithoutDigitIsLeft()
    ensures NumberLiteral("1.x", Fresh) == Success(Lexer(1, 1, [Token(Number, "1", Num(1.0), 1)], []))
  {
    var src := "1.x";
    assert DigitsEnd(src, 1) == 1;
    assert src[0..1] == "1";
    assert DigitsValue("1") == 1;
    assert DecimalValue("1", "") == 1.0;
    assert PeekNext(src, 1) == Success('x');
  }

  /** A `.` followed by digits makes a fraction. */
  lemma NumberWithFraction()
    ensures NumberLiteral("12.5;", Fresh) == Success(Lexer(4, 1, [Token(Number, "12.5", Num(12.5), 1)], []))
  {
    var src := "12.5;";
    assert DigitsEnd(src, 0) == 2;
    assert DigitsEnd(src, 3) == 4;
    assert src[0..2] == "12" && src[3..4] == "5" && src[0..4] == "12.5";
    TwelveAndAHalf();
  }

  /** The digits `12` and `5` read as 12.5. */
  lemma TwelveAndAHalf()
    ensures DecimalValue("12", "5") == 12.5
  {
    assert "12" + "5" == "125";
    assert DigitsValue("1") == 1;
    assert DigitsValue("12") == 12;
    assert DigitsValue("125") == 125;
  }

  /** A string closes exactly when a later double quote exists. */
  lemma StringClosesIffQuoteFollows(src: string, lx: Lexer)
    requires lx.current < |src| && src[lx.current] == '"'
    ensures (exists k :: lx.current < k < |src| && src[k] == '"') <==> |StringLiteral(src, lx).tokens| > |lx.tokens|
  {
    var r := StringLiteral(src, lx);
    if |r.tokens| > |lx.tokens| {
      assert lx.current < r.current - 1 < |src| && src[r.current - 1] == '"';
    } else {
      assert forall k :: lx.current < k < |src| ==> src[k] != '"';
    }
  }

  /** A string spanning a newline carries the line of its closing quote, and its value keeps the newline. */
  lemma MultiLineString()
    ensures StringLiteral("\"a\nb\"", Fresh) == Lexer(5, 2, [Token(String, "\"a\nb\"", Str("a\nb"), 2)], [])
  {
    var src := "\"a\nb\"";
    assert StringBody(src, Fresh.(current := 1)) == Lexer(4, 2, [], []);
    assert src[1..4] == "a\nb" && src[0..5] == src;
  }

  /** An unclosed string reports an error at the end and adds no token. */
  lemma UnterminatedString()
    ensures StringLiteral("\"ab", Fresh) == Lexer(3, 1, [], [Diag(1, "", "Unterminated String")])
  {
    assert StringBody("\"ab", Fresh.(current := 1)) == Lexer(3, 1, [], []);
  }

  /** A nested comment closes at its own `*` `/`; the outer comment closes only at the next one. */
  lemma NestedCommentClosesAtMatch()
    ensures Comment("/* /* */ */x", Lexer(2, 1, [], [])) == Success(Lexer(11, 1, [], []))
  {
    var src := "/* /* */ */x";
    assert CommentLoop(src, Lexer(5, 1, [], [])) == Success(Lexer(6, 1, [], []));
    assert Comment(src, Lexer(4, 1, [], [])) == Success(Lexer(8, 1, [], []));
    assert CommentLoop(src, Lexer(9, 1, [], [])) == Success(Lexer(9, 1, [], []));
    assert CommentLoop(src, Lexer(3, 1, [], [])) == Success(Lexer(9, 1, [], []));
    assert CommentLoop(src, Lexer(2, 1, [], [])) == Success(Lexer(9, 1, [], []));
  }

  /** The character read right after a nested comment is not checked: a newline there is not counted. */
  lemma NewlineAfterNestedCommentUncounted()
    ensures Comment("/* /* */\n*/ x", Lexer(2, 1, [], [])) == Success(Lexer(11, 1, [], []))
  {
    var src := "/* /* */\n*/ x";
    assert CommentLoop(src, Lexer(5, 1, [], [])) == Success(Lexer(6, 1, [], []));
    assert Comment(src, Lexer(4, 1, [], [])) == Success(Lexer(8, 1, [], []));
    assert CommentLoop(src, Lexer(9, 1, [], [])) == Success(Lexer(9, 1, [], []));
    assert CommentLoop(src, Lexer(3, 1, [], [])) == Success(Lexer(9, 1, [], []));
    assert CommentLoop(src, Lexer(2, 1, [], [])) == Success(Lexer(9, 1, [], []));
  }

  /** After an unterminated nested comment, the read that follows it is past the end. */
  lemma UnterminatedNestedCommentCrashes()
    ensures Comment("/* /* x", Lexer(2, 1, [], [])) == Failure(IndexOutOfRange(7))
  {
    var src := "/* /* x";
    assert CommentLoop(src, Lexer(4, 1, [], [])) == Success(Lexer(7, 1, [], []));
    assert Comment(src, Lexer(4, 1, [], [])) == Success(Lexer(7, 1, [], [Diag(1, "", "Unterminated Comment")]));
  }

  /** An unclosed comment reports an error at the end and adds no token. */
  lemma UnterminatedComment()
    ensures Comment("/* ab", Lexer(2, 1, [], [])) == Success(Lexer(5, 1, [], [Diag(1, "", "Unterminated Comment")]))
  {
    assert CommentLoop("/* ab", Lexer(2, 1, [], [])) == Success(Lexer(5, 1, [], []));
  }

  /** A comment whose last character is `*` looks one past the end. */
  lemma CommentEndingInStarCrashes()
    ensures Comment("/* *", Lexer(2, 1, [], [])) == Failure(IndexOutOfRange(4))
  {
    assert CommentLoop("/* *", Lexer(3, 1, [], [])) == Failure(IndexOutOfRange(4));
  }

  /**
   * A reference for block comments written as one scan over the text with a
   * nesting depth, entered just after the opener with depth 1. It keeps the
   * reads of the comment loop: a `*` or `/` as the last character looks one
   * past the end; an inner comment is entered at its `*`; and when an inner
   * comment closes, the character after its `*` `/` is consumed unseen (a
   * newline there is not counted, and at the end of the text that read fails).
   * An inner comment left open reports and then fails at that same read, so
   * only the outermost level can end with "Unterminated Comment".
   */
  function CommentScan(src: string, lx: Lexer, depth: nat): Result<Lexer, Crash>
    requires depth >= 1 && lx.current <= |src|
    decreases |src| - lx.current
  {
    var i := lx.current;
    if i == |src| then
      if depth == 1 then Success(Report(lx, "Unterminated Comment")) else Failure(IndexOutOfRange(|src|))
    else if src[i] in {'*', '/'} && i + 1 == |src| then
      Failure(IndexOutOfRange(i + 1))
    else if src[i] == '*' && src[i + 1] == '/' then
      if depth == 1 then Success(lx.(current := i + 2))
      else if i + 2 == |src| then Failure(IndexOutOfRange(i + 2))
      else CommentScan(src, lx.(current := i + 3), depth - 1)
    else if src[i] == '/' && src[i + 1] == '*' then
      CommentScan(src, lx.(current := i + 1), depth + 1)
    else
      CommentScan(src, lx.(current := i + 1, line := if src[i] == '\n' then lx.line + 1 else lx.line), depth)
  }

  /** How a comment level at `depth` finishes once its loop has stopped at `body`. */
  function FrameEnd(src: string, body: Lexer, depth: nat): Result<Lexer, Crash>
    requires depth >= 1 && body.current <= |src|
    requires body.current == |src| || (body.current + 1 < |src| && src[body.current] == '*' && src[body.current + 1] == '/')
  {
    if body.current == |src| then
      if depth == 1 then Success(Report(body, "Unterminated Comment")) else Failure(IndexOutOfRange(|src|))
    else if depth == 1 then Success(body.(current := body.current + 2))
    else if body.current + 2 == |src| then Failure(IndexOutOfRange(|src|))
    else CommentScan(src, body.(current := body.current + 3), depth - 1)
  }

  /** The comment function finishes its level as `FrameEnd` does at depth 1. */
  lemma CommentIsFrameEnd(src: string, lx: Lexer)
    requires lx.current <= |src|
    ensures Comment(src, lx) ==
      if CommentLoop(src, lx).Failure? then Failure(CommentLoop(src, lx).error)
      else FrameEnd(src, CommentLoop(src, lx).value, 1)
  {
  }

  /** The comment loop at any depth, followed by the end of its level, is the depth scan. */
  lemma {:induction false} CommentLoopIsScan(src: string, lx: Lexer, depth: nat)
    requires depth >= 1 && lx.current <= |src|
    ensures CommentScan(src, lx, depth) ==
      if CommentLoop(src, lx).Failure? then Failure(CommentLoop(src, lx).error)
      else FrameEnd(src, CommentLoop(src, lx).value, depth)
    decreases |src| - lx.current
  {
    var i := lx.current;
    if i == |src| || (src[i] in {'*', '/'} && i + 1 == |src|) || (src[i] == '*' && src[i + 1] == '/') {
    } else if src[i] == '/' && src[i + 1] == '*' {
      NestedIsScan(src, lx, depth);
    } else {
      var next := lx.(current := i + 1, line := if src[i] == '\n' then lx.line + 1 else lx.line);
      CommentLoopIsScan(src, next, depth);
    }
  }

  /** One step of the comment loop at `/` `*`: run the inner comment, then consume one more character unseen. */
  lemma NestedLoopStep(src: string, lx: Lexer)
    requires lx.current + 1 < |src| && src[lx.current] == '/' && src[lx.current + 1] == '*'
    ensures var inner := Comment(src, lx.(current := lx.current + 1));
      && (inner.Failure? ==> CommentLoop(src, lx) == Failure(inner.error))
      && (inner.Success? && inner.value.current == |src| ==> CommentLoop(src, lx) == Failure(IndexOutOfRange(|src|)))
      && (inner.Success? && inner.value.current < |src| ==>
            CommentLoop(src, lx) == CommentLoop(src, inner.value.(current := inner.value.current + 1)))
  {
  }

  /** The nested case: the inner level runs at `depth + 1`, then the outer loop resumes unseen past it. */
  lemma {:induction false} NestedIsScan(src: string, lx: Lexer, depth: nat)
    requires depth >= 1 && lx.current + 1 < |src| && src[lx.current] == '/' && src[lx.current + 1] == '*'
    ensures CommentScan(src, lx, depth) ==
      if CommentLoop(src, lx).Failure? then Failure(CommentLoop(src, lx).error)
      else FrameEnd(src, CommentLoop(src, lx).value, depth)
    decreases |src| - lx.current, 0
  {
    var inner := lx.(current := lx.current + 1);
    assert CommentScan(src, lx, depth) == CommentScan(src, inner, depth + 1);
    CommentLoopIsScan(src, inner, depth + 1);
    CommentIsFrameEnd(src, inner);
    NestedLoopStep(src, lx);
    var loop := CommentLoop(src, inner);
    if loop.Failure? {
      assert CommentLoop(src, lx) == Failure(loop.error);
    } else if loop.value.current == |src| {
      assert CommentScan(src, inner, depth + 1) == Failure(IndexOutOfRange(|src|));
      assert CommentLoop(src, lx) == Failure(IndexOutOfRange(|src|));
    } else if loop.value.current + 2 == |src| {
      assert CommentScan(src, inner, depth + 1) == Failure(IndexOutOfRange(|src|));
      assert CommentLoop(src, lx) == Failure(IndexOutOfRange(|src|));
    } else {
      var next := loop.value.(current := loop.value.current + 3);
      assert FrameEnd(src, loop.value, depth + 1) == CommentScan(src, next, depth);
      assert CommentLoop(src, lx) == CommentLoop(src, next);
      CommentLoopIsScan(src, next, depth);
    }
  }

  /** The comment scanner is the nesting-depth scan entered at depth 1. */
  lemma CommentIsDepthScan(src: string, lx: Lexer)
    requires lx.current <= |src|
    ensures Comment(src, lx) == CommentScan(src, lx, 1)
  {
    CommentIsFrameEnd(src, lx);
    CommentLoopIsScan(src, lx, 1);
  }

  /**
   * What each step keeps holds over a whole run of steps: the cursor and the
   * line only move forward, the tokens and the reports only grow, and no
   * end-of-input token is added.
   */
  lemma {:induction false} StepsKeep(src: string, a: Lexer, b: Lexer)
    requires a.current <= |src| && Steps(src, a, b)
    ensures a.current <= b.current <= |src| && b.line >= a.line
    ensures Extends(a.tokens, b.tokens) && Extends(a.diags, b.diags)
    ensures forall k :: |a.tokens| <= k < |b.tokens| ==> b.tokens[k].kind != Eof
    decreases |src| - a.current
  {
    if a != b {
      var m :| Step(src, a, m) && Steps(src, m, b);
      StepsKeep(src, m, b);
      StepThenRest(src, a, m, b);
    }
  }

  /**
   * A run that adds no token and reports nothing begins with a blank or a
   * comment: the scan cannot pass over text that starts a lexeme without
   * adding its token.
   */
  lemma SilentRunStartsBlankOrSlash(src: string, a: Lexer, b: Lexer)
    requires a.current < b.current && Steps(src, a, b)
    requires b.tokens == a.tokens && b.diags == a.diags
    ensures src[a.current] in BlankChars || src[a.current] == '/'
  {
    var m :| Step(src, a, m) && Steps(src, m, b);
    StepsKeep(src, m, b);
  }

  /** Jumping the cursor over a letter without adding its token is not a run of steps. */
  lemma LetterIsNotSkipped(src: string, lx: Lexer)
    requires lx.current < |src| && IsAlpha(src[lx.current])
    ensures !Steps(src, lx, lx.(current := |src|))
  {
    var jump := lx.(current := |src|);
    assert src[lx.current] !in BlankChars && src[lx.current] != '/';
    if Steps(src, lx, jump) {
      SilentRunStartsBlankOrSlash(src, lx, jump);
    }
  }
}

=== FILE: tokens.dfy ===
/**
 * The lexical vocabulary shared by every stage: token kinds, the dynamic
 * values a literal or an evaluation can carry, tokens, and the two kinds of
 * diagnostic (syntax errors and runtime errors).
 */
module Tokens {

  /** The lexical categories, one per constant of the TokenType enum. */
  datatype TokenType =
    // single-character tokens
    | LeftParen | RightParen | LeftBrace | RightBrace
    | Comma | Dot | Minus | Plus | Semicolon | Slash | Star
    // one- or two-character tokens
    | Bang | BangEqual | Equal | EqualEqual
    | Greater | GreaterEqual | Less | LessEqual
    // literals
    | Identifier | String | Number
    // keywords
    | And | Class | Else | False | Fun | For | If | Nil | Or
    | Print | Return | Super | This | True | Var | While
    | Eof

  /** The text Java's `Enum.toString` gives for a token kind. */
  function KindName(t: TokenType): string {
    match t
    case LeftParen => "LEFT_PAREN"
    case RightParen => "RIGHT_PAREN"
    case LeftBrace => "LEFT_BRACE"
    case RightBrace => "RIGHT_BRACE"
    case Comma => "COMMA"
    case Dot => "DOT"
    case Minus => "MINUS"
    case Plus => "PLUS"
    case Semicolon => "SEMICOLON"
    case Slash => "SLASH"
    case Star => "STAR"
    case Bang => "BANG"
    case BangEqual => "BANG_EQUAL"
    case Equal => "EQUAL"
    case EqualEqual => "EQUAL_EQUAL"
    case Greater => "GREATER"
    case GreaterEqual => "GREATER_EQUAL"
    case Less => "LESS"
    case LessEqual => "LESS_EQUAL"
    case Identifier => "IDENTIFIER"
    case String => "STRING"
    case Number => "NUMBER"
    case And => "AND"
    case Class => "CLASS"
    case Else => "ELSE"
    case False => "FALSE"
    case Fun => "FUN"
    case For => "FOR"
    case If => "IF"
    case Nil => "NIL"
    case Or => "OR"
    case Print => "PRINT"
    case Return => "RETURN"
    case Super => "SUPER"
    case This => "THIS"
    case True => "TRUE"
    case Var => "VAR"
    case While => "WHILE"
    case Eof => "EOF"
  }

  /**
   * The Java objects that flow through the pipeline as literals and runtime
   * values. `Null` is Java's null, `Num` a Double (modelled as a real),
   * `Kind` a TokenType constant stored as a value (the parser does this for
   * the literals true, false and nil), and `Int` a boxed Integer (only the
   * printer's demonstration tree builds one).
   */
  datatype Value =
    | Null
    | Num(n: real)
    | Str(s: string)
    | Bool(b: bool)
    | Kind(k: TokenType)
    | Int(i: int)

  /** A lexical unit: kind, exact source text, literal value (Null if none), line. */
  datatype Token = Token(kind: TokenType, lexeme: string, literal: Value, line: int)

  /** A reported syntax or lexical error: line, location description, message. */
  datatype Diag = Diag(line: int, where: string, message: string)

  /** A runtime error: the token it is reported at and its message. */
  datatype RuntimeError = RuntimeError(token: Token, message: string)

  /** `a` is an initial part of `b`: a diagnostic or token, once reported, is never taken back. */
  predicate Extends<T(==)>(a: seq<T>, b: seq<T>) {
    |a| <= |b| && b[..|a|] == a
  }

  lemma ExtendsTrans<T>(a: seq<T>, b: seq<T>, c: seq<T>)
    requires Extends(a, b) && Extends(b, c)
    ensures Extends(a, c)
  {
    assert c[..|a|] == c[..|b|][..|a|];
  }

  /** Decimal text of a natural number, most significant digit first. */
  function NatToString(n: nat): (r: string)
    ensures |r| > 0
    ensures forall k :: 0 <= k < |r| ==> '0' <= r[k] <= '9'
  {
    var d := [(('0' as int) + n % 10) as char];
    if n < 10 then d else NatToString(n / 10) + d
  }

  /** Java's `Integer.toString`: a minus sign for negative numbers, then the digits. */
  function IntToString(i: int): (r: string)
    ensures |r| > 0
    ensures (r[0] == '-') <==> i < 0
  {
    if i < 0 then "-" + NatToString(-i) else NatToString(i)
  }

  /**
   * Java's `toString` of a value, given the text Java's `Double.toString`
   * produces for a number (IEEE-754 formatting is not modelled).
   * A null reference has no `toString`; `String.valueOf` would give "null".
   */
  function ObjectText(v: Value, show: real -> string): string {
    match v
    case Null => "null"
    case Num(n) => show(n)
    case Str(s) => s
    case Bool(b) => if b then "true" else "false"
    case Kind(k) => KindName(k)
    case Int(i) => IntToString(i)
  }
}

=== FILE: wrappers.dfy ===
/** Failure-compatible datatypes used in place of Java's null and exceptions. */
module Wrappers {

  /** A value or nothing; stands for a Java reference that may be null. */
  datatype Option<+T> = None | Some(value: T)

  /** A value or an error; stands for a Java call that may throw. */
  datatype Result<+R, +E> = Success(value: R) | Failure(error: E) {

    predicate IsFailure() {
      Failure?
    }

    function PropagateFailure<U>(): Result<U, E>
      requires Failure?
    {
      Failure(error)
    }

    function Extract(): R
      requires Success?
    {
      value
    }
  }
}
